=== FILE: README.md ===
# Supermarket admin front-end: a verified model of its screen logic

This project models the logic inside the screens of an Angular admin front-end for a small supermarket backend. It leaves out templates, routing and HTTP plumbing. What remains is:

- **The sell screen.** Loading the client and product lists once, the two searches, adding a product, clamping a quantity to stock, removing a line, the running total, and the detail rows posted after a sale (`SaleCart`, `Sell`).
- **The list screens' search.** The clients, suppliers, categories and products screens show the fetched list filtered by a case-insensitive substring match (`Search`).
- **Delete through a confirmation dialog.** The dialog stores the record id, emits one result per session, and the list screen deletes and refreshes (`ConfirmationDialog`, `ListScreen`).
- **Error-detail extraction.** Every failure handler turns a heterogeneous backend error body into one "Detalle" string (`ErrorDetail`).
- **The create and edit forms.** For categories, clients, suppliers and products: validation gates, reading the route's `id`, classifying a load failure as "not found" or generic, and the payload each submission sends (`Forms`, `CategoryForms`, `PartyForms`, `ProductForms`).
- **`processProduct`.** The normaliser applied to fetched products (`ProcessData`).

The model is purely functional.

- Each screen's signals are an immutable record.
- Each handler is a function from a state, plus the outcome of its HTTP call, to a new state.
- A `Reply` is either a value or a `Failure` with a status, URL, body and message.
- A submission returns the state and the payload it would send (`Forms.Submitted`).

The JavaScript behaviour the screens depend on is modelled explicitly:

- truthiness and `?.` reads (`Json`);
- `toLowerCase`, `trim` with the full ECMAScript white-space set, `includes`, `join`, and `String(x)` and unary `+` over integers, decimal fractions, the two infinities and NaN (`JsText`);
- the `TypeError` text produced when a property of `null` is read (`Http.NullRead`).

Each error-detail handler is written twice: as its nested conditionals, and as a list of rules read by one first-match ladder. Each handler's contract says the two agree.

The category search uses a case-insensitive substring match. Under it, the query `le` matches none of Lacteos, Bebidas and Limpieza (`Search.CategorySearchExample`).

## Model

| member | source | states |
|---|---|---|
| JsText.ToLower | src/app/routes/seller/client/client.component.ts:100 | keeps the length and lower-cases each ASCII capital in place, leaving every other character alone |
| JsText.ToLowerIdempotent | src/app/routes/seller/client/client.component.ts:100-103 | lower-casing an already lower-cased query or field changes nothing |
| JsText.Trim | src/app/routes/seller/category/create-category/create-category.component.ts:32 | the result has no white space at either end, and it is empty exactly when the input is all white space |
| JsText.TrimIdentity | src/app/routes/seller/category/create-category/create-category.component.ts:32 | a string with no white space at either end is its own trim |
| JsText.TrimIdempotent | src/app/routes/seller/category/create-category/create-category.component.ts:32 | trimming an already trimmed name changes nothing |
| JsText.TrimIsSlice | src/app/routes/seller/category/create-category/create-category.component.ts:32 | the trim is one contiguous slice of the input, and only white space lies before and after it |
| JsText.LowerThenTrim | src/app/routes/seller/sell/sell.component.ts:98 | lower-casing then trimming equals trimming then lower-casing |
| JsText.ContainsIff | src/app/routes/seller/client/client.component.ts:103-105 | the left-to-right `includes` search succeeds exactly when the needle occurs at some position |
| JsText.Contains | src/app/routes/seller/client/client.component.ts:103-105 | no contract of its own; `JsText.ContainsIff` states that it holds exactly when the needle occurs somewhere |
| JsText.JoinStrings | src/app/routes/seller/client/client.component.ts:153-156 | no contract of its own; `ErrorDetail.JoinItems` and `ErrorDetail.JoinFieldMap` state what joining gives |
| JsText.NatToString | src/app/routes/seller/client/edit-client/edit-client.component.ts:72 | a natural number prints as a non-empty all-digit numeral with no leading zero |
| JsText.IntToString | src/app/routes/seller/client/edit-client/edit-client.component.ts:72 | a printed integer is all digits exactly when it is non-negative, and starts with "-" exactly when it is negative |
| JsText.ToNumber | src/app/routes/seller/category/edit-category/edit-category.component.ts:47 | a blank parameter reads as 0, and every result is in canonical form (a fraction never has a trailing zero digit); `JsText.ToNumberNaNIff` states when the result is NaN and `JsText.NumberTextRoundTrip` what the others are |
| JsText.NumberRoundTrip | src/app/routes/seller/category/edit-category/edit-category.component.ts:47 | reading back a printed integer with unary `+` gives the same integer |
| JsText.NumberTextRoundTrip | src/app/routes/seller/category/edit-category/edit-category.component.ts:47 | every canonical number, whether an integer, a decimal fraction, an infinity or NaN, printed with `String` and read back with unary `+` is itself |
| JsText.ToNumberNaNIff | src/app/routes/seller/category/edit-category/edit-category.component.ts:47 | unary `+` gives NaN exactly when the trimmed text is not empty and is not a numeric literal of section 7.1.4.1.1 of ECMA-262: a signed or unsigned decimal with optional point and exponent, `Infinity`, or an unsigned `0x`, `0o` or `0b` integer |
| JsText.ExponentExample | src/app/routes/seller/category/edit-category/edit-category.component.ts:47 | "1e2" reads as 100 |
| JsText.HexExample | src/app/routes/seller/category/edit-category/edit-category.component.ts:47 | "0x10" reads as 16 |
| JsText.FractionExample | src/app/routes/seller/category/edit-category/edit-category.component.ts:47 | "1.5" reads as fifteen tenths and prints back as "1.5" |
| JsText.WholeFractionExample | src/app/routes/seller/category/edit-category/edit-category.component.ts:47 | "1.0" reads as the integer 1 |
| JsText.SignedHexExample | src/app/routes/seller/category/edit-category/edit-category.component.ts:47 | "-0x10" reads as NaN |
| JsText.InfinityExample | src/app/routes/seller/category/edit-category/edit-category.component.ts:47 | " Infinity " reads as positive infinity |
| JsText.NumberText | src/app/routes/seller/client/edit-client/edit-client.component.ts:72 | no contract of its own; `JsText.NumberTextRoundTrip` states that unary `+` reads back what it prints |
| Json.Lookup | src/app/routes/seller/client/client.component.ts:150-152 | a member is found exactly when some field has the key, and its value is that of the first such field |
| Json.Get | src/app/routes/seller/client/client.component.ts:150-152 | an optional property read yields a value only on an object, and then exactly when the key is present |
| Json.Truthy | src/app/routes/seller/client/client.component.ts:150-152 | no contract of its own; it is the JavaScript truthiness the handlers' `||` and `if` tests read, used by `ErrorDetail.MessageWins` and `ErrorDetail.NoBodyGivesTransportMessage` |
| Json.ToStr | src/app/routes/seller/client/client.component.ts:153-156 | no contract of its own; `ErrorDetail.ValidationListExample` and `ErrorDetail.FieldMapCategoryForm` state what it prints |
| Json.PropText | src/app/routes/seller/client/client.component.ts:150-152 | no contract of its own; `ErrorDetail.MessageWins` states that a truthy `message` is shown as it is |
| Json.ObjectValues | src/app/routes/seller/client/create-client/create-client.component.ts:79 | `Object.values` of an array is its items, and of an object its values in field order |
| Json.Flat | src/app/routes/seller/client/create-client/create-client.component.ts:79-80 | flattening one level leaves nothing exactly when every value is an empty array, and changes nothing when no value is an array |
| Json.FirstValue | src/app/routes/seller/category/create-category/create-category.component.ts:70-76 | the first key's value exists exactly when the body has a value, and is the first of `Object.values` |
| Http.NullRead | src/app/routes/seller/client/create-client/create-client.component.ts:56 | reading a property of a `null` response gives a failure with no status, no URL and no body |
| Forms.Responded | src/app/routes/seller/client/create-client/create-client.component.ts:54-57 | a `null` success body becomes the TypeError of reading the named property; any other outcome passes through |
| Forms.FailureText | src/app/routes/seller/client/create-client/create-client.component.ts:93-95 | a found detail gives the prefixed message; a detail whose extraction threw leaves no message |
| Forms.LooseId | src/app/routes/seller/category/edit-category/edit-category.component.ts:41-47 | only a missing or empty parameter is refused; anything else becomes its unary-plus number, possibly NaN |
| Forms.StrictId | src/app/routes/seller/client/edit-client/edit-client.component.ts:42-49 | a missing, empty or NaN parameter is refused; an accepted one is the number the parameter reads as |
| Forms.StrictRefinesLoose | src/app/routes/seller/client/edit-client/edit-client.component.ts:42-49 | where the client and supplier screens accept an id, the category and product screens read the same number; the former refuse exactly what the latter refuse or read as NaN |
| Forms.IdRoundTrip | src/app/routes/seller/client/edit-client/edit-client.component.ts:42-49 | a link built from a record id opens that id on both kinds of edit screen |
| Forms.NonNumeralId | src/app/routes/seller/category/edit-category/edit-category.component.ts:41-47 | "abc" is refused by the strict reading and becomes NaN in the loose one |
| Forms.BlankIdIsZero | src/app/routes/seller/client/edit-client/edit-client.component.ts:42-49 | a parameter of one blank is accepted by both readings as id 0 |
| Forms.OtherNumeralIds | src/app/routes/seller/client/edit-client/edit-client.component.ts:42-49 | the strict reading accepts "1e2" as 100, "0x10" as 16 and "1.5" as fifteen tenths, and refuses "-0x10"; the loose reading takes "1.5" too and fetches "-0x10" as NaN |
| ErrorDetail.JoinItems | src/app/routes/seller/client/client.component.ts:153-156 | joining a detail array throws exactly when an element is `null`, and otherwise joins each element's text with ", " |
| ErrorDetail.ApplyRule | src/app/routes/seller/client/create-client/create-client.component.ts:66-92 | only the rule that joins a `detail` array can throw, and the two rules that fall back to the serialised body decide exactly the array and object bodies |
| ErrorDetail.Ladder | src/app/routes/seller/client/create-client/create-client.component.ts:66-92 | a ladder always decides the detail, and it throws only if it contains the rule that joins a `detail` array |
| ErrorDetail.Gated | src/app/routes/seller/client/create-client/create-client.component.ts:67-91 | the gated ladder always decides, and it throws only on a truthy body read by a ladder that joins a `detail` array |
| ErrorDetail.LadderFirstMatch | src/app/routes/seller/client/create-client/create-client.component.ts:66-92 | the first rule that applies decides the detail |
| ErrorDetail.LadderDefault | src/app/routes/seller/client/create-client/create-client.component.ts:66 | when no rule applies the detail stays "Error desconocido." |
| ErrorDetail.ClientDeleteDetail | src/app/routes/seller/client/client.component.ts:146-161 | the client delete handler's detail equals the gated ladder: string body, then `message`, then `detail` with arrays joined |
| ErrorDetail.SupplierDeleteDetail | src/app/routes/seller/supplier/supplier.component.ts:138-140 | the supplier delete detail equals the ladder of `detail`, then the transport message |
| ErrorDetail.ListDeleteDetail | src/app/routes/seller/category/category.component.ts:149-150 | the category and inventory delete detail equals the ladder of `message`, then the transport message |
| ErrorDetail.SaleDetail | src/app/routes/seller/sell/sell.component.ts:414-418 | the sale failure detail equals the ladder of `message`, `detail`, then the transport message |
| ErrorDetail.CategoryFormDetail | src/app/routes/seller/category/create-category/create-category.component.ts:54-85 | the category form detail equals the gated ladder ending in the first item of the first key |
| ErrorDetail.PartyFormDetail | src/app/routes/seller/client/create-client/create-client.component.ts:66-92 | the client and supplier form detail equals the gated ladder ending in the flattened values |
| ErrorDetail.ProductFormDetail | src/app/routes/seller/inventory/create-product/create-product.component.ts:121-141 | the product form detail equals the gated ladder ending in the flattened values, with `detail` taken as it is |
| ErrorDetail.ClientDeleteThrowsIff | src/app/routes/seller/client/client.component.ts:150-156 | the client delete detail throws exactly when there is a non-string body with no truthy `message` and a `detail` array holding `null` |
| ErrorDetail.PartyFormThrowsIff | src/app/routes/seller/client/create-client/create-client.component.ts:68-77 | the client and supplier form detail throws under exactly the same condition |
| ErrorDetail.NoBodyGivesTransportMessage | src/app/routes/seller/client/create-client/create-client.component.ts:90-92 | with no body, every gated handler shows the transport message |
| ErrorDetail.MessageWins | src/app/routes/seller/client/client.component.ts:150-151 | a truthy `message` on a non-string body decides the detail in every handler |
| ErrorDetail.CategoryAndProductFormsAgree | src/app/routes/seller/inventory/create-product/create-product.component.ts:121-141 | the category and product forms agree on every failure except an object body with neither `message` nor `detail` |
| ErrorDetail.ValidationListExample | src/app/routes/seller/category/create-category/create-category.component.ts:63-68 | a body whose `detail` is a list of `msg` objects is joined by the client handlers, given as "[object Object]" by the category and product forms |
| ErrorDetail.FieldMapBody | src/app/routes/seller/client/create-client/create-client.component.ts:78-81 | a field-to-messages body has no `message` or `detail`, its first value is the first field's list, and its flattened values join to all messages |
| ErrorDetail.FlatFieldMap | src/app/routes/seller/client/create-client/create-client.component.ts:79 | flattening two message lists gives their messages in order |
| ErrorDetail.JoinFieldMap | src/app/routes/seller/client/create-client/create-client.component.ts:81 | joining three messages with a blank gives "requerido corto invalido" |
| ErrorDetail.FieldMapCategoryForm | src/app/routes/seller/category/create-category/create-category.component.ts:69-76 | the category form shows only the first message of the first field |
| ErrorDetail.FieldMapOtherForms | src/app/routes/seller/inventory/create-product/create-product.component.ts:121-141 | the client, supplier and product forms show every message of every field |
| Search.Filter | src/app/routes/seller/client/client.component.ts:101-106 | every kept element satisfies the predicate and there are no more of them than in the input |
| Search.FilterMembers | src/app/routes/seller/client/client.component.ts:101-106 | an element is kept exactly when it is in the input and satisfies the predicate |
| Search.FilterIsSubsequence | src/app/routes/seller/client/client.component.ts:101-106 | filtering keeps the input order |
| Search.FilterIdempotent | src/app/routes/seller/client/client.component.ts:101-106 | filtering twice is filtering once |
| Search.FilterCount | src/app/routes/seller/client/client.component.ts:101-106 | a kept element appears in the result as many times as in the input, and a dropped one not at all |
| Search.ClientView | src/app/routes/seller/client/client.component.ts:95-108 | an empty search shows every client; otherwise exactly the clients whose name, email or phone contains the lower-cased search |
| Search.SupplierView | src/app/routes/seller/supplier/supplier.component.ts:93-104 | an empty search shows every supplier; otherwise exactly the matching ones |
| Search.CategoryView | src/app/routes/seller/category/category.component.ts:102-112 | an empty search shows every category; otherwise exactly the ones whose lower-cased name contains the lower-cased search |
| Search.ProductView | src/app/routes/seller/inventory/inventory.component.ts:100-111 | an empty search shows every product; otherwise exactly the matching ones |
| Search.ViewsKeepCounts | src/app/routes/seller/client/client.component.ts:95-108 | each list screen shows every copy of a matching record and no copy of any other |
| Search.ViewsAreSubsequences | src/app/routes/seller/client/client.component.ts:95-108 | each list screen shows its records in the order they were fetched |
| Search.ViewsIdempotent | src/app/routes/seller/client/client.component.ts:95-108 | filtering the shown list again with the same search changes nothing |
| Search.CategoryViewIgnoresQueryCase | src/app/routes/seller/category/category.component.ts:102-112 | the case of the search text does not matter |
| Search.CategorySearchExample | src/app/routes/seller/category/category.component.ts:102-112 | "le" matches none of Lacteos, Bebidas and Limpieza |
| Search.CategorySearchHit | src/app/routes/seller/category/category.component.ts:102-112 | "bEb" matches exactly Bebidas |
| Search.SellQuery | src/app/routes/seller/sell/sell.component.ts:98 | the sell screen's query is the same whether it is lower-cased before or after trimming |
| Search.ClientMatches | src/app/routes/seller/client/client.component.ts:102-106 | no contract of its own; `Search.ClientView` states that the list shows exactly the matching clients |
| Search.SupplierMatches | src/app/routes/seller/supplier/supplier.component.ts:98-102 | no contract of its own; `Search.SupplierView` states that the list shows exactly the matching suppliers |
| Search.CategoryMatches | src/app/routes/seller/category/category.component.ts:108-110 | no contract of its own; `Search.CategoryView`, `Search.CategorySearchExample` and `Search.CategorySearchHit` state what it matches |
| Search.ProductMatches | src/app/routes/seller/inventory/inventory.component.ts:106-108 | no contract of its own; `Search.ProductView` states that the list shows exactly the matching products |
| Search.SellClientMatches | src/app/routes/seller/sell/sell.component.ts:185-189 | no contract of its own; `Sell.OnClientSearch` states that the suggestions are exactly the matching clients |
| Search.SellProductMatches | src/app/routes/seller/sell/sell.component.ts:237-239 | no contract of its own; `Sell.OnProductSearch` states that the suggestions are exactly the matching products |
| ProcessData.Or | src/app/utils/processData.ts:6-10 | the logical or of `a` and `b` is `a` when `a` is truthy and `b` otherwise |
| ProcessData.ProcessProductAsWritten | src/app/utils/processData.ts:3-12 | the function as written copies id and category and defaults the text fields and price, but takes stock from the price |
| ProcessData.StockFromPriceExample | src/app/utils/processData.ts:10 | a product priced 10 with stock 3 comes out with stock 10 |
| ProcessData.ProcessProduct | src/app/utils/processData.ts:3-12 | the corrected function, which takes stock from the stock field; `ProcessData.ProcessPreservesTruthyFields`, `ProcessData.ProcessIdempotent` and `ProcessData.AsWrittenDiffersOnlyInStock` state what it means |
| ProcessData.ProcessedFieldsPresent | src/app/utils/processData.ts:7-10 | after processing, description and name are truthy and price and stock are numbers or truthy |
| ProcessData.ProcessPreservesTruthyFields | src/app/utils/processData.ts:3-12 | a product whose fields are all truthy comes out unchanged |
| ProcessData.ProcessIdempotent | src/app/utils/processData.ts:3-12 | processing an already processed product changes nothing |
| ProcessData.AsWrittenDiffersOnlyInStock | src/app/utils/processData.ts:10 | the code as written differs from the corrected one only in stock, and agrees exactly when the defaulted price equals the defaulted stock |
| ConfirmationDialog.Initial | src/app/components/confirmation-dialog/confirmation-dialog.component.ts:32 | closing a new dialog emits nothing, and confirming or cancelling it emits `true` or `false` with no data |
| ConfirmationDialog.Open | src/app/components/confirmation-dialog/confirmation-dialog.component.ts:33-34 | after opening, confirm and cancel emit the given data; dismissing emits a cancellation carrying that data, and does so exactly when there is data |
| ConfirmationDialog.OnConfirm | src/app/components/confirmation-dialog/confirmation-dialog.component.ts:48-51 | confirming emits a confirmed result with the stored data and clears it |
| ConfirmationDialog.OnCancel | src/app/components/confirmation-dialog/confirmation-dialog.component.ts:53-56 | cancelling emits an unconfirmed result with the stored data and clears it |
| ConfirmationDialog.OnDialogClose | src/app/components/confirmation-dialog/confirmation-dialog.component.ts:58-64 | closing emits an unconfirmed result only while data is stored, and otherwise leaves the dialog alone |
| ConfirmationDialog.Step | src/app/components/confirmation-dialog/confirmation-dialog.component.ts:33-64 | a result carries the data held before the event and leaves the dialog empty, and it is a confirmation exactly on Confirm; nothing is emitted exactly on opening or on dismissing an empty dialog; opening stores its data |
| ConfirmationDialog.OneResultPerOpen | src/app/components/confirmation-dialog/confirmation-dialog.component.ts:48-64 | over any event sequence, results carrying data never outnumber the opens that stored data |
| ConfirmationDialog.Run | src/app/components/confirmation-dialog/confirmation-dialog.component.ts:28-64 | no contract of its own: the results the `confirmed` output emits over a run of events; `ConfirmationDialog.RunAppend`, `ConfirmationDialog.OneResultPerOpen` and `ConfirmationDialog.SessionsEmitDecisions` state what it means |
| ConfirmationDialog.RunAppend | src/app/components/confirmation-dialog/confirmation-dialog.component.ts:28-64 | running two event sequences one after the other emits the first run's results, then the second's from where the first left the dialog |
| ConfirmationDialog.SessionEmitsOnce | src/app/components/confirmation-dialog/confirmation-dialog.component.ts:33-64 | open, then confirm, cancel or dismiss, emits exactly one result with the data, confirmed only for confirm |
| ConfirmationDialog.SessionsEmitDecisions | src/app/components/confirmation-dialog/confirmation-dialog.component.ts:33-64 | a run of sessions emits one result per session, in order |
| ListScreen.StartFetch | src/app/routes/seller/client/client.component.ts:72-73 | a fetch shows the spinner, clears the error, and clears the success message only on the screens that do |
| ListScreen.BeginFetch | src/app/routes/seller/category/category.component.ts:74-77 | the category and inventory screens clear the success message when they fetch; the client and supplier screens keep it |
| ListScreen.EndFetch | src/app/routes/seller/client/client.component.ts:75-86 | a reply shows its list, with `null` as empty; a failure shows the empty list and the screen's fetch error; the spinner stops either way |
| ListScreen.FetchCycle | src/app/routes/seller/client/client.component.ts:71-88 | after a fetch there is an error message exactly when it failed |
| ListScreen.OpenDeleteConfirmation | src/app/routes/seller/client/client.component.ts:111-120 | opening the confirmation clears both messages and stores the record id in the dialog |
| ListScreen.DeleteDetail | src/app/routes/seller/supplier/supplier.component.ts:138-140 | every delete handler except the client one always finds a detail |
| ListScreen.BeginDelete | src/app/routes/seller/client/client.component.ts:122-130 | an unconfirmed or data-less result changes nothing; a confirmed one starts deleting its id with both messages cleared |
| ListScreen.FinishDeleteWith | src/app/routes/seller/client/client.component.ts:134-169 | a success refreshes the list, and keeps the success message unless the refresh clears it; a failure shows the prefixed detail; deletion ends either way |
| ListScreen.HandleDeleteConfirmation | src/app/routes/seller/category/category.component.ts:126-161 | the handler as written: a successful delete refreshes the list with its spinner on and, on the category and inventory screens, ends with no success message; a failed one leaves the spinner as it was |
| ListScreen.HandleDeleteConfirmationFixed | src/app/routes/seller/category/category.component.ts:126-161 | the corrected handler shows the success message on every screen, with the same refresh and spinner |
| ListScreen.FixedDiffersOnlyInSuccessMessage | src/app/routes/seller/category/category.component.ts:141-147 | the two versions send the same request and reach the same state apart from the success message |
| ListScreen.CategoryDeleteMessageLost | src/app/routes/seller/category/category.component.ts:141-147 | deleting category 5 shows no message as written, and "Categoría ID 5 eliminada con éxito." when corrected |
| ListScreen.SessionThenDelete | src/app/routes/seller/client/client.component.ts:111-130 | a dialog session followed by the handler deletes the record exactly when the user confirmed |
| ListScreen.ClientDeleteThrowLeavesNoMessage | src/app/routes/seller/client/client.component.ts:153-156 | a client delete failure whose detail array holds `null` leaves neither message |
| SaleCart.FindIndex | src/app/routes/seller/sell/sell.component.ts:295-297 | the result is the first line with the product id, or -1 exactly when there is none |
| SaleCart.NewLine | src/app/routes/seller/sell/sell.component.ts:309-321 | a new line is valid exactly when the product has stock, it is found under the product id, and a cart of that line alone totals the product price |
| SaleCart.AddToCart | src/app/routes/seller/sell/sell.component.ts:293-321 | an absent product is appended as a new line; a present one gains a unit when below stock, and every other line is unchanged |
| SaleCart.Clamp | src/app/routes/seller/sell/sell.component.ts:328-342 | the quantity is at least 1, at most the stock when there is stock, and unchanged when already in range; a quantity at or above a positive stock becomes the stock, and one at most 1, or any quantity when the stock is at most 1, becomes 1 |
| SaleCart.ClampIdempotent | src/app/routes/seller/sell/sell.component.ts:328-342 | clamping a clamped quantity changes nothing |
| SaleCart.UpdateQuantity | src/app/routes/seller/sell/sell.component.ts:328-342 | lines of other products are unchanged; lines of the product get the clamped quantity and a matching subtotal |
| SaleCart.UpdateQuantityIdempotent | src/app/routes/seller/sell/sell.component.ts:328-342 | setting the same quantity twice is setting it once |
| SaleCart.Remove | src/app/routes/seller/sell/sell.component.ts:343-347 | exactly the lines of other products remain, each as many times as in the cart |
| SaleCart.RemoveKeepsOrder | src/app/routes/seller/sell/sell.component.ts:343-347 | removing keeps the order of the remaining lines |
| SaleCart.TotalAppend | src/app/routes/seller/sell/sell.component.ts:76-78 | the total of two carts together is the sum of their totals |
| SaleCart.Total | src/app/routes/seller/sell/sell.component.ts:76-78 | no contract of its own; `SaleCart.TotalAppend`, `SaleCart.TotalReplace` and `SaleCart.DetailPayloadsSumToTotal` state how it behaves |
| SaleCart.SaleTotal | src/app/routes/seller/sell/sell.component.ts:76-78 | the loop computes the sum of the line subtotals |
| SaleCart.TotalReplace | src/app/routes/seller/sell/sell.component.ts:298-308 | replacing one line changes the total by the difference of the subtotals |
| SaleCart.AddToCartTotal | src/app/routes/seller/sell/sell.component.ts:282-321 | adding a product raises the total by its price when new, by its unit price when below stock, and by nothing otherwise |
| SaleCart.AddPreservesValid | src/app/routes/seller/sell/sell.component.ts:282-321 | adding keeps every quantity between 1 and the stock, every subtotal equal to quantity times price, and product ids unique |
| SaleCart.UpdatePreservesValid | src/app/routes/seller/sell/sell.component.ts:328-342 | updating a quantity keeps the cart valid |
| SaleCart.RemovePreservesValid | src/app/routes/seller/sell/sell.component.ts:343-347 | removing a line keeps the cart valid |
| SaleCart.DetailPayloads | src/app/routes/seller/sell/sell.component.ts:387-393 | one detail payload per cart line, with the sale id and that line's product, quantity and subtotal |
| SaleCart.DetailPayloadsSumToTotal | src/app/routes/seller/sell/sell.component.ts:374-393 | the detail subtotals add up to the sale total |
| Sell.OnClientSearch | src/app/routes/seller/sell/sell.component.ts:97-124 | an empty query shows every client; otherwise exactly the matches, with the no-match message exactly when nothing matches and no client is selected |
| Sell.OnProductSearch | src/app/routes/seller/sell/sell.component.ts:126-147 | an empty query shows every product; otherwise exactly the matches, with the no-match message exactly when nothing matches |
| Sell.SearchesKeepOrder | src/app/routes/seller/sell/sell.component.ts:101-106 | both suggestion lists keep the loaded order |
| Sell.ClientSearchNormalises | src/app/routes/seller/sell/sell.component.ts:98 | searching for a text or for its trimmed lower-cased form suggests the same clients |
| Sell.StartClientFetch | src/app/routes/seller/sell/sell.component.ts:150-159 | a client load is requested exactly when no clients are loaded and none is loading; a request clears the client message, and otherwise an empty search text shows the loaded clients again |
| Sell.EndClientFetch | src/app/routes/seller/sell/sell.component.ts:160-196 | a loaded list is shown whole for an empty search text and otherwise exactly its matches, an empty one says no client is registered, a failure empties both lists with its own message, and nothing else changes |
| Sell.StartProductFetch | src/app/routes/seller/sell/sell.component.ts:198-207 | a product load is requested exactly when no products are loaded and none is loading, with the same clearing and re-showing as for clients |
| Sell.EndProductFetch | src/app/routes/seller/sell/sell.component.ts:208-248 | the product reply is handled as the client reply, with the product texts |
| Sell.ListsLoadOnce | src/app/routes/seller/sell/sell.component.ts:150-159 | a second call during a load sends nothing, and after a reply a new load is requested exactly when the list came back empty or failed |
| Sell.LoadMessages | src/app/routes/seller/sell/sell.component.ts:150-248 | a sent load leaves a message exactly when it failed or found nothing, and the failure text exactly when it failed |
| Sell.LoadAgreesWithSearch | src/app/routes/seller/sell/sell.component.ts:160-191 | a successful load shows what the search subscription would show for the current text over the loaded list |
| Sell.OnClientSearchFocus | src/app/routes/seller/sell/sell.component.ts:250-254 | focusing requests a load exactly when no clients are loaded and none is loading, opens the suggestions unless a client is selected, and never changes the clients shown |
| Sell.OnProductSearchFocus | src/app/routes/seller/sell/sell.component.ts:272-277 | focusing requests a load exactly when no products are loaded and none is loading, and always opens the suggestions |
| Sell.OpeningLoadsBothLists | src/app/routes/seller/sell/sell.component.ts:93-95 | opening a screen with no lists requests both |
| Sell.NumericValue | src/app/routes/seller/sell/sell.component.ts:427-434 | the value read is never NaN: a missing value or non-numeral text is 0, and a numeral is its `Number` value |
| Sell.NumericValueRoundTrip | src/app/routes/seller/sell/sell.component.ts:427-434 | a number entered as its own text is read back unchanged |
| Sell.SelectClient | src/app/routes/seller/sell/sell.component.ts:258-263 | selecting a client fills in its name, hides the suggestions and clears the message, without touching the cart |
| Sell.ClearSelectedClient | src/app/routes/seller/sell/sell.component.ts:264-270 | clearing the client empties the search and shows every client again, without touching the cart |
| Sell.SelectedClientSilencesSearch | src/app/routes/seller/sell/sell.component.ts:108-114 | while a client is selected, a search shows no message and no suggestions |
| Sell.AddProductToCart | src/app/routes/seller/sell/sell.component.ts:282-326 | a product without stock leaves the cart alone and shows the stock message; otherwise it is added to the cart |
| Sell.AddProductKeepsCartValid | src/app/routes/seller/sell/sell.component.ts:282-326 | adding a product through the screen keeps the cart valid |
| Sell.ClearSale | src/app/routes/seller/sell/sell.component.ts:348-359 | clearing empties the cart, the client, both searches and every message |
| Sell.StartRegisterSale | src/app/routes/seller/sell/sell.component.ts:361-377 | a sale is sent exactly when a client is selected and the cart is not empty, with that client and the cart total; otherwise the matching message |
| Sell.SentTotal | src/app/routes/seller/sell/sell.component.ts:374-393 | the total sent equals the sum of the detail subtotals whatever the sale id |
| Sell.InvalidResponseText | src/app/routes/seller/sell/sell.component.ts:383-386 | a sale reply that is falsy or has no truthy `id` shows "Respuesta inválida al crear la venta." |
| Sell.ValidSaleResponse | src/app/routes/seller/sell/sell.component.ts:383 | no contract of its own; `Sell.FinishSaleWith` states that a reply failing it posts no details and shows the invalid-reply text |
| Sell.FirstFailure | src/app/routes/seller/sell/sell.component.ts:395-401 | the number of details posted before the first failure: every earlier one succeeded and the one there failed |
| Sell.FinishSaleWith | src/app/routes/seller/sell/sell.component.ts:379-422 | a failed or invalid sale posts nothing, shows the failure and leaves the cart, the selected client and the rest of the screen as they were; a valid one posts details in order until the first failure, and when none fails the screen is exactly what `clearSale` leaves, with the success message set or not |
| Sell.FinishRegisterSale | src/app/routes/seller/sell/sell.component.ts:403-412 | as written, a fully accepted sale leaves the screen exactly as `clearSale` leaves it (cart, client, both searches, suggestions and messages reset), so no success message remains; a failed or invalid sale only sets the error message and ends the registration |
| Sell.FinishRegisterSaleFixed | src/app/routes/seller/sell/sell.component.ts:403-412 | corrected, a fully accepted sale leaves the screen as `clearSale` leaves it except that the success message is shown; a failed or invalid sale only sets the error message and ends the registration |
| Sell.PostedArePrefixOfCart | src/app/routes/seller/sell/sell.component.ts:387-401 | the posted details are the cart lines in order, up to the first failure |
| Sell.FixedSaleDiffersOnlyInMessage | src/app/routes/seller/sell/sell.component.ts:403-412 | the two versions post the same details and reach the same state apart from the success message |
| Sell.Sale9Text | src/app/routes/seller/sell/sell.component.ts:403-406 | sale 9 of total 30 reads "Venta #9 registrada. Total: 30.00" |
| Sell.SaleMessageLost | src/app/routes/seller/sell/sell.component.ts:403-412 | registering sale 9 shows no message as written and its text when corrected |
| CategoryForms.SubmitCreate | src/app/routes/seller/category/create-category/create-category.component.ts:31-98 | a blank name is refused; otherwise the trimmed name is sent, and success clears the field and reports it while failure shows the detail |
| CategoryForms.CreateSendsTrimmedName | src/app/routes/seller/category/create-category/create-category.component.ts:31-42 | a request is sent exactly when the name has a non-blank character, and the name sent has no blank at either end |
| CategoryForms.CreateIgnoresSurroundingBlanks | src/app/routes/seller/category/create-category/create-category.component.ts:32 | surrounding blanks do not change what is sent |
| CategoryForms.Init | src/app/routes/seller/category/edit-category/edit-category.component.ts:33-40 | no contract of its own; `CategoryForms.LoadClassification` states what a load started after it shows, including that no success message is left over |
| CategoryForms.OnIdParam | src/app/routes/seller/category/edit-category/edit-category.component.ts:41-47 | a missing id shows its message and stops the spinner; any other id is kept |
| CategoryForms.EndFetch | src/app/routes/seller/category/edit-category/edit-category.component.ts:52-80 | a found category fills the name; a 404 shows not found; any other failure shows the load error; the spinner stops |
| CategoryForms.LoadClassification | src/app/routes/seller/category/edit-category/edit-category.component.ts:52-80 | after a load, "not found" holds exactly on a 404 and there is an error exactly when no category came back, and no success message is left over from before the screen opened |
| CategoryForms.NonNumericIdIsFetched | src/app/routes/seller/category/edit-category/edit-category.component.ts:41-47 | the id "abc" is kept as NaN and fetched |
| CategoryForms.SubmitEdit | src/app/routes/seller/category/edit-category/edit-category.component.ts:82-161 | an invalid or blank name is refused, so is a missing id; otherwise the trimmed name is sent for the id, and the reply changes only the spinner and the two messages |
| CategoryForms.CreateAndEditSendSameName | src/app/routes/seller/category/edit-category/edit-category.component.ts:104-106 | the create and edit screens send the same name for the same input |
| PartyForms.SubmitCreate | src/app/routes/seller/client/create-client/create-client.component.ts:30-105 | an invalid form is refused; otherwise the fields are sent, and success resets them and reports while failure shows the detail |
| PartyForms.CreateReportsOnce | src/app/routes/seller/supplier/create-supplier/create-supplier.component.ts:29-103 | a create shows a success message exactly when the reply is a non-null body, and never both messages |
| PartyForms.NullCreateResponse | src/app/routes/seller/client/create-client/create-client.component.ts:54-57 | a `null` reply shows the TypeError of reading `id` and keeps the fields |
| PartyForms.Init | src/app/routes/seller/client/edit-client/edit-client.component.ts:36-41 | no contract of its own; `PartyForms.RefusedIdShowsNoSpinner` and `PartyForms.LoadThenSaveSendsRecord` state what opening the screen through it leads to |
| PartyForms.OnIdParam | src/app/routes/seller/client/edit-client/edit-client.component.ts:42-53 | a refused id shows the invalid-id message; an accepted one is kept and fetched |
| PartyForms.EndFetch | src/app/routes/seller/client/edit-client/edit-client.component.ts:60-91 | a found record fills the fields; `null` or a 404 shows not found; any other failure shows the load error; the spinner stops |
| PartyForms.LoadClassification | src/app/routes/seller/client/edit-client/edit-client.component.ts:60-91 | "not found" holds exactly on `null` or a 404, and there is an error exactly when no record came back |
| PartyForms.LinkOpensRecord | src/app/routes/seller/client/edit-client/edit-client.component.ts:42-53 | a link built from a record id opens that record |
| PartyForms.RefusedIdShowsNoSpinner | src/app/routes/seller/supplier/edit-supplier/edit-supplier.component.ts:35-51 | a refused id shows no spinner on either screen, though only the client screen stops it |
| PartyForms.SubmitEdit | src/app/routes/seller/client/edit-client/edit-client.component.ts:99-175 | an invalid form or a missing id is refused; otherwise the fields are sent for the id |
| PartyForms.LoadThenSaveSendsRecord | src/app/routes/seller/client/edit-client/edit-client.component.ts:60-124 | loading a record and saving it sends that record for its id |
| PartyForms.CreateAndEditSendSameFields | src/app/routes/seller/supplier/edit-supplier/edit-supplier.component.ts:118-122 | create and edit send the same fields |
| ProductForms.Payload | src/app/routes/seller/inventory/create-product/create-product.component.ts:97-103 | no contract of its own; `ProductForms.Populate` and `ProductForms.LoadThenSaveSendsProduct` state that an unedited loaded product is sent back with its own fields |
| ProductForms.Offered | src/app/routes/seller/inventory/create-product/create-product.component.ts:50-57 | the offered categories are the reply, or none for `null` |
| ProductForms.FetchCategories | src/app/routes/seller/inventory/create-product/create-product.component.ts:43-71 | the categories are shown; an empty list or a failure shows its message |
| ProductForms.CategoriesErrorIff | src/app/routes/seller/inventory/create-product/create-product.component.ts:43-71 | there is a category error exactly when no category is offered |
| ProductForms.SubmitCreate | src/app/routes/seller/inventory/create-product/create-product.component.ts:73-154 | an invalid form or missing category is refused; otherwise the payload is sent |
| ProductForms.CreateThenResubmit | src/app/routes/seller/inventory/create-product/create-product.component.ts:108-118 | after a successful create the form is reset, so submitting again is refused for the missing category |
| ProductForms.Populate | src/app/routes/seller/inventory/edit-product/edit-product.component.ts:116-122 | the filled form has a category chosen, and its payload is the product's own name, description, price, stock and category whatever the form held before |
| ProductForms.LoadFailed | src/app/routes/seller/inventory/edit-product/edit-product.component.ts:86-108 | a 404 for the product shows not found, a categories failure shows the category error, anything else the load error |
| ProductForms.ProductMissing | src/app/routes/seller/inventory/edit-product/edit-product.component.ts:91-94 | no contract of its own; `ProductForms.LoadFailed` and `ProductForms.LoadNotFoundIff` state what it decides |
| ProductForms.CategoriesFailed | src/app/routes/seller/inventory/edit-product/edit-product.component.ts:99-101 | no contract of its own; `ProductForms.LoadFailed` states that it empties the category list and sets only the category error |
| ProductForms.LoadWith | src/app/routes/seller/inventory/edit-product/edit-product.component.ts:51-114 | a missing id is refused; a loaded product fills the form; the spinner stops |
| ProductForms.Loaded | src/app/routes/seller/inventory/edit-product/edit-product.component.ts:77-85 | a loaded product fills the form and offers its categories |
| ProductForms.Load | src/app/routes/seller/inventory/edit-product/edit-product.component.ts:56-62 | as written, a missing id ends with the generic load error |
| ProductForms.LoadFixed | src/app/routes/seller/inventory/edit-product/edit-product.component.ts:56-62 | corrected, a missing id keeps its own message |
| ProductForms.MissingIdMessageLost | src/app/routes/seller/inventory/edit-product/edit-product.component.ts:56-62 | the two versions differ for a missing id only in the message |
| ProductForms.LoadVersionsAgreeWithId | src/app/routes/seller/inventory/edit-product/edit-product.component.ts:63-111 | with an id the two versions agree |
| ProductForms.LoadNotFoundIff | src/app/routes/seller/inventory/edit-product/edit-product.component.ts:56-98 | "not found" holds exactly for a missing id or a 404 for the product |
| ProductForms.LoadErrorIff | src/app/routes/seller/inventory/edit-product/edit-product.component.ts:86-108 | the generic load error without "not found" appears exactly for a missing product or a failure that is neither a product 404 nor a categories failure |
| ProductForms.NullReadIsGeneric | src/app/routes/seller/inventory/edit-product/edit-product.component.ts:77-106 | a `null` product gives the generic load error |
| ProductForms.SubmitEdit | src/app/routes/seller/inventory/edit-product/edit-product.component.ts:124-202 | a missing id or invalid form is refused, so is a missing category; otherwise the payload is sent for the id |
| ProductForms.LoadThenSaveSendsProduct | src/app/routes/seller/inventory/edit-product/edit-product.component.ts:51-152 | loading a product and saving it sends that product for its id |
| ProductForms.CreateAndEditSendSamePayload | src/app/routes/seller/inventory/edit-product/edit-product.component.ts:146-152 | create and edit send the same payload |

## Left out

- HTTP, RxJS scheduling (`switchMap` cancellation, `combineLatest`, `debounceTime`) and subscription teardown. An HTTP outcome is an input to the handler that receives it.
- Timers: the 3000 ms clearing of success messages, the 2000 ms navigation after a product update, and the delays of `hideClientSuggestions` and `hideProductSuggestions`, whose callbacks only clear the suggestion flag. These run after the modelled state change.
- Floating point. Prices, stock and totals are integers, and `toFixed(2)` of an integer is its numeral followed by ".00".
- `JSON.stringify` is a parameter (`serialise`). The case where it throws, which the handlers catch and ignore, is not modelled.
- `Object.keys` and `Object.values` take an object's fields in their stored order. The engine's reordering of integer-like keys is not modelled.
- Angular form state (`markAsTouched`, `resetForm`). Form validity is a boolean input.
- Sell.NumericValue: reads the input's value text; the DOM event and the input element are not modelled. Where the number goes is set in the screen's template, which is not part of this model.
- The fallback id built from `Date.now()` and `Math.random()` when a cart line has no product id. Every product is assumed to carry an id.
- Record fields of types other than string, such as a missing `email` read with `?.`. Every record field is a string.
- JsText.ToLower: lower-cases ASCII letters only. Full Unicode case mapping is not modelled.
- JsText.ToNumber: a decimal reads as its exact value, not the nearest double. So very long numerals are not rounded, "1e400" is not Infinity, and "-0" is 0 rather than negative zero.
- JsText.NumberText: prints every finite number positionally. The engine switches to exponent form from 10^21 up and below 10^-6.
- Json.Lookup: reads the first member with a key, and `Object.values` lists every member. `JSON.parse` keeps the last value of a repeated key and lists it once. Bodies with repeated keys are not modelled.
- The authentication service, the session guard, the report screens and the application configuration are not part of this model.
- The category edit screen accepts an id that is not a number and fetches it as NaN. This is modelled as the code does it (`CategoryForms.NonNumericIdIsFetched`) and is not listed as a finding.
- The supplier edit screen does not stop its spinner when it refuses an id. No spinner shows, because it was never started (`PartyForms.RefusedIdShowsNoSpinner`).

## Findings

| source | as written | input that shows it | evidently intended | confidence | as-written member | corrected member |
|---|---|---|---|---|---|---|
| src/app/utils/processData.ts:10 | `stock` is taken from `precio` | a product with precio 10 and stock 3 comes out with stock 10 | `stock` taken from `stock` | not executed | ProcessData.ProcessProductAsWritten (ProcessData.StockFromPriceExample) | ProcessData.ProcessProduct |
| src/app/routes/seller/sell/sell.component.ts:403-412 | the success message is set, then `clearSale` erases it | sale 9 of total 30 with every detail accepted leaves no success message | "Venta #9 registrada. Total: 30.00" stays visible | not executed | Sell.FinishRegisterSale (Sell.SaleMessageLost) | Sell.FinishRegisterSaleFixed |
| src/app/routes/seller/category/category.component.ts:141-147 | the success message is set, then the refresh it triggers clears it at once (the products screen does the same) | deleting category 5 leaves no success message | "Categoría ID 5 eliminada con éxito." stays visible until its timer clears it | not executed | ListScreen.HandleDeleteConfirmation (ListScreen.CategoryDeleteMessageLost) | ListScreen.HandleDeleteConfirmationFixed |
| src/app/routes/seller/inventory/edit-product/edit-product.component.ts:56-62 | the missing-id message is overwritten by the `catchError` handler's generic load error | opening the edit screen with no `id` shows the generic load error | "ID de producto no encontrado en la URL." stays | not executed | ProductForms.Load (ProductForms.MissingIdMessageLost) | ProductForms.LoadFixed |

=== FILE: category_forms.dfy ===
/** The create and edit category screens: the trimmed name is required,
    the edit screen reads the category id from the route, loads the
    category and classifies a failed load. */
module CategoryForms {
  import opened Wrappers
  import opened JsText
  import opened Json
  import opened Http
  import opened ErrorDetail
  import opened Forms

  /** The body of a create or update request. */
  datatype CategoryPayload = CategoryPayload(nombre: string)

  datatype CreateState = CreateState(categoryName: string, isLoading: bool,
                                     errorMessage: Option<string>, successMessage: Option<string>)

  const EmptyNameError: string := "El nombre de la categoría no puede estar vacío."

  function CreatedText(name: string): string {
    "Categoría \"" + name + "\" creada con éxito."
  }

  function CreateFailedText(detail: string): string {
    "Fallo al crear la categoría. Detalle: " + detail
  }

  /** `submitForm` of the create screen. A name that is empty once trimmed
      is refused; otherwise the trimmed name is posted. Success resets the
      field; a failure reports the extracted detail. */
  function SubmitCreate(s: CreateState, outcome: Reply<Json>, serialise: Json -> string): (r: Submitted<CreateState, CategoryPayload>)
    ensures Trim(s.categoryName) == "" ==> r == Submitted(s.(errorMessage := Some(EmptyNameError)), None)
    ensures Trim(s.categoryName) != "" ==> r.request == Some(CategoryPayload(Trim(s.categoryName))) && !r.state.isLoading
    ensures Trim(s.categoryName) != "" && outcome.Ok? ==>
      r.state == CreateState("", false, None, Some(CreatedText(Trim(s.categoryName))))
    ensures Trim(s.categoryName) != "" && outcome.Failed? ==>
      r.state == CreateState(s.categoryName, false,
        Some(CreateFailedText(CategoryFormDetail(outcome.failure, serialise))), None)
  {
    var name := Trim(s.categoryName);
    if name == "" then Submitted(s.(errorMessage := Some(EmptyNameError)), None)
    else
      var state := match outcome
        case Ok(_) => CreateState("", false, None, Some(CreatedText(name)))
        case Failed(f) => CreateState(s.categoryName, false, Some(CreateFailedText(CategoryFormDetail(f, serialise))), None);
      Submitted(state, Some(CategoryPayload(name)))
  }

  /** A request is sent exactly when the name holds a non-blank character,
      and the name it carries has no blank at either end. */
  lemma CreateSendsTrimmedName(s: CreateState, outcome: Reply<Json>, serialise: Json -> string)
    ensures var r := SubmitCreate(s, outcome, serialise);
      && (r.request.Some? <==> HasNonBlank(s.categoryName))
      && (r.request.Some? ==> var n := r.request.value.nombre;
            n != "" && !IsJsWhiteSpace(n[0]) && !IsJsWhiteSpace(n[|n| - 1]))
  {
    TrimmedRequest(SubmitCreate(s, outcome, serialise).request, s.categoryName);
  }

  /** What a request built from the trimmed name carries. */
  lemma TrimmedRequest(request: Option<CategoryPayload>, name: string)
    requires request == if Trim(name) == "" then None else Some(CategoryPayload(Trim(name)))
    ensures request.Some? <==> HasNonBlank(name)
    ensures request.Some? ==> var n := request.value.nombre;
      n != "" && !IsJsWhiteSpace(n[0]) && !IsJsWhiteSpace(n[|n| - 1])
  {
    NonBlankTrim(name);
    RequestCarries(request, Trim(name));
  }

  /** A request built from a name is present exactly when the name is not empty, and carries it. */
  lemma RequestCarries(request: Option<CategoryPayload>, t: string)
    requires request == if t == "" then None else Some(CategoryPayload(t))
    ensures request.Some? <==> t != ""
    ensures request.Some? ==> request.value.nombre == t
  {
  }

  /** Blanks around the name make no difference to what is sent or shown. */
  lemma CreateIgnoresSurroundingBlanks(s: CreateState, outcome: Reply<Json>, serialise: Json -> string)
    ensures var t := s.(categoryName := Trim(s.categoryName));
      SubmitCreate(s, outcome, serialise).request == SubmitCreate(t, outcome, serialise).request
  {
    TrimIdempotent(s.categoryName);
  }

  // ---------------------------------------------------------------------
  // The edit screen.

  datatype EditState = EditState(categoryId: Option<JsNumber>, categoryName: string, isLoading: bool,
                                 isFetchingData: bool, errorMessage: Option<string>,
                                 successMessage: Option<string>, categoryNotFoundError: bool)

  const MissingIdError: string := "ID de categoría no encontrado en la URL."
  const LoadError: string := "Fallo al cargar los detalles de la categoría."
  const InvalidNameError: string := "El nombre de la categoría no puede estar vacío y debe ser válido."
  const NoIdError: string := "Error: ID de categoría no disponible para la actualización."

  function NotFoundText(id: JsNumber): string {
    "Categoría con ID " + NumberText(id) + " no encontrada."
  }

  function UpdatedText(name: string, id: JsNumber): string {
    "Categoría \"" + name + "\" (ID: " + NumberText(id) + ") actualizada con éxito."
  }

  /** `ngOnInit` before the route answers. */
  function Init(s: EditState): EditState
  {
    s.(isFetchingData := true, errorMessage := None, successMessage := None, categoryNotFoundError := false)
  }

  /** The route's answer: a missing or empty id stops the screen with the
      not-found flag; any other text becomes the id (NaN included) and its
      details are requested. The second component is the id fetched. */
  function OnIdParam(s: EditState, idParam: Option<string>): (r: (EditState, Option<JsNumber>))
    ensures r.1 == LooseId(idParam)
    ensures r.1.None? ==>
      r.0 == s.(errorMessage := Some(MissingIdError), categoryNotFoundError := true, isFetchingData := false)
    ensures r.1.Some? ==>
      r.0 == s.(categoryId := r.1, isFetchingData := true, categoryNotFoundError := false, errorMessage := None)
  {
    match LooseId(idParam)
    case None => (s.(errorMessage := Some(MissingIdError), categoryNotFoundError := true, isFetchingData := false), None)
    case Some(id) => (s.(categoryId := Some(id), isFetchingData := true, categoryNotFoundError := false, errorMessage := None), Some(id))
  }

  /** The details' outcome. A `null` body fails on reading `nombre`, which
      lands in the generic branch; a 404 sets the not-found flag. */
  function EndFetch(s: EditState, id: JsNumber, reply: Reply<Option<string>>): (r: EditState)
    ensures !r.isFetchingData
    ensures reply.Ok? && reply.value.Some? ==> r == s.(categoryName := reply.value.value, isFetchingData := false)
    ensures reply.Failed? && Status(reply.failure) == Some(404) ==>
      r == s.(errorMessage := Some(NotFoundText(id)), categoryNotFoundError := true, isFetchingData := false)
    ensures reply == Ok(None) || (reply.Failed? && Status(reply.failure) != Some(404)) ==>
      r == s.(errorMessage := Some(LoadError), isFetchingData := false)
  {
    var failure := match reply
      case Ok(None) => Some(NullRead("nombre"))
      case Ok(Some(_)) => None
      case Failed(f) => Some(f);
    if failure.None? then s.(categoryName := reply.value.value, isFetchingData := false)
    else if Status(failure.value) == Some(404) then
      s.(errorMessage := Some(NotFoundText(id)), categoryNotFoundError := true, isFetchingData := false)
    else s.(errorMessage := Some(LoadError), isFetchingData := false)
  }

  /** A load ends with the not-found flag exactly on a 404, and with an
      error exactly when no name arrived; on a screen that `ngOnInit` has
      just prepared it leaves no success message either. */
  lemma LoadClassification(s: EditState, idParam: Option<string>, reply: Reply<Option<string>>)
    requires LooseId(idParam).Some?
    ensures var (started, id) := OnIdParam(s, idParam);
      var r := EndFetch(started, id.value, reply);
      && (r.categoryNotFoundError <==> reply.Failed? && Status(reply.failure) == Some(404))
      && (r.errorMessage.None? <==> reply.Ok? && reply.value.Some?)
      && !r.isFetchingData
    ensures var (started, id) := OnIdParam(Init(s), idParam);
      EndFetch(started, id.value, reply).successMessage.None?
  {
  }

  /** A route id that is not a numeral is still fetched, as NaN. */
  lemma NonNumericIdIsFetched(s: EditState)
    ensures OnIdParam(s, Some("abc")).1 == Some(NaN)
  {
    NonNumeralId();
  }

  /** `submitForm` of the edit screen: an invalid form or an empty trimmed
      name is refused first, then a missing id; otherwise the trimmed name
      is sent for the id. The field is kept after success. */
  function SubmitEdit(s: EditState, formInvalid: bool, outcome: Reply<Json>, serialise: Json -> string)
    : (r: Submitted<EditState, (JsNumber, CategoryPayload)>)
    ensures formInvalid || Trim(s.categoryName) == "" ==>
      r == Submitted(s.(errorMessage := Some(InvalidNameError)), None)
    ensures !formInvalid && Trim(s.categoryName) != "" && s.categoryId.None? ==>
      r == Submitted(s.(errorMessage := Some(NoIdError)), None)
    ensures r.request.Some? <==> !formInvalid && Trim(s.categoryName) != "" && s.categoryId.Some?
    ensures r.request.Some? ==>
      && r.request.value == (s.categoryId.value, CategoryPayload(Trim(s.categoryName)))
      && !r.state.isLoading && r.state.categoryName == s.categoryName
      && (outcome.Ok? ==> r.state.successMessage == Some(UpdatedText(Trim(s.categoryName), s.categoryId.value))
                          && r.state.errorMessage == None)
      && (outcome.Failed? ==> r.state.successMessage == None)
      && (outcome.Failed? ==> r.state.errorMessage == Some("Fallo al actualizar la categoría. Detalle: " + CategoryFormDetail(outcome.failure, serialise)))
    ensures r.request.Some? && outcome.Ok? ==>
      r.state == s.(isLoading := false, errorMessage := None, successMessage := Some(UpdatedText(Trim(s.categoryName), s.categoryId.value)))
    ensures r.request.Some? && outcome.Failed? ==>
      r.state == s.(isLoading := false, successMessage := None,
                    errorMessage := Some("Fallo al actualizar la categoría. Detalle: " + CategoryFormDetail(outcome.failure, serialise)))
  {
    var name := Trim(s.categoryName);
    if formInvalid || name == "" then Submitted(s.(errorMessage := Some(InvalidNameError)), None)
    else if s.categoryId.None? then Submitted(s.(errorMessage := Some(NoIdError)), None)
    else
      var id := s.categoryId.value;
      var state := match outcome
        case Ok(_) => s.(isLoading := false, errorMessage := None, successMessage := Some(UpdatedText(name, id)))
        case Failed(f) => s.(isLoading := false, successMessage := None,
                             errorMessage := Some("Fallo al actualizar la categoría. Detalle: " + CategoryFormDetail(f, serialise)));
      Submitted(state, Some((id, CategoryPayload(name))))
  }

  /** The create and edit screens send the same name for the same field. */
  lemma CreateAndEditSendSameName(c: CreateState, e: EditState, o1: Reply<Json>, o2: Reply<Json>, serialise: Json -> string)
    requires c.categoryName == e.categoryName && e.categoryId.Some?
    ensures var rc := SubmitCreate(c, o1, serialise);
      var re := SubmitEdit(e, false, o2, serialise);
      rc.request.Some? <==> re.request.Some?
    ensures SubmitCreate(c, o1, serialise).request.Some? ==>
      SubmitCreate(c, o1, serialise).request.value == SubmitEdit(e, false, o2, serialise).request.value.1
  {
  }
}

=== FILE: confirmation_dialog.dfy ===
/** The generic confirmation dialog: one `extraData` slot, filled by `open`
    and emptied by each button and by the dialog's own `close` event. A
    result carries the decision and the data that was stored. */
module ConfirmationDialog {
  import opened Wrappers

  /** `{confirmed, data}`; `None` is `null`. */
  datatype ConfirmationResult<T> = ConfirmationResult(confirmed: bool, data: Option<T>)

  /** The dialog's state: the stored `extraData`. */
  datatype Dialog<T> = Dialog(extraData: Option<T>)

  /** A dialog as constructed: nothing stored, so closing it emits nothing
      and a button pressed before any `open` reports `null` data. */
  function Initial<T>(): (d: Dialog<T>)
    ensures OnDialogClose(d) == Emission(d, None)
    ensures OnConfirm(d).emitted == Some(ConfirmationResult(true, None))
    ensures OnCancel(d).emitted == Some(ConfirmationResult(false, None))
  {
    Dialog(None)
  }

  /** `open(data)`: `data ?? null` is stored; `open()` passes `None`.
      Whatever was stored before, the next decision reports `data`. */
  function Open<T>(d: Dialog<T>, data: Option<T>): (r: Dialog<T>)
    ensures OnConfirm(r).emitted == Some(ConfirmationResult(true, data))
    ensures OnCancel(r).emitted == Some(ConfirmationResult(false, data))
    ensures data.Some? <==> OnDialogClose(r).emitted.Some?
    ensures data.Some? ==> OnDialogClose(r).emitted == Some(ConfirmationResult(false, data))
  {
    Dialog(data)
  }

  /** What a handler does: the next state and the result it emits, if any. */
  datatype Emission<T> = Emission(dialog: Dialog<T>, emitted: Option<ConfirmationResult<T>>)

  /** `onConfirm`: emits `{confirmed: true, data: stored}`, then clears. */
  function OnConfirm<T>(d: Dialog<T>): (r: Emission<T>)
    ensures r.emitted == Some(ConfirmationResult(true, d.extraData))
    ensures r.dialog.extraData == None
  {
    Emission(Dialog(None), Some(ConfirmationResult(true, d.extraData)))
  }

  /** `onCancel`: emits `{confirmed: false, data: stored}`, then clears. */
  function OnCancel<T>(d: Dialog<T>): (r: Emission<T>)
    ensures r.emitted == Some(ConfirmationResult(false, d.extraData))
    ensures r.dialog.extraData == None
  {
    Emission(Dialog(None), Some(ConfirmationResult(false, d.extraData)))
  }

  /** `onDialogClose` (Escape, backdrop, or the `close()` that follows a
      button): emits a cancellation only while data is stored. */
  function OnDialogClose<T>(d: Dialog<T>): (r: Emission<T>)
    ensures d.extraData.Some? ==> r.emitted == Some(ConfirmationResult(false, d.extraData))
    ensures d.extraData.None? ==> r.emitted == None && r.dialog == d
    ensures r.dialog.extraData == None
  {
    if d.extraData.Some? then Emission(Dialog(None), Some(ConfirmationResult(false, d.extraData)))
    else Emission(d, None)
  }

  /** A user-visible event reaching the dialog. */
  datatype Event<T> = OpenWith(data: Option<T>) | Confirm | Cancel | Close

  /** The dialog's reaction to one event. A result, when one is emitted,
      carries what was stored and leaves the slot empty; it is a
      confirmation exactly for the confirm button; nothing is emitted
      exactly for an `open` or for a close with nothing stored. */
  function Step<T>(d: Dialog<T>, e: Event<T>): (r: Emission<T>)
    ensures r.emitted.Some? ==> r.dialog.extraData == None && r.emitted.value.data == d.extraData
    ensures r.emitted.Some? ==> (r.emitted.value.confirmed <==> e.Confirm?)
    ensures r.emitted.None? <==> e.OpenWith? || (e.Close? && d.extraData.None?)
    ensures e.OpenWith? ==> r.dialog.extraData == e.data
  {
    match e
    case OpenWith(data) => Emission(Open(d, data), None)
    case Confirm => OnConfirm(d)
    case Cancel => OnCancel(d)
    case Close => OnDialogClose(d)
  }

  /** The results a run of events emits, in order, and the final state. */
  datatype Trace<T> = Trace(dialog: Dialog<T>, results: seq<ConfirmationResult<T>>)

  function Run<T>(d: Dialog<T>, es: seq<Event<T>>): Trace<T>
    decreases |es|
  {
    if |es| == 0 then Trace(d, [])
    else
      var s := Step(d, es[0]);
      var rest := Run(s.dialog, es[1..]);
      Trace(rest.dialog, (if s.emitted.Some? then [s.emitted.value] else []) + rest.results)
  }

  /** Running two event sequences one after the other is running their
      concatenation. */
  lemma {:induction false} RunAppend<T>(d: Dialog<T>, a: seq<Event<T>>, b: seq<Event<T>>)
    ensures Run(d, a + b).dialog == Run(Run(d, a).dialog, b).dialog
    ensures Run(d, a + b).results == Run(d, a).results + Run(Run(d, a).dialog, b).results
    decreases |a|
  {
    if |a| > 0 {
      assert (a + b)[1..] == a[1..] + b;
      RunAppend(Step(d, a[0]).dialog, a[1..], b);
    } else {
      assert a + b == b;
    }
  }

  /** The number of `open` calls that stored data. */
  function OpensWithData<T>(es: seq<Event<T>>): nat
    decreases |es|
  {
    if |es| == 0 then 0
    else (if es[0].OpenWith? && es[0].data.Some? then 1 else 0) + OpensWithData(es[1..])
  }

  /** The number of results that carry data. */
  function ResultsWithData<T>(rs: seq<ConfirmationResult<T>>): nat
    decreases |rs|
  {
    if |rs| == 0 then 0
    else (if rs[0].data.Some? then 1 else 0) + ResultsWithData(rs[1..])
  }

  lemma {:induction false} ResultsWithDataAppend<T>(a: seq<ConfirmationResult<T>>, b: seq<ConfirmationResult<T>>)
    ensures ResultsWithData(a + b) == ResultsWithData(a) + ResultsWithData(b)
    decreases |a|
  {
    if |a| > 0 {
      assert (a + b)[1..] == a[1..] + b;
      ResultsWithDataAppend(a[1..], b);
    } else {
      assert a + b == b;
    }
  }

  /** At most one result with data per `open` that stored it: each stored
      value is emitted at most once, whatever the order of button presses
      and close events. A value still stored at the end is counted too. */
  lemma {:induction false} OneResultPerOpen<T>(d: Dialog<T>, es: seq<Event<T>>)
    ensures var t := Run(d, es);
      ResultsWithData(t.results) + (if t.dialog.extraData.Some? then 1 else 0)
        <= OpensWithData(es) + (if d.extraData.Some? then 1 else 0)
    decreases |es|
  {
    if |es| > 0 {
      var s := Step(d, es[0]);
      OneResultPerOpen(s.dialog, es[1..]);
      var head := if s.emitted.Some? then [s.emitted.value] else [];
      ResultsWithDataAppend(head, Run(s.dialog, es[1..]).results);
    }
  }

  /** How the user ends one session with the dialog. */
  datatype Choice = PressConfirm | PressCancel | Dismiss

  /** The events of one session: the open, then either a button followed
      by the `close` event the dialog element raises when the button shuts
      it, or a dismissal, which is that `close` event alone. */
  function SessionEvents<T>(data: T, c: Choice): seq<Event<T>> {
    [OpenWith(Some(data))] + match c
      case PressConfirm => [Confirm, Close]
      case PressCancel => [Cancel, Close]
      case Dismiss => [Close]
  }

  /** Every session emits exactly one result: the user's decision with the
      data it was opened with; a dismissal counts as a cancellation carrying
      the data, and the closing event that follows a button emits nothing. */
  lemma SessionEmitsOnce<T>(d: Dialog<T>, data: T, c: Choice)
    ensures Run(d, SessionEvents(data, c)).results == [ConfirmationResult(c == PressConfirm, Some(data))]
    ensures Run(d, SessionEvents(data, c)).dialog.extraData == None
  {
    var es := SessionEvents(data, c);
    var d1 := Step(d, es[0]).dialog;
    assert d1.extraData == Some(data);
    if c == Dismiss {
      assert es[1..] == [Close];
      assert Run(d1, [Close]) == Trace(Dialog(None), [ConfirmationResult(false, Some(data))]);
    } else {
      var d2 := Step(d1, es[1]).dialog;
      assert es[1..][1..] == [Close];
      assert Run(d2, [Close]) == Trace(Dialog(None), []);
    }
  }

  /** The concatenated events of several sessions. */
  function Sessions<T>(ss: seq<(T, Choice)>): seq<Event<T>>
    decreases |ss|
  {
    if |ss| == 0 then [] else SessionEvents(ss[0].0, ss[0].1) + Sessions(ss[1..])
  }

  /** The results those sessions should emit: one per session, in order. */
  function Decisions<T>(ss: seq<(T, Choice)>): (r: seq<ConfirmationResult<T>>)
    ensures |r| == |ss|
    ensures forall i :: 0 <= i < |ss| ==> r[i] == ConfirmationResult(ss[i].1 == PressConfirm, Some(ss[i].0))
  {
    seq(|ss|, i requires 0 <= i < |ss| => ConfirmationResult(ss[i].1 == PressConfirm, Some(ss[i].0)))
  }

  /** A run of sessions emits exactly one decision per session, in order. */
  lemma {:induction false} SessionsEmitDecisions<T>(d: Dialog<T>, ss: seq<(T, Choice)>)
    ensures Run(d, Sessions(ss)).results == Decisions(ss)
    decreases |ss|
  {
    if |ss| == 0 {
      assert Decisions(ss) == [];
    } else {
      var first := SessionEvents(ss[0].0, ss[0].1);
      RunAppend(d, first, Sessions(ss[1..]));
      SessionEmitsOnce(d, ss[0].0, ss[0].1);
      var d1 := Run(d, first).dialog;
      SessionsEmitDecisions(d1, ss[1..]);
      assert Decisions(ss) == [Decisions(ss)[0]] + Decisions(ss[1..]);
    }
  }
}

=== FILE: entities.dfy ===
/** The records the screens list, search and edit, with the fields the
    screens read. Identifiers and amounts are JavaScript numbers, modelled as
    integers. */
module Entities {

  /** A customer, as the client list and the sell screen receive it. */
  datatype Client = Client(id: int, nombre: string, email: string, telefono: string)

  /** A supplier. */
  datatype Supplier = Supplier(id: int, nombre: string, contacto: string, direccion: string)

  /** A product category. */
  datatype Category = Category(id: int, nombre: string)

  /** A product with its price, units in stock and category. */
  datatype Product = Product(id: int, nombre: string, descripcion: string, precio: int, stock: int, categoriaId: int)
}

=== FILE: error_detail.dfy ===
/** How each create, edit, delete and sale handler turns a failure into the
    one "detail" string it shows after "Detalle: ".

    Every variant is a fixed decision order. The order is written twice: once
    as a list of rules read by one generic first-match ladder (the
    declarative description), and once as the nested conditionals of the
    handler itself. Each handler's contract says the two agree. */
module ErrorDetail {
  import opened Wrappers
  import opened JsText
  import opened Json
  import opened Http

  /** The default every handler starts from. */
  const Unknown: string := "Error desconocido."

  /** What one rule makes of a failure: it does not apply, it yields the
      detail text, or evaluating it throws a `TypeError`. */
  datatype Step = Pass | Found(text: string) | Throws

  /** `e.msg || e.message || e` for one non-null element of a `detail` array. */
  function ItemText(e: Json): string
    requires !e.JNull?
  {
    if TruthyProp(Get(e, "msg")) then PropText(Get(e, "msg"))
    else if TruthyProp(Get(e, "message")) then PropText(Get(e, "message"))
    else ToStr(e)
  }

  /** `items.map(e => e.msg || e.message || e).join(', ')`; reading `.msg`
      of a `null` element throws. */
  function JoinItems(items: seq<Json>): (r: Step)
    ensures r.Throws? <==> exists i :: 0 <= i < |items| && items[i] == JNull
    ensures r.Found? ==> r.text == JoinStrings(seq(|items|, i requires 0 <= i < |items| && items[i] != JNull => ItemText(items[i])), ", ")
  {
    if exists i :: 0 <= i < |items| && items[i] == JNull then Throws
    else Found(JoinStrings(seq(|items|, i requires 0 <= i < |items| && items[i] != JNull => ItemText(items[i])), ", "))
  }

  /** The rules the handlers draw on. */
  datatype Rule =
      /** `typeof error.error === 'string'`: the body itself. */
    | StringBody
      /** `error.error.message` when truthy. */
    | MessageField
      /** `error.error.detail` when truthy, as it is. */
    | DetailField
      /** `error.error.detail` when truthy; an array is joined item by item. */
    | DetailJoined
      /** A non-empty array body whose first element has a truthy `msg`. */
    | FirstItemMsg
      /** An array or object body: the first element of the first key's value
          when that is a non-empty array, else the serialised body. */
    | FirstKeyItem
      /** An array or object body: all values flattened one level and joined
          with " ", or the serialised body when that leaves nothing. */
    | FlatValues
      /** `error.message` when truthy. */
    | TransportMessage

  /** What `rule` makes of `f`; `serialise` is `JSON.stringify`. Only the
      rule that joins a `detail` array can throw, and the two rules that
      fall back to the serialised body decide every array or object body. */
  function ApplyRule(rule: Rule, f: Failure, serialise: Json -> string): (r: Step)
    ensures r.Throws? ==> rule == DetailJoined
    ensures rule == FirstKeyItem || rule == FlatValues ==> (r.Pass? <==> !IsObjectLike(Body(f)))
  {
    var body := Body(f);
    match rule
    case StringBody => if body.JStr? then Found(body.s) else Pass
    case MessageField =>
      if TruthyProp(Get(body, "message")) then Found(PropText(Get(body, "message"))) else Pass
    case DetailField =>
      if TruthyProp(Get(body, "detail")) then Found(PropText(Get(body, "detail"))) else Pass
    case DetailJoined =>
      var d := Get(body, "detail");
      if !TruthyProp(d) then Pass
      else if d.value.JArr? then JoinItems(d.value.items)
      else Found(ToStr(d.value))
    case FirstItemMsg =>
      if body.JArr? && |body.items| > 0 && TruthyProp(Get(body.items[0], "msg"))
      then Found(PropText(Get(body.items[0], "msg")))
      else Pass
    case FirstKeyItem =>
      if !IsObjectLike(body) then Pass
      else
        var first := FirstValue(body);
        if first.Some? && first.value.JArr? && |first.value.items| > 0
        then Found(ToStr(first.value.items[0]))
        else Found(serialise(body))
    case FlatValues =>
      if !IsObjectLike(body) then Pass
      else
        var values := Flat(ObjectValues(body));
        if |values| > 0 then Found(JoinJson(values, " ")) else Found(serialise(body))
    case TransportMessage => if Message(f) != "" then Found(Message(f)) else Pass
  }

  /** The first rule that applies decides; when none does the detail stays
      `Unknown`. A ladder always decides, and it can throw only when it
      joins a `detail` array. */
  function Ladder(rules: seq<Rule>, f: Failure, serialise: Json -> string): (r: Step)
    ensures !r.Pass?
    ensures r.Throws? ==> DetailJoined in rules
    decreases |rules|
  {
    if |rules| == 0 then Found(Unknown)
    else
      var s := ApplyRule(rules[0], f, serialise);
      if s.Pass? then Ladder(rules[1..], f, serialise) else s
  }

  /** The shape `if (error.error) { ladder } else { detail = error.message }`.
      It always decides, and it throws only on a truthy body read by a ladder
      that joins a `detail` array. */
  function Gated(rules: seq<Rule>, f: Failure, serialise: Json -> string): (r: Step)
    ensures !r.Pass?
    ensures r.Throws? ==> Truthy(Body(f)) && DetailJoined in rules
  {
    if Truthy(Body(f)) then Ladder(rules, f, serialise) else Found(Message(f))
  }

  /** The ladder is a first match: rule `i` decides when every earlier rule
      passes and rule `i` does not. */
  lemma {:induction false} LadderFirstMatch(rules: seq<Rule>, f: Failure, serialise: Json -> string, i: nat)
    requires i < |rules|
    requires forall j :: 0 <= j < i ==> ApplyRule(rules[j], f, serialise).Pass?
    requires !ApplyRule(rules[i], f, serialise).Pass?
    ensures Ladder(rules, f, serialise) == ApplyRule(rules[i], f, serialise)
    decreases i
  {
    if i > 0 {
      assert ApplyRule(rules[0], f, serialise).Pass?;
      assert forall j :: 0 <= j < i - 1 ==> rules[1..][j] == rules[j + 1];
      LadderFirstMatch(rules[1..], f, serialise, i - 1);
    }
  }

  /** When no rule applies the ladder yields `Unknown`. */
  lemma {:induction false} LadderDefault(rules: seq<Rule>, f: Failure, serialise: Json -> string)
    requires forall j :: 0 <= j < |rules| ==> ApplyRule(rules[j], f, serialise).Pass?
    ensures Ladder(rules, f, serialise) == Found(Unknown)
    decreases |rules|
  {
    if |rules| > 0 {
      assert forall j :: 0 <= j < |rules| - 1 ==> rules[1..][j] == rules[j + 1];
      LadderDefault(rules[1..], f, serialise);
    }
  }

  // ---------------------------------------------------------------------
  // The decision orders of the individual handlers.

  /** Client list delete: string body, `message`, `detail` (arrays joined). */
  const ClientDeleteRules: seq<Rule> := [StringBody, MessageField, DetailJoined]
  /** Supplier list delete: `error.error?.detail || error.message`. */
  const SupplierDeleteRules: seq<Rule> := [DetailField, TransportMessage]
  /** Category and inventory list delete: `error.error?.message || error.message`. */
  const ListDeleteRules: seq<Rule> := [MessageField, TransportMessage]
  /** Sale registration: `error.error?.message || error.error?.detail || error.message`. */
  const SaleRules: seq<Rule> := [MessageField, DetailField, TransportMessage]

  /** Create and edit category forms. */
  const CategoryFormRules: seq<Rule> := [StringBody, MessageField, DetailField, FirstItemMsg, FirstKeyItem]
  /** Create and edit client and supplier forms. */
  const PartyFormRules: seq<Rule> := [StringBody, MessageField, DetailJoined, FlatValues]
  /** Create and edit product forms. */
  const ProductFormRules: seq<Rule> := [StringBody, MessageField, DetailField, FlatValues]

  /** The client list's delete handler. */
  function ClientDeleteDetail(f: Failure): (r: Step)
    ensures forall serialise :: r == Gated(ClientDeleteRules, f, serialise)
  {
    var body := Body(f);
    if Truthy(body) then
      if body.JStr? then Found(body.s)
      else if TruthyProp(Get(body, "message")) then Found(PropText(Get(body, "message")))
      else if TruthyProp(Get(body, "detail")) then
        var d := Get(body, "detail").value;
        if d.JArr? then JoinItems(d.items) else Found(ToStr(d))
      else Found(Unknown)
    else Found(Message(f))
  }

  /** The supplier list's delete handler. */
  function SupplierDeleteDetail(f: Failure): (r: string)
    ensures forall serialise :: Ladder(SupplierDeleteRules, f, serialise) == Found(r)
  {
    if TruthyProp(Get(Body(f), "detail")) then PropText(Get(Body(f), "detail"))
    else if Message(f) != "" then Message(f)
    else Unknown
  }

  /** The category and inventory lists' delete handlers. */
  function ListDeleteDetail(f: Failure): (r: string)
    ensures forall serialise :: Ladder(ListDeleteRules, f, serialise) == Found(r)
  {
    if TruthyProp(Get(Body(f), "message")) then PropText(Get(Body(f), "message"))
    else if Message(f) != "" then Message(f)
    else Unknown
  }

  /** The sale registration handler. */
  function SaleDetail(f: Failure): (r: string)
    ensures forall serialise :: Ladder(SaleRules, f, serialise) == Found(r)
  {
    var body := Body(f);
    if TruthyProp(Get(body, "message")) then PropText(Get(body, "message"))
    else if TruthyProp(Get(body, "detail")) then PropText(Get(body, "detail"))
    else if Message(f) != "" then Message(f)
    else Unknown
  }

  /** The create and edit category handlers; `serialise` is `JSON.stringify`. */
  function CategoryFormDetail(f: Failure, serialise: Json -> string): (r: string)
    ensures Gated(CategoryFormRules, f, serialise) == Found(r)
  {
    var body := Body(f);
    if Truthy(body) then
      if body.JStr? then body.s
      else if TruthyProp(Get(body, "message")) then PropText(Get(body, "message"))
      else if TruthyProp(Get(body, "detail")) then PropText(Get(body, "detail"))
      else if body.JArr? && |body.items| > 0 && TruthyProp(Get(body.items[0], "msg")) then
        PropText(Get(body.items[0], "msg"))
      else if IsObjectLike(body) then
        var first := FirstValue(body);
        if first.Some? && first.value.JArr? && |first.value.items| > 0
        then ToStr(first.value.items[0])
        else serialise(body)
      else Unknown
    else Message(f)
  }

  /** The create and edit client and supplier handlers. */
  function PartyFormDetail(f: Failure, serialise: Json -> string): (r: Step)
    ensures r == Gated(PartyFormRules, f, serialise)
  {
    var body := Body(f);
    if Truthy(body) then
      if body.JStr? then Found(body.s)
      else if TruthyProp(Get(body, "message")) then Found(PropText(Get(body, "message")))
      else if TruthyProp(Get(body, "detail")) then
        var d := Get(body, "detail").value;
        if d.JArr? then JoinItems(d.items) else Found(ToStr(d))
      else if IsObjectLike(body) then
        var values := Flat(ObjectValues(body));
        if |values| > 0 then Found(JoinJson(values, " ")) else Found(serialise(body))
      else Found(Unknown)
    else Found(Message(f))
  }

  /** The create and edit product handlers. */
  function ProductFormDetail(f: Failure, serialise: Json -> string): (r: string)
    ensures Gated(ProductFormRules, f, serialise) == Found(r)
  {
    var body := Body(f);
    if Truthy(body) then
      if body.JStr? then body.s
      else if TruthyProp(Get(body, "message")) then PropText(Get(body, "message"))
      else if TruthyProp(Get(body, "detail")) then PropText(Get(body, "detail"))
      else if IsObjectLike(body) then
        var values := Flat(ObjectValues(body));
        if |values| > 0 then JoinJson(values, " ") else serialise(body)
      else Unknown
    else Message(f)
  }

  // ---------------------------------------------------------------------
  // Properties across the variants.

  /** `detail` is an array holding a `null` element. */
  predicate NullInDetailArray(f: Failure) {
    var d := Get(Body(f), "detail");
    d.Some? && d.value.JArr? && exists i :: 0 <= i < |d.value.items| && d.value.items[i] == JNull
  }

  /** The only way the client delete handler throws: a truthy non-string
      body without a truthy `message` whose `detail` array holds `null`. */
  lemma ClientDeleteThrowsIff(f: Failure)
    ensures ClientDeleteDetail(f).Throws? <==>
      Truthy(Body(f)) && !Body(f).JStr? && !TruthyProp(Get(Body(f), "message")) && NullInDetailArray(f)
  {
  }

  /** The same for the client and supplier form handlers. */
  lemma PartyFormThrowsIff(f: Failure, serialise: Json -> string)
    ensures PartyFormDetail(f, serialise).Throws? <==>
      Truthy(Body(f)) && !Body(f).JStr? && !TruthyProp(Get(Body(f), "message")) && NullInDetailArray(f)
  {
    var body := Body(f);
    var d := Get(body, "detail");
    if Truthy(body) && !body.JStr? && !TruthyProp(Get(body, "message")) && TruthyProp(d) && d.value.JArr? {
      assert PartyFormDetail(f, serialise) == JoinItems(d.value.items);
    } else {
      assert PartyFormDetail(f, serialise).Found?;
    }
  }

  /** Without a body every gated handler reports `error.message`, even when
      that is empty. */
  lemma NoBodyGivesTransportMessage(f: Failure, serialise: Json -> string)
    requires !Truthy(Body(f))
    ensures ClientDeleteDetail(f) == Found(Message(f))
    ensures CategoryFormDetail(f, serialise) == Message(f)
    ensures PartyFormDetail(f, serialise) == Found(Message(f))
    ensures ProductFormDetail(f, serialise) == Message(f)
  {
  }

  /** A truthy `message` wins over `detail` in every handler that reads it. */
  lemma MessageWins(f: Failure, serialise: Json -> string)
    requires !Body(f).JStr? && TruthyProp(Get(Body(f), "message"))
    ensures var m := PropText(Get(Body(f), "message"));
      && ClientDeleteDetail(f) == Found(m)
      && ListDeleteDetail(f) == m
      && SaleDetail(f) == m
      && CategoryFormDetail(f, serialise) == m
      && PartyFormDetail(f, serialise) == Found(m)
      && ProductFormDetail(f, serialise) == m
  {
  }

  /** The category and product form handlers agree unless the body is an
      array or object carrying neither `message` nor `detail`. */
  lemma CategoryAndProductFormsAgree(f: Failure, serialise: Json -> string)
    requires !IsObjectLike(Body(f)) || TruthyProp(Get(Body(f), "message")) || TruthyProp(Get(Body(f), "detail"))
    ensures CategoryFormDetail(f, serialise) == ProductFormDetail(f, serialise)
  {
  }

  /** A body `{"detail": [{"msg": "nombre requerido"}]}` (a validation error
      list). Only the handlers that join `detail` arrays print the message;
      the others print the array as "[object Object]", and the category and
      inventory delete handlers fall back to `error.message`. */
  lemma ValidationListExample(serialise: Json -> string)
    ensures var f := HttpFailure(422, JObj([("detail", JArr([JObj([("msg", JStr("nombre requerido"))])]))]), "Unprocessable", "u");
      && ClientDeleteDetail(f) == Found("nombre requerido")
      && PartyFormDetail(f, serialise) == Found("nombre requerido")
      && CategoryFormDetail(f, serialise) == "[object Object]"
      && ProductFormDetail(f, serialise) == "[object Object]"
      && SupplierDeleteDetail(f) == "[object Object]"
      && SaleDetail(f) == "[object Object]"
      && ListDeleteDetail(f) == "Unprocessable"
  {
    var items := [JObj([("msg", JStr("nombre requerido"))])];
    assert JoinItems(items) == Found("nombre requerido") by {
      assert ItemText(items[0]) == "nombre requerido";
      assert seq(|items|, i requires 0 <= i < |items| && items[i] != JNull => ItemText(items[i])) == ["nombre requerido"];
    }
  }

  /** A field-error map `{"nombre": ["requerido", "corto"], "email": ["invalido"]}`. */
  function FieldMapFailure(): Failure {
    HttpFailure(400, JObj([("nombre", JArr([JStr("requerido"), JStr("corto")])), ("email", JArr([JStr("invalido")]))]), "Bad Request", "u")
  }

  /** The facts about that body every form handler consults. */
  lemma FieldMapBody()
    ensures var body := Body(FieldMapFailure());
      && Truthy(body) && !body.JStr? && IsObjectLike(body)
      && Get(body, "message") == None && Get(body, "detail") == None
      && FirstValue(body) == Some(JArr([JStr("requerido"), JStr("corto")]))
      && JoinJson(Flat(ObjectValues(body)), " ") == "requerido corto invalido"
  {
    var body := Body(FieldMapFailure());
    assert ObjectValues(body) == [JArr([JStr("requerido"), JStr("corto")]), JArr([JStr("invalido")])];
    FlatFieldMap();
    JoinFieldMap();
  }

  lemma FlatFieldMap()
    ensures Flat([JArr([JStr("requerido"), JStr("corto")]), JArr([JStr("invalido")])])
         == [JStr("requerido"), JStr("corto"), JStr("invalido")]
  {
    var vs := [JArr([JStr("requerido"), JStr("corto")]), JArr([JStr("invalido")])];
    assert Flat(vs[1..][1..]) == [];
    assert Flat(vs[1..]) == [JStr("invalido")];
  }

  lemma JoinFieldMap()
    ensures JoinJson([JStr("requerido"), JStr("corto"), JStr("invalido")], " ") == "requerido corto invalido"
  {
    var values := [JStr("requerido"), JStr("corto"), JStr("invalido")];
    assert seq(|values|, i requires 0 <= i < |values| => if values[i].JNull? then "" else ToStr(values[i]))
        == ["requerido", "corto", "invalido"];
    JoinFieldMapTexts();
  }

  lemma JoinFieldMapTexts()
    ensures JoinStrings(["requerido", "corto", "invalido"], " ") == "requerido corto invalido"
  {
    var parts := ["requerido", "corto", "invalido"];
    assert JoinStrings(parts[2..], " ") == "invalido";
    assert JoinStrings(parts[1..], " ") == "corto" + " " + "invalido";
  }

  /** The category forms take the first key's first message. */
  lemma FieldMapCategoryForm(serialise: Json -> string)
    ensures CategoryFormDetail(FieldMapFailure(), serialise) == "requerido"
  {
    FieldMapBody();
    var body := Body(FieldMapFailure());
    assert !TruthyProp(Get(body, "message")) && !TruthyProp(Get(body, "detail")) && !body.JArr?;
    assert ToStr(JStr("requerido")) == "requerido";
  }

  /** The client, supplier and product forms join every message with " ". */
  lemma FieldMapOtherForms(serialise: Json -> string)
    ensures PartyFormDetail(FieldMapFailure(), serialise) == Found("requerido corto invalido")
    ensures ProductFormDetail(FieldMapFailure(), serialise) == "requerido corto invalido"
  {
    FieldMapBody();
  }
}

=== FILE: forms.dfy ===
/** What the create and edit screens share: reading the route's `id`
    parameter, and the shape of a submission's result. */
module Forms {
  import opened Wrappers
  import opened JsText
  import opened Json
  import opened Http
  import opened ErrorDetail

  /** What a submission did: the state it left and the payload of the
      request it sent, if it sent one. */
  datatype Submitted<S, P> = Submitted(state: S, request: Option<P>)

  /** The outcome as the success handler sees it: a `null` response body
      makes its read of `property` throw, which sends the pipeline to its
      error handler as that `TypeError`. */
  function Responded(outcome: Reply<Json>, property: string): (r: Reply<Json>)
    ensures outcome == Ok(JNull) ==> r == Failed(NullRead(property))
    ensures outcome != Ok(JNull) ==> r == outcome
  {
    if outcome == Ok(JNull) then Failed(NullRead(property)) else outcome
  }

  /** The error message a handler leaves: the prefix and the extracted
      detail, or none at all when extracting the detail threw. */
  function FailureText(prefix: string, detail: Step): (r: Option<string>)
    ensures detail.Found? ==> r == Some(prefix + detail.text)
    ensures !detail.Found? ==> r.None?
  {
    match detail
    case Found(t) => Some(prefix + t)
    case _ => None
  }

  /** The category and product edit screens: `if (!id) …; id = +idParam`.
      Only a missing or empty parameter is refused; anything else becomes
      a number, possibly NaN. */
  function LooseId(idParam: Option<string>): (r: Option<JsNumber>)
    ensures r.None? <==> idParam.None? || idParam.value == ""
    ensures r.Some? ==> r.value == ToNumber(idParam.value)
  {
    if idParam.None? || idParam.value == "" then None else Some(ToNumber(idParam.value))
  }

  /** The client and supplier edit screens: `if (!idParam || isNaN(+idParam))
      …; id = +idParam`. */
  function StrictId(idParam: Option<string>): (r: Option<JsNumber>)
    ensures r.None? <==> idParam.None? || idParam.value == "" || IsNaN(idParam.value)
    ensures r.Some? ==> r.value == ToNumber(idParam.value) && !r.value.NaN?
  {
    if idParam.None? || idParam.value == "" || IsNaN(idParam.value) then None
    else Some(ToNumber(idParam.value))
  }

  /** The strict reading refuses exactly what the loose one refuses or
      reads as NaN, and otherwise both agree. */
  lemma StrictRefinesLoose(idParam: Option<string>)
    ensures StrictId(idParam).Some? ==> LooseId(idParam) == StrictId(idParam)
    ensures StrictId(idParam).None? <==> LooseId(idParam).None? || LooseId(idParam) == Some(NaN)
  {
  }

  /** The id in a link built from a record's id is read back as that id. */
  lemma IdRoundTrip(n: int)
    ensures StrictId(Some(IntToString(n))) == Some(Integer(n))
    ensures LooseId(Some(IntToString(n))) == Some(Integer(n))
  {
    NumberRoundTrip(n);
  }

  /** A parameter that is not a numeral is refused by the strict reading and
      becomes NaN in the loose one. */
  lemma NonNumeralId()
    ensures StrictId(Some("abc")) == None
    ensures LooseId(Some("abc")) == Some(NaN)
  {
    AbcIsNaN();
  }

  lemma AbcIsNaN()
    ensures ToNumber("abc") == NaN
  {
    UnsignedRead("abc");
    AbcWord();
  }

  lemma AbcWord()
    ensures UnsignedDecimal("abc") == NaN
  {
    assert "abc" != "Infinity" by { assert "abc"[0] != "Infinity"[0]; }
    assert !IsDigit("abc"[0]);
    PlainNaN("abc");
  }

  /** A parameter of blanks is not empty, and `+" "` is 0: both readings
      accept it as id 0. */
  lemma BlankIdIsZero()
    ensures StrictId(Some(" ")) == Some(Integer(0))
    ensures LooseId(Some(" ")) == Some(Integer(0))
  {
    assert Trim(" ") == [] by { assert IsJsWhiteSpace(" "[0]); }
  }

  /** Numerals other than plain digits: `1e2` and `0x10` are accepted as
      the integers they denote, `1.5` is kept as a fraction, and a signed
      radix literal is refused. */
  lemma OtherNumeralIds()
    ensures StrictId(Some("1e2")) == Some(Integer(100))
    ensures StrictId(Some("0x10")) == Some(Integer(16))
    ensures StrictId(Some("1.5")) == Some(Fraction(15, 1))
    ensures LooseId(Some("1.5")) == Some(Fraction(15, 1))
    ensures StrictId(Some("-0x10")) == None
    ensures LooseId(Some("-0x10")) == Some(NaN)
  {
    ExponentExample();
    HexExample();
    FractionExample();
    SignedHexExample();
  }
}

=== FILE: http.dfy ===
/** What reaches a `catchError` handler: an `HttpErrorResponse` from the
    backend, or an `Error` thrown inside the pipeline itself. */
module Http {
  import opened Wrappers
  import opened Json

  datatype Failure =
      /** A failed request: status code, parsed body (`error.error`, `JNull`
          when there is none), the response's `message` and request `url`. */
    | HttpFailure(status: int, body: Json, message: string, url: string)
      /** An `Error` or `TypeError` raised by the screen's own code. */
    | ThrownError(message: string)

  /** `error.error`; a thrown error has none. */
  function Body(f: Failure): Json {
    match f
    case HttpFailure(_, body, _, _) => body
    case ThrownError(_) => JNull
  }

  /** `error.status`; `None` is `undefined`. */
  function Status(f: Failure): Option<int> {
    match f
    case HttpFailure(status, _, _, _) => Some(status)
    case ThrownError(_) => None
  }

  /** `error.url`; `None` is `undefined`. */
  function Url(f: Failure): Option<string> {
    match f
    case HttpFailure(_, _, _, url) => Some(url)
    case ThrownError(_) => None
  }

  /** `error.message`. */
  function Message(f: Failure): string {
    f.message
  }

  /** The `TypeError` a property read on `null` raises (the V8 wording). */
  function NullRead(property: string): (f: Failure)
    ensures Status(f).None? && Url(f).None? && Body(f) == JNull
  {
    ThrownError("Cannot read properties of null (reading '" + property + "')")
  }

  /** The outcome of one request: the response body, or the failure. */
  datatype Reply<+T> = Ok(value: T) | Failed(failure: Failure)
}

=== FILE: js_text.dfy ===
/** The JavaScript string and number primitives the screens rely on:
    `toLowerCase`, `trim`, `includes`, `Array.prototype.join` over strings,
    and, for numbers, the unary `+` conversion of a route parameter (the
    StringNumericLiteral grammar of section 7.1.4.1.1 of ECMA-262) and
    `String(n)`. Numbers are exact: integers, decimal fractions, the two
    infinities and NaN. */
module JsText {
  import opened Wrappers

  /** Lower-cases an ASCII capital letter; every other character is unchanged. */
  function LowerChar(c: char): char {
    if 'A' <= c <= 'Z' then (c as int + 32) as char else c
  }

  /** `s.toLowerCase()`, restricted to the ASCII letters. */
  function ToLower(s: string): (r: string)
    ensures |r| == |s|
    ensures forall i :: 0 <= i < |s| ==> r[i] == LowerChar(s[i])
  {
    seq(|s|, i requires 0 <= i < |s| => LowerChar(s[i]))
  }

  /** Lower-casing twice is lower-casing once. */
  lemma ToLowerIdempotent(s: string)
    ensures ToLower(ToLower(s)) == ToLower(s)
  {
  }

  /** The code points `String.prototype.trim` removes: the WhiteSpace and
      LineTerminator productions of ECMAScript (section 12.2 and 12.3 of ECMA-262). */
  predicate IsJsWhiteSpace(c: char) {
    || c == '\t' || c == '\n' || c == '\U{000B}' || c == '\U{000C}' || c == '\r'
    || c == ' ' || c == '\U{00A0}' || c == '\U{1680}'
    || ('\U{2000}' <= c <= '\U{200A}')
    || c == '\U{2028}' || c == '\U{2029}' || c == '\U{202F}' || c == '\U{205F}'
    || c == '\U{3000}' || c == '\U{FEFF}'
  }

  /** `s.trim()`: `s` without its leading and trailing white space. The
      result neither starts nor ends with white space, and it is empty
      exactly when `s` is all white space. */
  function Trim(s: string): (r: string)
    ensures |r| <= |s|
    ensures r != [] ==> !IsJsWhiteSpace(r[0]) && !IsJsWhiteSpace(r[|r| - 1])
    ensures r == [] <==> forall k :: 0 <= k < |s| ==> IsJsWhiteSpace(s[k])
    decreases |s|
  {
    if |s| == 0 then s
    else if IsJsWhiteSpace(s[0]) then
      assert forall k :: 0 <= k < |s| - 1 ==> s[1..][k] == s[k + 1];
      Trim(s[1..])
    else if IsJsWhiteSpace(s[|s| - 1]) then
      assert s[..|s| - 1][0] == s[0];
      Trim(s[..|s| - 1])
    else s
  }

  /** Some character of `s` is not white space. */
  predicate HasNonBlank(s: string) {
    exists k :: 0 <= k < |s| && !IsJsWhiteSpace(s[k])
  }

  /** The trim is non-empty exactly when some character is not white space,
      and then it starts and ends with such a character. */
  lemma NonBlankTrim(s: string)
    ensures var t := Trim(s);
      && (t != "" <==> HasNonBlank(s))
      && (t != "" ==> !IsJsWhiteSpace(t[0]) && !IsJsWhiteSpace(t[|t| - 1]))
  {
  }

  /** A string with no white space at either end is its own trim. */
  lemma TrimIdentity(s: string)
    requires s == [] || (!IsJsWhiteSpace(s[0]) && !IsJsWhiteSpace(s[|s| - 1]))
    ensures Trim(s) == s
  {
  }

  /** Trimming twice is trimming once. */
  lemma TrimIdempotent(s: string)
    ensures Trim(Trim(s)) == Trim(s)
  {
    TrimIdentity(Trim(s));
  }

  /** `Trim(s)` is `s[i..j]`, with only white space before `i` and after `j`. */
  predicate TrimmedAt(s: string, i: nat, j: nat) {
    && i <= j <= |s| && Trim(s) == s[i..j]
    && (forall k :: 0 <= k < i ==> IsJsWhiteSpace(s[k]))
    && (forall k :: j <= k < |s| ==> IsJsWhiteSpace(s[k]))
  }

  /** Where the trim of `s` begins and ends in `s`. */
  lemma {:induction false} TrimBounds(s: string) returns (i: nat, j: nat)
    ensures TrimmedAt(s, i, j)
    decreases |s|, 1
  {
    if |s| == 0 {
      i, j := 0, 0;
    } else if IsJsWhiteSpace(s[0]) {
      i, j := TrimBoundsFront(s);
    } else if IsJsWhiteSpace(s[|s| - 1]) {
      i, j := TrimBoundsBack(s);
    } else {
      i, j := 0, |s|;
      assert s[0..|s|] == s;
    }
  }

  lemma {:induction false} TrimBoundsFront(s: string) returns (i: nat, j: nat)
    requires |s| > 0 && IsJsWhiteSpace(s[0])
    ensures TrimmedAt(s, i, j)
    decreases |s|, 0
  {
    var t := s[1..];
    TrimDropFront(s);
    var i', j' := TrimBounds(t);
    i, j := i' + 1, j' + 1;
    assert t[i'..j'] == s[i..j];
    forall k | 0 <= k < i
      ensures IsJsWhiteSpace(s[k])
    {
      if k > 0 {
        assert s[k] == t[k - 1];
      }
    }
    forall k | j <= k < |s|
      ensures IsJsWhiteSpace(s[k])
    {
      assert s[k] == t[k - 1];
    }
  }

  lemma {:induction false} TrimBoundsBack(s: string) returns (i: nat, j: nat)
    requires |s| > 0 && !IsJsWhiteSpace(s[0]) && IsJsWhiteSpace(s[|s| - 1])
    ensures TrimmedAt(s, i, j)
    decreases |s|, 0
  {
    var p := s[..|s| - 1];
    TrimDropBack(s);
    i, j := TrimBounds(p);
    assert p[i..j] == s[i..j];
    assert p[0] == s[0];
    forall k | j <= k < |s|
      ensures IsJsWhiteSpace(s[k])
    {
      if k < |p| {
        assert s[k] == p[k];
      }
    }
  }

  lemma TrimDropFront(s: string)
    requires |s| > 0 && IsJsWhiteSpace(s[0])
    ensures Trim(s) == Trim(s[1..])
  {
  }

  lemma TrimDropBack(s: string)
    requires |s| > 0 && !IsJsWhiteSpace(s[0]) && IsJsWhiteSpace(s[|s| - 1])
    ensures Trim(s) == Trim(s[..|s| - 1])
  {
  }

  /** The trim is a slice of `s`: what precedes and what follows it is all
      white space. */
  lemma TrimIsSlice(s: string)
    ensures exists i, j :: (0 <= i <= j <= |s| && Trim(s) == s[i..j]
      && (forall k :: 0 <= k < i ==> IsJsWhiteSpace(s[k]))
      && (forall k :: j <= k < |s| ==> IsJsWhiteSpace(s[k])))
  {
    var i, j := TrimBounds(s);
    assert TrimmedAt(s, i, j);
  }

  /** Lower-casing maps white space to white space and nothing else to it. */
  lemma LowerKeepsSpace(c: char)
    ensures IsJsWhiteSpace(LowerChar(c)) <==> IsJsWhiteSpace(c)
  {
  }

  /** Lower-casing never turns a character into or out of white space, so
      `s.toLowerCase().trim()` is `s.trim().toLowerCase()`. */
  lemma {:induction false} LowerThenTrim(s: string)
    ensures Trim(ToLower(s)) == ToLower(Trim(s))
    decreases |s|
  {
    if |s| > 0 {
      LowerKeepsSpace(s[0]);
      LowerKeepsSpace(s[|s| - 1]);
      if IsJsWhiteSpace(s[0]) {
        assert ToLower(s)[1..] == ToLower(s[1..]);
        LowerThenTrim(s[1..]);
      } else if IsJsWhiteSpace(s[|s| - 1]) {
        assert ToLower(s)[..|s| - 1] == ToLower(s[..|s| - 1]);
        LowerThenTrim(s[..|s| - 1]);
      }
    }
  }

  /** `p` is a prefix of `s`. */
  predicate StartsWith(s: string, p: string) {
    |p| <= |s| && s[..|p|] == p
  }

  /** `s.includes(sub)`, as the left-to-right search the engine performs. */
  predicate Contains(s: string, sub: string)
    decreases |s|
  {
    StartsWith(s, sub) || (|s| > 0 && Contains(s[1..], sub))
  }

  /** `sub` occurs in `s` at position `i`. */
  ghost predicate OccursAt(s: string, sub: string, i: int) {
    0 <= i && i + |sub| <= |s| && s[i..i + |sub|] == sub
  }

  /** The search agrees with the declarative reading of `includes`: there is
      a position at which `sub` occurs. */
  lemma {:induction false} ContainsIff(s: string, sub: string)
    ensures Contains(s, sub) <==> exists i :: OccursAt(s, sub, i)
    decreases |s|
  {
    if StartsWith(s, sub) {
      assert OccursAt(s, sub, 0);
    } else if |s| == 0 {
      assert forall i :: !OccursAt(s, sub, i);
    } else {
      ContainsIff(s[1..], sub);
      if Contains(s[1..], sub) {
        var i :| OccursAt(s[1..], sub, i);
        var a, b := s[1..][i..i + |sub|], s[i + 1..i + 1 + |sub|];
        assert forall j :: 0 <= j < |a| ==> a[j] == b[j];
        assert a == b;
        assert OccursAt(s, sub, i + 1);
      } else {
        forall i | OccursAt(s, sub, i)
          ensures false
        {
          assert i != 0;
          var a, b := s[1..][i - 1..i - 1 + |sub|], s[i..i + |sub|];
          assert forall j :: 0 <= j < |a| ==> a[j] == b[j];
          assert a == b;
          assert OccursAt(s[1..], sub, i - 1);
        }
      }
    }
  }

  /** `parts.join(sep)` over strings. */
  function JoinStrings(parts: seq<string>, sep: string): string
    decreases |parts|
  {
    if |parts| == 0 then ""
    else if |parts| == 1 then parts[0]
    else parts[0] + sep + JoinStrings(parts[1..], sep)
  }

  /** The character for a decimal digit. */
  function DigitChar(d: int): char
    requires 0 <= d < 10
  {
    ('0' as int + d) as char
  }

  predicate IsDigit(c: char) {
    '0' <= c <= '9'
  }

  predicate AllDigits(s: string) {
    forall k :: 0 <= k < |s| ==> IsDigit(s[k])
  }

  /** The shortest decimal numeral of `n`. */
  function NatToString(n: nat): (r: string)
    ensures |r| >= 1 && AllDigits(r)
    ensures r[0] != '0' || n == 0
    decreases n
  {
    if n < 10 then [DigitChar(n)] else NatToString(n / 10) + [DigitChar(n % 10)]
  }

  /** `String(n)` for an integer (below 10^21 in magnitude, where the engine
      switches to exponent notation). */
  function IntToString(n: int): (r: string)
    ensures |r| >= 1
    ensures n >= 0 <==> AllDigits(r)
    ensures n < 0 <==> r[0] == '-'
    ensures IsDigit(r[|r| - 1])
  {
    if n < 0 then
      var r := "-" + NatToString(-n);
      assert r[0] == '-' && !IsDigit(r[0]);
      r
    else NatToString(n)
  }

  /** The value of a decimal numeral. */
  function DigitsValue(s: string): nat
    requires AllDigits(s)
    decreases |s|
  {
    if |s| == 0 then 0 else DigitsValue(s[..|s| - 1]) * 10 + (s[|s| - 1] as int - '0' as int)
  }

  lemma {:induction false} DigitsValueOfNat(n: nat)
    ensures DigitsValue(NatToString(n)) == n
    decreases n
  {
    if n >= 10 {
      var s := NatToString(n);
      assert s[..|s| - 1] == NatToString(n / 10);
      DigitsValueOfNat(n / 10);
    }
  }

  function Pow10(k: nat): (r: nat)
    ensures r >= 1
    decreases k
  {
    if k == 0 then 1 else 10 * Pow10(k - 1)
  }

  lemma AllDigitsAppend(a: string, b: string)
    requires AllDigits(a) && AllDigits(b)
    ensures AllDigits(a + b)
  {
    assert forall k :: 0 <= k < |a| ==> (a + b)[k] == a[k];
    assert forall k :: |a| <= k < |a + b| ==> (a + b)[k] == b[k - |a|];
  }

  /** The value of a numeral is read digit by digit from the left, so the
      digits of `b` written after `a` shift `a` by `|b|` places. */
  lemma {:induction false} DigitsValueAppend(a: string, b: string)
    requires AllDigits(a) && AllDigits(b)
    ensures AllDigits(a + b)
    ensures DigitsValue(a + b) == DigitsValue(a) * Pow10(|b|) + DigitsValue(b)
    decreases |b|
  {
    AllDigitsAppend(a, b);
    if |b| == 0 {
      assert a + b == a;
    } else {
      var b' := b[..|b| - 1];
      assert (a + b)[..|a + b| - 1] == a + b';
      assert (a + b)[|a + b| - 1] == b[|b| - 1];
      DigitsValueAppend(a, b');
      ShiftDigit(DigitsValue(a), Pow10(|b'|), DigitsValue(b'), b[|b| - 1] as int - '0' as int);
    }
  }

  lemma ShiftDigit(x: int, p: int, y: int, c: int)
    ensures (x * p + y) * 10 + c == x * (10 * p) + (y * 10 + c)
  {
  }

  /** The `k` lowest decimal digits of `r`, leading zeros included. */
  function Padded(r: nat, k: nat): (s: string)
    ensures |s| == k && AllDigits(s)
    decreases k
  {
    if k == 0 then "" else Padded(r / 10, k - 1) + [DigitChar(r % 10)]
  }

  /** `a / 10^k`: `a` without its `k` lowest decimal digits. */
  function DropDigits(a: nat, k: nat): nat
    decreases k
  {
    if k == 0 then a else DropDigits(a / 10, k - 1)
  }

  /** A number is its high digits shifted by `k` places plus its `k` low
      digits. */
  lemma {:induction false} SplitDigits(a: nat, k: nat)
    ensures a == DropDigits(a, k) * Pow10(k) + DigitsValue(Padded(a, k))
    decreases k
  {
    if k > 0 {
      var s := Padded(a, k);
      assert s[..k - 1] == Padded(a / 10, k - 1);
      SplitDigits(a / 10, k - 1);
      ShiftDigit(DropDigits(a / 10, k - 1), Pow10(k - 1), DigitsValue(Padded(a / 10, k - 1)), a % 10);
    }
  }

  // ---------------------------------------------------------------------
  // Numbers.

  /** A JavaScript number as the screens meet it: an integer, a decimal
      fraction `scaled / 10^scale` that is not an integer, an infinity with
      its sign, or NaN. */
  datatype JsNumber = Integer(value: int) | Fraction(scaled: int, scale: nat) | Infinity(negative: bool) | NaN

  /** Each value has one representation: a fraction has at least one
      decimal and does not end in the digit 0, so it is in lowest decimal
      terms and is not an integer. */
  predicate Canonical(n: JsNumber) {
    n.Fraction? ==> n.scale >= 1 && n.scaled % 10 != 0
  }

  /** The number `m * 10^e`, in canonical form. */
  function Scaled(m: nat, e: int): (r: JsNumber)
    ensures Canonical(r) && (r.Integer? || r.Fraction?)
    ensures r.Fraction? ==> r.scaled >= 0
    decreases if e < 0 then -e else 0
  {
    if e >= 0 then Integer(m * Pow10(e))
    else if m % 10 == 0 then Scaled(m / 10, e + 1)
    else Fraction(m, -e)
  }

  /** Unary minus. */
  function Negate(n: JsNumber): (r: JsNumber)
    ensures Canonical(n) ==> Canonical(r)
    ensures r.NaN? <==> n.NaN?
  {
    match n
    case Integer(v) => Integer(0 - v)
    case Fraction(d, k) => Fraction(0 - d, k)
    case Infinity(neg) => Infinity(!neg)
    case NaN => NaN
  }

  /** The radix a `0x`, `0o` or `0b` prefix selects, in either case; 0 for
      any other character. */
  function RadixOf(c: char): nat {
    if c == 'x' || c == 'X' then 16
    else if c == 'o' || c == 'O' then 8
    else if c == 'b' || c == 'B' then 2
    else 0
  }

  /** The value of a digit of a base up to 16, letters in either case; 16
      for a character that is no such digit. */
  function DigitValue(c: char): (r: nat)
    ensures r <= 16
  {
    if '0' <= c <= '9' then c as int - '0' as int
    else if 'a' <= c <= 'f' then c as int - 'a' as int + 10
    else if 'A' <= c <= 'F' then c as int - 'A' as int + 10
    else 16
  }

  predicate AllRadixDigits(s: string, radix: nat) {
    forall k :: 0 <= k < |s| ==> DigitValue(s[k]) < radix
  }

  /** The value of a numeral in the given radix. */
  function RadixValue(s: string, radix: nat): nat
    requires AllRadixDigits(s, radix)
    decreases |s|
  {
    if |s| == 0 then 0 else RadixValue(s[..|s| - 1], radix) * radix + DigitValue(s[|s| - 1])
  }

  /** The index of the first `c` or `d` in `s`, or `|s|` when there is none. */
  function FirstOf(s: string, c: char, d: char): (r: nat)
    ensures r <= |s|
    ensures r < |s| ==> s[r] == c || s[r] == d
    ensures forall k :: 0 <= k < r ==> s[k] != c && s[k] != d
    ensures (forall k :: 0 <= k < |s| ==> s[k] != c && s[k] != d) ==> r == |s|
    decreases |s|
  {
    if |s| == 0 || s[0] == c || s[0] == d then 0
    else
      assert forall k :: 0 < k < |s| ==> s[1..][k - 1] == s[k];
      1 + FirstOf(s[1..], c, d)
  }

  /** The exponent after `e`: an optional sign and at least one digit. */
  function ExponentValue(x: string): Option<int> {
    if |x| > 0 && (x[0] == '+' || x[0] == '-') then
      if |x| > 1 && AllDigits(x[1..]) then
        Some(if x[0] == '-' then 0 - DigitsValue(x[1..]) else DigitsValue(x[1..]))
      else None
    else if |x| > 0 && AllDigits(x) then Some(DigitsValue(x))
    else None
  }

  /** The digits of a mantissa before its first point. */
  function Whole(m: string): string {
    m[..FirstOf(m, '.', '.')]
  }

  /** The digits of a mantissa after its first point; none without a point. */
  function Decimals(m: string): string {
    var j := FirstOf(m, '.', '.');
    if j == |m| then "" else m[j + 1..]
  }

  /** A decimal numeral without its sign: `Infinity`, or digits with at
      most one point, at least one digit, and an optional exponent. */
  function UnsignedDecimal(u: string): (r: JsNumber)
    ensures Canonical(r)
    ensures r.Infinity? ==> !r.negative
    ensures r.Fraction? ==> r.scaled >= 0
  {
    if u == "Infinity" then Infinity(false) else FiniteDecimal(u)
  }

  /** A mantissa and an optional exponent after the first `e` or `E`. */
  function FiniteDecimal(u: string): (r: JsNumber)
    ensures Canonical(r) && !r.Infinity?
    ensures r.Fraction? ==> r.scaled >= 0
  {
    var exponent := ExponentOf(u);
    if exponent.None? then NaN else MantissaValue(MantissaOf(u), exponent.value)
  }

  /** What precedes the first `e` or `E`. */
  function MantissaOf(u: string): string {
    u[..FirstOf(u, 'e', 'E')]
  }

  /** The exponent after the first `e` or `E`; 0 when there is none. */
  function ExponentOf(u: string): Option<int> {
    var k := FirstOf(u, 'e', 'E');
    if k == |u| then Some(0) else ExponentValue(u[k + 1..])
  }

  /** Digits, at most one point and at least one digit, scaled by
      `10^shift`. */
  function MantissaValue(mantissa: string, shift: int): (r: JsNumber)
    ensures Canonical(r) && !r.Infinity?
    ensures r.Fraction? ==> r.scaled >= 0
  {
    var whole, decimals := Whole(mantissa), Decimals(mantissa);
    if !AllDigits(whole) || !AllDigits(decimals) || |whole| + |decimals| == 0 then NaN
    else
      AllDigitsAppend(whole, decimals);
      Scaled(DigitsValue(whole + decimals), shift - |decimals|)
  }

  /** `0x`, `0o` or `0b` followed by at least one digit of that radix. */
  function NonDecimal(t: string): (r: JsNumber)
    requires |t| >= 2 && RadixOf(t[1]) > 0
    ensures r.Integer? || r.NaN?
  {
    var digits := t[2..];
    if |digits| > 0 && AllRadixDigits(digits, RadixOf(t[1])) then Integer(RadixValue(digits, RadixOf(t[1])))
    else NaN
  }

  /** `+s`: surrounding white space is ignored and the empty string is 0;
      otherwise the text must be a whole numeric literal — a `0x`/`0o`/`0b`
      integer, or an optionally signed decimal with optional point and
      exponent, or `Infinity` — and anything else is NaN. */
  function ToNumber(s: string): (r: JsNumber)
    ensures Canonical(r)
    ensures Trim(s) == [] ==> r == Integer(0)
  {
    var t := Trim(s);
    if t == [] then Integer(0)
    else if |t| >= 2 && t[0] == '0' && RadixOf(t[1]) > 0 then NonDecimal(t)
    else if t[0] == '-' then Negate(UnsignedDecimal(t[1..]))
    else if t[0] == '+' then UnsignedDecimal(t[1..])
    else UnsignedDecimal(t)
  }

  /** `isNaN(+s)`. */
  predicate IsNaN(s: string) {
    ToNumber(s) == NaN
  }

  /** `${n}`: integers and fractions in positional notation. */
  function NumberText(n: JsNumber): string {
    match n
    case Integer(v) => IntToString(v)
    case Fraction(d, k) => if d < 0 then "-" + DecimalText(0 - d, k) else DecimalText(d, k)
    case Infinity(neg) => if neg then "-Infinity" else "Infinity"
    case NaN => "NaN"
  }

  /** `a / 10^k` written with `k` decimals. */
  function DecimalText(a: nat, k: nat): string {
    NatToString(DropDigits(a, k)) + "." + Padded(a, k)
  }

  // ---------------------------------------------------------------------
  // The grammar of numeric strings, as an independent reading.

  /** The StringNumericLiteral grammar of ECMA-262 (section 7.1.4.1.1) for a
      text already stripped of its surrounding white space. */
  ghost predicate IsNumericLiteral(t: string) {
    IsNonDecimalIntegerLiteral(t) || IsStrDecimalLiteral(t)
  }

  ghost predicate IsNonDecimalIntegerLiteral(t: string) {
    |t| > 2 && t[0] == '0' && RadixOf(t[1]) > 0 && AllRadixDigits(t[2..], RadixOf(t[1]))
  }

  ghost predicate IsStrDecimalLiteral(t: string) {
    if |t| > 0 && (t[0] == '+' || t[0] == '-') then IsStrUnsignedDecimalLiteral(t[1..])
    else IsStrUnsignedDecimalLiteral(t)
  }

  /** `Infinity`, or a mantissa followed, at some point, by an exponent part
      or by nothing. */
  ghost predicate IsStrUnsignedDecimalLiteral(u: string) {
    u == "Infinity" || exists k :: 0 <= k <= |u| && IsMantissa(u[..k]) && (k == |u| || IsExponentPart(u[k..]))
  }

  /** Digits and points only, no two points, and at least one digit. */
  ghost predicate IsMantissa(m: string) {
    && (forall i :: 0 <= i < |m| ==> IsDigit(m[i]) || m[i] == '.')
    && (forall i, j :: 0 <= i < j < |m| && m[i] == '.' ==> m[j] != '.')
    && (exists i :: 0 <= i < |m| && IsDigit(m[i]))
  }

  /** `e` or `E`, an optional sign, and at least one digit. */
  ghost predicate IsExponentPart(x: string) {
    && |x| >= 2 && (x[0] == 'e' || x[0] == 'E')
    && if x[1] == '+' || x[1] == '-' then |x| > 2 && AllDigits(x[2..]) else AllDigits(x[1..])
  }

  // ---------------------------------------------------------------------
  // What the conversion promises.

  /** The first `c` or `d` is at `i` when none comes before `i` and `i` holds
      one (or is the end). */
  lemma FirstAt(s: string, c: char, d: char, i: int)
    requires 0 <= i <= |s|
    requires forall k :: 0 <= k < i ==> s[k] != c && s[k] != d
    requires i < |s| ==> s[i] == c || s[i] == d
    ensures FirstOf(s, c, d) == i
  {
  }

  /** A numeral of plain digits reads as its value. */
  lemma DigitsRead(t: string)
    requires |t| > 0 && AllDigits(t)
    ensures UnsignedDecimal(t) == Integer(DigitsValue(t))
  {
    assert t[0] != "Infinity"[0];
    FirstAt(t, 'e', 'E', |t|);
    assert t[..|t|] == t;
    FirstAt(t, '.', '.', |t|);
    assert t + "" == t;
  }

  /** A negative integer prints as "-" followed by the numeral of its magnitude. */
  lemma NegativeNumeral(n: int)
    requires n < 0
    ensures var s := IntToString(n);
      |s| > 1 && s[0] == '-' && AllDigits(s[1..]) && DigitsValue(s[1..]) == -n
  {
    var s := IntToString(n);
    var m := NatToString(-n);
    assert s == "-" + m;
    assert s[1..] == m;
    DigitsValueOfNat(-n);
  }

  /** Reading back a printed integer gives the integer: `+String(n) === n`. */
  lemma NumberRoundTrip(n: int)
    ensures ToNumber(IntToString(n)) == Integer(n)
  {
    var s := IntToString(n);
    if n < 0 {
      NegativeNumeral(n);
      var u := s[1..];
      assert s == "-" + u;
      SignedRead(u);
      DigitsRead(u);
    } else {
      DigitNotSpace(s[0]);
      DigitNotSpace(s[|s| - 1]);
      assert |s| >= 2 ==> IsDigit(s[1]) && RadixOf(s[1]) == 0;
      UnsignedRead(s);
      DigitsValueOfNat(n);
      DigitsRead(s);
    }
  }

  /** A text of digits and points with no exponent reads as its mantissa. */
  lemma PlainMantissaRead(u: string)
    requires forall i :: 0 <= i < |u| ==> IsDigit(u[i]) || u[i] == '.'
    requires AllDigits(Whole(u)) && AllDigits(Decimals(u)) && |Whole(u)| + |Decimals(u)| > 0
    ensures AllDigits(Whole(u) + Decimals(u))
    ensures UnsignedDecimal(u) == Scaled(DigitsValue(Whole(u) + Decimals(u)), 0 - |Decimals(u)|)
  {
    assert |u| > 0;
    assert u[0] != "Infinity"[0];
    FirstAt(u, 'e', 'E', |u|);
    assert u[..|u|] == u;
    DigitsValueAppend(Whole(u), Decimals(u));
  }

  /** The printed decimals of a fraction `a / 10^k` read back as that
      fraction; the text starts and ends with a digit, and a leading 0 is
      followed by the point. */
  lemma DecimalTextRead(a: nat, k: nat)
    requires k >= 1 && a % 10 != 0
    ensures var u := DecimalText(a, k);
      && IsDigit(u[0]) && IsDigit(u[|u| - 1]) && (u[0] == '0' ==> u[1] == '.')
      && UnsignedDecimal(u) == Fraction(a, k)
  {
    var q := DropDigits(a, k);
    var w, f := NatToString(q), Padded(a, k);
    PointSplit(w, f);
    PointEnds(w, f);
    DecimalValue(a, k);
    PlainMantissaRead(w + "." + f);
    assert w[0] == '0' ==> |w| == 1 by {
      if w[0] == '0' {
        assert q == 0;
      }
    }
  }

  /** A point between two digit strings splits them back apart. */
  lemma PointSplit(w: string, f: string)
    requires AllDigits(w) && AllDigits(f)
    ensures var u := w + "." + f;
      && Whole(u) == w && Decimals(u) == f
      && forall i :: 0 <= i < |u| ==> IsDigit(u[i]) || u[i] == '.'
  {
    var u := w + "." + f;
    assert forall i :: 0 <= i < |w| ==> u[i] == w[i];
    assert u[|w|] == '.';
    assert forall i :: |w| < i < |u| ==> u[i] == f[i - |w| - 1];
    FirstAt(u, '.', '.', |w|);
    assert u[..|w|] == w;
    assert u[|w| + 1..] == f;
  }

  lemma PointEnds(w: string, f: string)
    requires |w| >= 1 && |f| >= 1
    ensures var u := w + "." + f;
      u[0] == w[0] && u[|u| - 1] == f[|f| - 1] && (|w| == 1 ==> u[1] == '.')
  {
  }

  /** The digits of the printed fraction `a / 10^k`, point removed, are
      worth `a`. */
  lemma DecimalValue(a: nat, k: nat)
    ensures AllDigits(NatToString(DropDigits(a, k)) + Padded(a, k))
    ensures DigitsValue(NatToString(DropDigits(a, k)) + Padded(a, k)) == a
  {
    var q := DropDigits(a, k);
    DigitsValueOfNat(q);
    SplitDigits(a, k);
    DigitsValueAppend(NatToString(q), Padded(a, k));
  }

  /** How a fraction prints: its sign, then the decimals of its magnitude. */
  lemma FractionText(d: int, k: nat)
    ensures d < 0 ==> NumberText(Fraction(d, k)) == "-" + DecimalText(0 - d, k)
    ensures d >= 0 ==> NumberText(Fraction(d, k)) == DecimalText(d, k)
  {
  }

  /** A canonical fraction prints and reads back as itself. */
  lemma FractionRoundTrip(d: int, k: nat)
    requires Canonical(Fraction(d, k))
    ensures ToNumber(NumberText(Fraction(d, k))) == Fraction(d, k)
  {
    FractionText(d, k);
    if d < 0 {
      NegativeFractionRead(d, k);
    } else {
      PositiveFractionRead(d, k);
    }
  }

  lemma NegativeFractionRead(d: int, k: nat)
    requires d < 0 && Canonical(Fraction(d, k))
    ensures ToNumber("-" + DecimalText(0 - d, k)) == Fraction(d, k)
  {
    NegatedLastDigit(d);
    DecimalTextRead(0 - d, k);
    SignedRead(DecimalText(0 - d, k));
  }

  /** A number that does not end in the digit 0 still does not once negated. */
  lemma NegatedLastDigit(d: int)
    requires d % 10 != 0
    ensures (0 - d) % 10 != 0
  {
  }

  lemma PositiveFractionRead(d: nat, k: nat)
    requires Canonical(Fraction(d, k))
    ensures ToNumber(DecimalText(d, k)) == Fraction(d, k)
  {
    DecimalTextRead(d, k);
    var u := DecimalText(d, k);
    DigitNotSpace(u[0]);
    DigitNotSpace(u[|u| - 1]);
    assert |u| >= 2 && u[0] == '0' ==> RadixOf(u[1]) == 0;
    UnsignedRead(u);
  }

  lemma DigitNotSpace(c: char)
    requires IsDigit(c)
    ensures !IsJsWhiteSpace(c) && c != '-' && c != '+'
  {
  }

  /** A text with no white space at its ends, no sign and no radix prefix
      reads as an unsigned decimal. */
  lemma UnsignedRead(u: string)
    requires |u| > 0 && !IsJsWhiteSpace(u[0]) && !IsJsWhiteSpace(u[|u| - 1])
    requires u[0] != '-' && u[0] != '+' && (|u| >= 2 && u[0] == '0' ==> RadixOf(u[1]) == 0)
    ensures ToNumber(u) == UnsignedDecimal(u)
  {
    TrimIdentity(u);
  }

  /** A minus sign before a numeral that starts and ends with a digit
      negates it. */
  lemma SignedRead(u: string)
    requires |u| > 0 && IsDigit(u[0]) && IsDigit(u[|u| - 1])
    ensures ToNumber("-" + u) == Negate(UnsignedDecimal(u))
  {
    var t := "-" + u;
    assert t[0] == '-' && t[|t| - 1] == u[|u| - 1] && t[1..] == u;
    TrimIdentity(t);
  }

  /** Every number prints as a text that reads back as that number:
      `+String(x)` is `x` (NaN included, as a value). */
  lemma NumberTextRoundTrip(n: JsNumber)
    requires Canonical(n)
    ensures ToNumber(NumberText(n)) == n
  {
    match n
    case Integer(v) => NumberRoundTrip(v);
    case Fraction(d, k) => FractionRoundTrip(d, k);
    case Infinity(neg) => InfinityRoundTrip(neg);
    case NaN => NaNRoundTrip();
  }

  lemma InfinityRoundTrip(neg: bool)
    ensures ToNumber(NumberText(Infinity(neg))) == Infinity(neg)
  {
    if neg {
      TrimIdentity("-Infinity");
      assert "-Infinity"[1..] == "Infinity";
    } else {
      UnsignedRead("Infinity");
    }
  }

  lemma NaNRoundTrip()
    ensures ToNumber(NumberText(NaN)) == NaN
  {
    UnsignedRead("NaN");
    NaNWord();
  }

  /** "NaN" is no decimal numeral. */
  lemma NaNWord()
    ensures UnsignedDecimal("NaN") == NaN
  {
    assert "NaN" != "Infinity" by { assert "NaN"[0] != "Infinity"[0]; }
    assert !IsDigit("NaN"[0]);
    PlainNaN("NaN");
  }

  /** A text with no exponent marker and no point reads as its digits, so
      as NaN when it is not all digits. */
  lemma PlainNaN(u: string)
    requires u != "Infinity" && !AllDigits(u)
    requires forall i :: 0 <= i < |u| ==> u[i] != 'e' && u[i] != 'E' && u[i] != '.'
    ensures UnsignedDecimal(u) == NaN
  {
    FirstAt(u, 'e', 'E', |u|);
    assert u[..|u|] == u;
    NoPoint(u);
  }

  /** A text without a point is all whole part. */
  lemma NoPoint(m: string)
    requires forall i :: 0 <= i < |m| ==> m[i] != '.'
    ensures Whole(m) == m && Decimals(m) == ""
  {
    FirstAt(m, '.', '.', |m|);
    assert m[..|m|] == m;
  }

  /** A mantissa that meets the grammar splits into digits before the first
      point and digits after it, not both empty. */
  lemma MantissaToParts(m: string)
    requires IsMantissa(m)
    ensures AllDigits(Whole(m)) && AllDigits(Decimals(m)) && |Whole(m)| + |Decimals(m)| > 0
  {
    var j := FirstOf(m, '.', '.');
    forall i | 0 <= i < |Whole(m)|
      ensures IsDigit(Whole(m)[i])
    {
      assert Whole(m)[i] == m[i];
    }
    forall i | 0 <= i < |Decimals(m)|
      ensures IsDigit(Decimals(m)[i])
    {
      assert Decimals(m)[i] == m[j + 1 + i];
    }
    var i :| 0 <= i < |m| && IsDigit(m[i]);
    assert i < j || |Decimals(m)| > 0;
  }

  /** Conversely, digits, at most the one point, and digits again form a
      mantissa of the grammar. */
  lemma PartsToMantissa(m: string)
    requires AllDigits(Whole(m)) && AllDigits(Decimals(m)) && |Whole(m)| + |Decimals(m)| > 0
    ensures IsMantissa(m)
  {
    var j := FirstOf(m, '.', '.');
    forall i | 0 <= i < |m| && i != j
      ensures IsDigit(m[i])
    {
      if i < j {
        assert m[i] == Whole(m)[i];
      } else {
        assert m[i] == Decimals(m)[i - j - 1];
      }
    }
    if |Whole(m)| > 0 {
      assert IsDigit(m[0]);
    } else {
      assert IsDigit(m[j + 1]);
    }
  }

  /** After the `e`, the grammar's exponent part is what the evaluator reads. */
  lemma ExponentParts(x: string)
    requires |x| >= 1 && (x[0] == 'e' || x[0] == 'E')
    ensures IsExponentPart(x) <==> ExponentValue(x[1..]).Some?
  {
    if |x| >= 2 {
      assert x[1..][0] == x[1];
      assert x[1..][1..] == x[2..];
    }
  }

  /** The evaluator yields NaN for an unsigned decimal exactly when the text
      is not an unsigned decimal literal of the grammar. */
  lemma UnsignedNaNIff(u: string)
    ensures UnsignedDecimal(u).NaN? <==> !IsStrUnsignedDecimalLiteral(u)
  {
    if u != "Infinity" {
      if IsStrUnsignedDecimalLiteral(u) {
        LiteralReads(u);
      }
      if !FiniteDecimal(u).NaN? {
        ReadIsLiteral(u);
      }
    }
  }

  /** What the evaluator reads as a number is a literal of the grammar. */
  lemma ReadIsLiteral(u: string)
    requires !FiniteDecimal(u).NaN?
    ensures IsStrUnsignedDecimalLiteral(u)
  {
    var k := FirstOf(u, 'e', 'E');
    ReadParts(u);
    PartsToMantissa(u[..k]);
    if k < |u| {
      ExponentParts(u[k..]);
      assert u[k..][1..] == u[k + 1..];
    }
    assert IsMantissa(u[..k]) && (k == |u| || IsExponentPart(u[k..]));
  }

  /** A text read as a number has valid digits around its point, and a
      valid exponent when it has an `e`. */
  lemma ReadParts(u: string)
    requires !FiniteDecimal(u).NaN?
    ensures var m := u[..FirstOf(u, 'e', 'E')];
      AllDigits(Whole(m)) && AllDigits(Decimals(m)) && |Whole(m)| + |Decimals(m)| > 0
    ensures var k := FirstOf(u, 'e', 'E');
      k < |u| ==> ExponentValue(u[k + 1..]).Some?
  {
    assert ExponentOf(u).Some?;
    MantissaParts(MantissaOf(u), ExponentOf(u).value);
  }

  /** A mantissa read as a number has valid digits around its point. */
  lemma MantissaParts(m: string, shift: int)
    requires !MantissaValue(m, shift).NaN?
    ensures AllDigits(Whole(m)) && AllDigits(Decimals(m)) && |Whole(m)| + |Decimals(m)| > 0
  {
  }

  /** A literal of the grammar other than `Infinity` reads as a number. */
  lemma LiteralReads(u: string)
    requires IsStrUnsignedDecimalLiteral(u) && u != "Infinity"
    ensures !FiniteDecimal(u).NaN?
  {
    var k :| 0 <= k <= |u| && IsMantissa(u[..k]) && (k == |u| || IsExponentPart(u[k..]));
    MantissaEnds(u, k);
    assert MantissaOf(u) == u[..k];
    MantissaToParts(u[..k]);
    if k < |u| {
      ExponentParts(u[k..]);
      assert u[k..][1..] == u[k + 1..];
    }
  }

  /** The first `e` of a literal is where its mantissa ends. */
  lemma MantissaEnds(u: string, k: nat)
    requires k <= |u| && IsMantissa(u[..k]) && (k == |u| || IsExponentPart(u[k..]))
    ensures FirstOf(u, 'e', 'E') == k
  {
    forall i | 0 <= i < k
      ensures u[i] != 'e' && u[i] != 'E'
    {
      assert u[i] == u[..k][i];
    }
    if k < |u| {
      assert u[k] == u[k..][0];
    }
    FirstAt(u, 'e', 'E', k);
  }

  /** A text with a radix prefix is no decimal literal. */
  lemma PrefixedNotDecimal(t: string)
    requires |t| >= 2 && t[0] == '0' && RadixOf(t[1]) > 0
    ensures !IsStrDecimalLiteral(t)
  {
    assert t[0] != "Infinity"[0];
    forall k | 0 <= k <= |t|
      ensures !(IsMantissa(t[..k]) && (k == |t| || IsExponentPart(t[k..])))
    {
      if k >= 2 {
        assert t[..k][1] == t[1];
      } else if k == 1 {
        assert t[1..][0] == t[1];
      }
    }
  }

  /** `isNaN(+s)` holds exactly when `s`, stripped of its surrounding white
      space, is neither empty nor a numeric literal of the grammar. */
  lemma ToNumberNaNIff(s: string)
    ensures ToNumber(s).NaN? <==> Trim(s) != [] && !IsNumericLiteral(Trim(s))
  {
    var t := Trim(s);
    if t != [] {
      if |t| >= 2 && t[0] == '0' && RadixOf(t[1]) > 0 {
        PrefixedNotDecimal(t);
      } else if t[0] == '-' || t[0] == '+' {
        UnsignedNaNIff(t[1..]);
      } else {
        UnsignedNaNIff(t);
      }
    }
  }

  /** `+"1e2"` is 100: an exponent scales the mantissa. */
  lemma ExponentExample()
    ensures ToNumber("1e2") == Integer(100)
  {
    ExponentText();
    ExponentRead("1", "2");
    SmallValues();
  }

  lemma ExponentText()
    ensures "1e2" == "1" + "e" + "2" && ToNumber("1e2") == UnsignedDecimal("1e2")
  {
    UnsignedRead("1e2");
  }

  lemma SmallValues()
    ensures DigitsValue("1") == 1 && DigitsValue("2") == 2 && Scaled(1, 2) == Integer(100)
  {
    assert Pow10(2) == 100;
  }

  /** Digits, `e` and digits read as the first digits scaled by the power
      of ten the second ones give. */
  lemma ExponentRead(m: string, x: string)
    requires |m| > 0 && AllDigits(m) && |x| > 0 && AllDigits(x)
    ensures UnsignedDecimal(m + "e" + x) == Scaled(DigitsValue(m), DigitsValue(x))
  {
    var u := m + "e" + x;
    ExponentSplit(m, x);
    WholeDigits(m);
    var k := FirstOf(u, 'e', 'E');
    assert u[..k] == m && u[k + 1..] == x && k < |u|;
    assert ExponentValue(x) == Some(DigitsValue(x));
    assert u != "Infinity" by { assert u[0] == m[0] && u[0] != "Infinity"[0]; }
    assert UnsignedDecimal(u) == FiniteDecimal(u);
    assert FiniteDecimal(u) == MantissaValue(m, DigitsValue(x));
    DigitsMantissa(m, DigitsValue(x));
  }

  /** A mantissa of digits only is worth its digits. */
  lemma DigitsMantissa(m: string, e: int)
    requires |m| > 0 && AllDigits(m)
    ensures MantissaValue(m, e) == Scaled(DigitsValue(m), e)
  {
    WholeDigits(m);
    var v := DigitsValue(Whole(m) + Decimals(m));
    assert v == DigitsValue(m);
    assert e - |Decimals(m)| == e;
  }

  lemma ExponentSplit(m: string, x: string)
    requires AllDigits(m)
    ensures var u := m + "e" + x;
      FirstOf(u, 'e', 'E') == |m| && u[..|m|] == m && u[|m| + 1..] == x && |u| > |m|
  {
    var u := m + "e" + x;
    assert forall i :: 0 <= i < |m| ==> u[i] == m[i];
    assert u[|m|] == 'e';
    FirstAt(u, 'e', 'E', |m|);
    assert u[..|m|] == m;
    assert u[|m| + 1..] == x;
  }

  /** A numeral of digits only is all whole part. */
  lemma WholeDigits(m: string)
    requires AllDigits(m)
    ensures Whole(m) == m && Decimals(m) == "" && m + "" == m
  {
    NoPoint(m);
  }

  /** `+"0x10"` is 16: a radix prefix selects base 16. */
  lemma HexExample()
    ensures ToNumber("0x10") == Integer(16)
  {
    TrimIdentity("0x10");
    assert "0x10"[2..] == "10";
    assert AllRadixDigits("10", 16);
    assert "10"[..1] == "1" && "1"[..0] == "";
    assert RadixValue("10", 16) == 16;
  }

  /** `+"1.5"` is the fraction 15 / 10, which prints back as "1.5". */
  lemma FractionExample()
    ensures NumberText(Fraction(15, 1)) == "1.5"
    ensures ToNumber("1.5") == Fraction(15, 1)
  {
    FractionPrint();
    FractionRoundTrip(15, 1);
  }

  lemma FractionPrint()
    ensures NumberText(Fraction(15, 1)) == "1.5"
  {
    assert Pow10(1) == 10;
    assert NatToString(1) == "1";
    assert DropDigits(15, 1) == 1;
    assert Padded(15, 1) == "5" by { assert Padded(1, 0) == ""; }
  }

  /** `+"1.0"` is the integer 1: trailing zero decimals reduce away. */
  lemma WholeFractionExample()
    ensures ToNumber("1.0") == Integer(1)
  {
    UnsignedRead("1.0");
    OnePointZero();
  }

  lemma OnePointZero()
    ensures UnsignedDecimal("1.0") == Integer(1)
  {
    assert "1.0" == "1" + "." + "0";
    PointSplit("1", "0");
    PlainMantissaRead("1.0");
    TenValue();
    assert Scaled(10, -1) == Integer(1);
  }

  lemma TenValue()
    ensures "1" + "0" == "10" && DigitsValue("10") == 10
  {
    assert "10"[..1] == "1" && "1"[..0] == "";
  }

  /** `+"-0x10"` is NaN: a radix literal takes no sign. */
  lemma SignedHexExample()
    ensures ToNumber("-0x10") == NaN
  {
    TrimIdentity("-0x10");
    assert "-0x10"[1..] == "0x10";
    HexNotDecimal();
  }

  /** Without its sign, "0x10" is no decimal numeral. */
  lemma HexNotDecimal()
    ensures UnsignedDecimal("0x10") == NaN
  {
    assert "0x10" != "Infinity" by { assert "0x10"[0] != "Infinity"[0]; }
    assert !IsDigit("0x10"[1]);
    PlainNaN("0x10");
  }

  /** `+" Infinity "` is Infinity: surrounding blanks are ignored. */
  lemma InfinityExample()
    ensures ToNumber(" Infinity ") == Infinity(false)
  {
    assert Trim(" Infinity ") == "Infinity" by {
      assert " Infinity "[1..] == "Infinity ";
      assert "Infinity "[..8] == "Infinity";
      TrimIdentity("Infinity");
    }
  }
}

=== FILE: json.dfy ===
/** Parsed JSON bodies as the screens see them, with the JavaScript reading
    of them: truthiness, property access, `String(v)`, `Array.prototype.join`,
    `Object.values` and `Array.prototype.flat`. */
module Json {
  import opened Wrappers
  import opened JsText

  /** A parsed JSON value. Object members keep their document order; a body
      produced by `JSON.parse` never repeats a key. */
  datatype Json =
    | JNull
    | JBool(b: bool)
    | JNum(n: int)
    | JStr(s: string)
    | JArr(items: seq<Json>)
    | JObj(fields: seq<(string, Json)>)

  /** JavaScript truthiness: `null`, `false`, `0` and `""` are falsy; every
      array and object is truthy, empty or not. */
  predicate Truthy(v: Json) {
    match v
    case JNull => false
    case JBool(b) => b
    case JNum(n) => n != 0
    case JStr(s) => s != ""
    case JArr(_) => true
    case JObj(_) => true
  }

  /** `typeof v === 'object'` for a non-null value (arrays included). */
  predicate IsObjectLike(v: Json) {
    v.JArr? || v.JObj?
  }

  /** The value of the first member named `key`. */
  function Lookup(fields: seq<(string, Json)>, key: string): (r: Option<Json>)
    ensures r.Some? <==> exists i :: 0 <= i < |fields| && fields[i].0 == key
    ensures r.Some? ==>
      exists i :: 0 <= i < |fields| && fields[i] == (key, r.value) && (forall j :: 0 <= j < i ==> fields[j].0 != key)
    decreases |fields|
  {
    if |fields| == 0 then None
    else if fields[0].0 == key then Some(fields[0].1)
    else
      var r := Lookup(fields[1..], key);
      assert forall i :: 1 <= i < |fields| ==> fields[i] == fields[1..][i - 1];
      assert r.Some? ==>
        exists i :: 1 <= i < |fields| && fields[i] == (key, r.value) && (forall j :: 0 <= j < i ==> fields[j].0 != key) by {
        if r.Some? {
          var i' :| 0 <= i' < |fields| - 1 && fields[1..][i'] == (key, r.value)
            && forall j :: 0 <= j < i' ==> fields[1..][j].0 != key;
          assert fields[i' + 1] == (key, r.value);
          assert forall j :: 1 <= j < i' + 1 ==> fields[j].0 != key by {
            forall j | 1 <= j < i' + 1 ensures fields[j].0 != key {
              assert fields[j] == fields[1..][j - 1];
            }
          }
        }
      }
      r
  }

  /** The property read `v.key` (or `v?.key`); `None` is `undefined`. Only an
      object has named properties; on `null` the plain read throws, which
      the callers model where it can happen. */
  function Get(v: Json, key: string): (r: Option<Json>)
    ensures r.Some? ==> v.JObj?
    ensures v.JObj? ==> (r.Some? <==> exists i :: 0 <= i < |v.fields| && v.fields[i].0 == key)
  {
    match v
    case JObj(fields) => Lookup(fields, key)
    case _ => None
  }

  /** Truthiness of a property read; `undefined` is falsy. */
  predicate TruthyProp(p: Option<Json>) {
    p.Some? && Truthy(p.value)
  }

  /** `String(v)`: an array is joined with "," and holds `null` as the empty
      string; every object prints as "[object Object]". */
  function ToStr(v: Json): string
    decreases v
  {
    match v
    case JNull => "null"
    case JBool(b) => if b then "true" else "false"
    case JNum(n) => IntToString(n)
    case JStr(s) => s
    case JArr(items) =>
      JoinStrings(seq(|items|, i requires 0 <= i < |items| =>
        if items[i].JNull? then "" else ToStr(items[i])), ",")
    case JObj(_) => "[object Object]"
  }

  /** `${p}` for a property read; `undefined` prints as "undefined". */
  function PropText(p: Option<Json>): string {
    match p
    case None => "undefined"
    case Some(v) => ToStr(v)
  }

  /** `values.join(sep)`: a `null` element contributes the empty string. */
  function JoinJson(values: seq<Json>, sep: string): string {
    JoinStrings(seq(|values| , i requires 0 <= i < |values| =>
      if values[i].JNull? then "" else ToStr(values[i])), sep)
  }

  /** `Object.values(v)` for an array or object. */
  function ObjectValues(v: Json): (r: seq<Json>)
    requires IsObjectLike(v)
    ensures v.JArr? ==> r == v.items
    ensures v.JObj? ==> |r| == |v.fields| && forall i :: 0 <= i < |r| ==> r[i] == v.fields[i].1
  {
    match v
    case JArr(items) => items
    case JObj(fields) => seq(|fields|, i requires 0 <= i < |fields| => fields[i].1)
  }

  /** `values.flat()`: every array element is spliced in place, one level
      deep. The result is empty exactly when every element is an empty array. */
  function Flat(values: seq<Json>): (r: seq<Json>)
    ensures r == [] <==> forall i :: 0 <= i < |values| ==> values[i] == JArr([])
    ensures (forall i :: 0 <= i < |values| ==> !values[i].JArr?) ==> r == values
    decreases |values|
  {
    if |values| == 0 then []
    else
      var head := match values[0] case JArr(items) => items case _ => [values[0]];
      var r := head + Flat(values[1..]);
      assert forall i :: 1 <= i < |values| ==> values[i] == values[1..][i - 1];
      r
  }

  /** `v[Object.keys(v)[0]]` for an array or object: its first element or
      the value of its first member. */
  function FirstValue(v: Json): (r: Option<Json>)
    requires IsObjectLike(v)
    ensures r.Some? <==> |ObjectValues(v)| > 0
    ensures r.Some? ==> r.value == ObjectValues(v)[0]
  {
    match v
    case JArr(items) => if |items| > 0 then Some(items[0]) else None
    case JObj(fields) => if |fields| > 0 then Some(fields[0].1) else None
  }
}

=== FILE: list_screen.dfy ===
/** The four list screens (clients, suppliers, categories, inventory): the
    fetch that feeds the list, the delete confirmation handler and the
    messages both leave behind. Each request's outcome is an input. */
module ListScreen {
  import opened Wrappers
  import opened JsText
  import opened Json
  import opened Http
  import opened ErrorDetail
  import opened ConfirmationDialog

  datatype Screen = Clients | Suppliers | Categories | Inventory

  /** The screen's signals, and how many times the refresh trigger fired. */
  datatype ListState = ListState(isLoading: bool, isDeleting: bool, errorMessage: Option<string>,
                                 successMessage: Option<string>, refreshes: nat)

  const Idle: ListState := ListState(false, false, None, None, 0)

  /** The category and inventory fetches also clear the success message. */
  predicate FetchClearsSuccess(screen: Screen) {
    screen.Categories? || screen.Inventory?
  }

  /** The message a failed fetch leaves. */
  function FetchError(screen: Screen): string {
    match screen
    case Clients => "Fallo al cargar la lista de clientes. Por favor, inténtelo de nuevo."
    case Suppliers => "Fallo al cargar la lista de proveedores. Por favor, inténtelo de nuevo."
    case Categories => "Fallo al cargar la lista de categorías. Por favor, inténtelo de nuevo."
    case Inventory => "Failed to fetch product data. Please try again."
  }

  /** The synchronous start of a fetch: loading, the error cleared, and the
      success message cleared when `clearSuccess`. */
  function StartFetch(s: ListState, clearSuccess: bool): (r: ListState)
    ensures r.isLoading && r.errorMessage == None
    ensures r.successMessage == (if clearSuccess then None else s.successMessage)
    ensures r.isDeleting == s.isDeleting && r.refreshes == s.refreshes
  {
    s.(isLoading := true, errorMessage := None, successMessage := if clearSuccess then None else s.successMessage)
  }

  /** `fetchAll…()` as each screen writes it. */
  function BeginFetch(screen: Screen, s: ListState): (r: ListState)
    ensures r.isLoading && r.errorMessage == None
    ensures FetchClearsSuccess(screen) ==> r.successMessage == None
    ensures !FetchClearsSuccess(screen) ==> r.successMessage == s.successMessage
  {
    StartFetch(s, FetchClearsSuccess(screen))
  }

  /** The list a fetch produces and the state it leaves. */
  datatype Fetched<T> = Fetched(state: ListState, items: seq<T>)

  /** The fetch's outcome: `response || []` on success; on failure the
      empty list and the screen's error message, so the stream goes on. */
  function EndFetch<T>(screen: Screen, s: ListState, reply: Reply<Option<seq<T>>>): (r: Fetched<T>)
    ensures !r.state.isLoading
    ensures reply.Ok? ==> r.items == reply.value.GetOr([]) && r.state == s.(isLoading := false)
    ensures reply.Failed? ==> r.items == [] && r.state == s.(isLoading := false, errorMessage := Some(FetchError(screen)))
  {
    match reply
    case Ok(response) => Fetched(s.(isLoading := false), response.GetOr([]))
    case Failed(_) => Fetched(s.(isLoading := false, errorMessage := Some(FetchError(screen))), [])
  }

  /** A whole fetch leaves an error exactly when the request failed, and a
      `null` response shows as the empty list. */
  lemma FetchCycle<T>(screen: Screen, s: ListState, reply: Reply<Option<seq<T>>>)
    ensures var r := EndFetch(screen, BeginFetch(screen, s), reply);
      && !r.state.isLoading
      && (r.state.errorMessage.Some? <==> reply.Failed?)
      && (reply == Ok(None) ==> r.items == [])
      && (reply.Failed? ==> r.items == [])
  {
  }

  /** `openDeleteConfirmation`: both messages are cleared before the dialog
      opens with the entity's id. */
  function OpenDeleteConfirmation(s: ListState, d: Dialog<int>, id: int): (r: (ListState, Dialog<int>))
    ensures r.0 == s.(errorMessage := None, successMessage := None)
    ensures r.1.extraData == Some(id)
  {
    (s.(errorMessage := None, successMessage := None), Open(d, Some(id)))
  }

  /** The text of a successful delete. */
  function DeletedText(screen: Screen, id: int): string {
    match screen
    case Clients => "Cliente ID " + IntToString(id) + " eliminado con éxito."
    case Suppliers => "Proveedor ID " + IntToString(id) + " eliminado con éxito."
    case Categories => "Categoría ID " + IntToString(id) + " eliminada con éxito."
    case Inventory => "Producto ID " + IntToString(id) + " eliminado con éxito."
  }

  /** The text of a failed delete with its detail. */
  function DeleteFailedText(screen: Screen, id: int, detail: string): string {
    var what := match screen
      case Clients => "el cliente"
      case Suppliers => "el proveedor"
      case Categories => "la categoría"
      case Inventory => "el producto";
    "Fallo al eliminar " + what + " ID " + IntToString(id) + ". Detalle: " + detail
  }

  /** The detail each screen's delete handler extracts. */
  function DeleteDetail(screen: Screen, f: Failure): (r: Step)
    ensures !screen.Clients? ==> r.Found?
  {
    match screen
    case Clients => ClientDeleteDetail(f)
    case Suppliers => Found(SupplierDeleteDetail(f))
    case Categories => Found(ListDeleteDetail(f))
    case Inventory => Found(ListDeleteDetail(f))
  }

  /** What a delete confirmation did: the state it left and the id of the
      delete request it sent, if it sent one. */
  datatype Handled = Handled(state: ListState, request: Option<int>)

  /** The synchronous part of `handleDeleteConfirmation`: an unconfirmed or
      data-less result is ignored; otherwise the screen is marked deleting,
      both messages are cleared and the delete is sent. */
  function BeginDelete(s: ListState, result: ConfirmationResult<int>): (r: Handled)
    ensures !result.confirmed || result.data.None? ==> r == Handled(s, None)
    ensures result.confirmed && result.data.Some? ==>
      r == Handled(s.(isDeleting := true, errorMessage := None, successMessage := None), result.data)
  {
    if !result.confirmed || result.data.None? then Handled(s, None)
    else Handled(s.(isDeleting := true, errorMessage := None, successMessage := None), result.data)
  }

  /** The delete's outcome. On success the message is set, then the refresh
      trigger fires, which synchronously starts a fetch clearing the success
      message when `clearSuccess`. On failure the detail is reported; a
      detail that throws leaves no message. Either way `finalize` ends the
      deleting state. */
  function FinishDeleteWith(screen: Screen, s: ListState, id: int, outcome: Reply<Json>, clearSuccess: bool): (r: ListState)
    ensures !r.isDeleting
    ensures outcome.Ok? ==> r.refreshes == s.refreshes + 1 && r.isLoading && r.errorMessage == None
    ensures outcome.Ok? ==> r.successMessage == (if clearSuccess then None else Some(DeletedText(screen, id)))
    ensures outcome.Failed? ==> r.refreshes == s.refreshes && r.isLoading == s.isLoading && r.successMessage == s.successMessage
    ensures outcome.Failed? && DeleteDetail(screen, outcome.failure).Found? ==>
      r.errorMessage == Some(DeleteFailedText(screen, id, DeleteDetail(screen, outcome.failure).text))
    ensures outcome.Failed? && DeleteDetail(screen, outcome.failure).Throws? ==> r.errorMessage == s.errorMessage
  {
    match outcome
    case Ok(_) =>
      var shown := s.(successMessage := Some(DeletedText(screen, id)), refreshes := s.refreshes + 1);
      StartFetch(shown, clearSuccess).(isDeleting := false)
    case Failed(f) =>
      var d := DeleteDetail(screen, f);
      if d.Found? then s.(errorMessage := Some(DeleteFailedText(screen, id, d.text)), isDeleting := false)
      else s.(isDeleting := false)
  }

  /** `handleDeleteConfirmation` as written. */
  function HandleDeleteConfirmation(screen: Screen, s: ListState, result: ConfirmationResult<int>, outcome: Reply<Json>): (r: Handled)
    ensures !result.confirmed || result.data.None? ==> r == Handled(s, None)
    ensures result.confirmed && result.data.Some? ==> r.request == result.data && !r.state.isDeleting
    ensures result.confirmed && result.data.Some? && outcome.Ok? ==>
      && r.state.refreshes == s.refreshes + 1 && r.state.errorMessage == None && r.state.isLoading
      && r.state.successMessage == (if FetchClearsSuccess(screen) then None else Some(DeletedText(screen, result.data.value)))
    ensures result.confirmed && result.data.Some? && outcome.Failed? ==>
      && r.state.refreshes == s.refreshes && r.state.successMessage == None && r.state.isLoading == s.isLoading
      && (DeleteDetail(screen, outcome.failure).Found? ==>
            r.state.errorMessage == Some(DeleteFailedText(screen, result.data.value, DeleteDetail(screen, outcome.failure).text)))
      && (DeleteDetail(screen, outcome.failure).Throws? ==> r.state.errorMessage == None)
  {
    var b := BeginDelete(s, result);
    if b.request.None? then b
    else Handled(FinishDeleteWith(screen, b.state, b.request.value, outcome, FetchClearsSuccess(screen)), b.request)
  }

  /** The handler with the refresh no longer wiping the message it follows:
      every screen keeps the success message after a delete. */
  function HandleDeleteConfirmationFixed(screen: Screen, s: ListState, result: ConfirmationResult<int>, outcome: Reply<Json>): (r: Handled)
    ensures !result.confirmed || result.data.None? ==> r == Handled(s, None)
    ensures result.confirmed && result.data.Some? ==> r.request == result.data && !r.state.isDeleting
    ensures result.confirmed && result.data.Some? && outcome.Ok? ==>
      && r.state.refreshes == s.refreshes + 1 && r.state.errorMessage == None && r.state.isLoading
      && r.state.successMessage == Some(DeletedText(screen, result.data.value))
    ensures result.confirmed && result.data.Some? && outcome.Failed? ==>
      && r.state.refreshes == s.refreshes && r.state.successMessage == None && r.state.isLoading == s.isLoading
      && (DeleteDetail(screen, outcome.failure).Found? ==>
            r.state.errorMessage == Some(DeleteFailedText(screen, result.data.value, DeleteDetail(screen, outcome.failure).text)))
      && (DeleteDetail(screen, outcome.failure).Throws? ==> r.state.errorMessage == None)
  {
    var b := BeginDelete(s, result);
    if b.request.None? then b
    else Handled(FinishDeleteWith(screen, b.state, b.request.value, outcome, false), b.request)
  }

  /** The two handlers differ only in the success message, and only on the
      category and inventory screens after a successful delete. */
  lemma FixedDiffersOnlyInSuccessMessage(screen: Screen, s: ListState, result: ConfirmationResult<int>, outcome: Reply<Json>)
    ensures var a := HandleDeleteConfirmation(screen, s, result, outcome);
      var b := HandleDeleteConfirmationFixed(screen, s, result, outcome);
      && a.request == b.request
      && a.state.(successMessage := None) == b.state.(successMessage := None)
      && (a.state.successMessage != b.state.successMessage <==>
            FetchClearsSuccess(screen) && result.confirmed && result.data.Some? && outcome.Ok?)
  {
  }

  /** On the category screen a successful delete of category 5 sets its
      message and the refresh wipes it in the same step. */
  lemma CategoryDeleteMessageLost()
    ensures var r := HandleDeleteConfirmation(Categories, Idle, ConfirmationResult(true, Some(5)), Ok(JNull));
      r.request == Some(5) && r.state.successMessage == None
    ensures HandleDeleteConfirmationFixed(Categories, Idle, ConfirmationResult(true, Some(5)), Ok(JNull)).state.successMessage
      == Some("Categoría ID 5 eliminada con éxito.")
  {
    assert DigitChar(5) == '5';
    assert IntToString(5) == "5";
    assert DeletedText(Categories, 5) == "Categoría ID 5 eliminada con éxito.";
  }

  /** One dialog session followed by the handler: the delete is sent exactly
      when the user confirmed, for the id the dialog was opened with; a
      cancellation or dismissal changes nothing. */
  lemma SessionThenDelete(screen: Screen, s: ListState, d: Dialog<int>, id: int, c: Choice, outcome: Reply<Json>)
    ensures var rs := Run(d, SessionEvents(id, c)).results;
      |rs| == 1 &&
      var h := HandleDeleteConfirmation(screen, s, rs[0], outcome);
      && (c == PressConfirm <==> h.request == Some(id))
      && (c != PressConfirm ==> h == Handled(s, None))
  {
    SessionEmitsOnce(d, id, c);
  }

  /** The client screen's handler leaves no error message when its detail
      extraction throws: a `detail` array holding `null`. */
  lemma ClientDeleteThrowLeavesNoMessage(s: ListState)
    ensures var f := HttpFailure(422, JObj([("detail", JArr([JNull]))]), "Unprocessable", "u");
      var r := HandleDeleteConfirmation(Clients, s, ConfirmationResult(true, Some(3)), Failed(f));
      r.request == Some(3) && r.state.errorMessage == None && r.state.successMessage == None && !r.state.isDeleting
  {
    var f := HttpFailure(422, JObj([("detail", JArr([JNull]))]), "Unprocessable", "u");
    ClientDeleteThrowsIff(f);
    assert NullInDetailArray(f) by {
      assert Get(Body(f), "detail").value.items[0] == JNull;
    }
  }
}

=== FILE: party_forms.dfy ===
/** The create and edit screens for clients and for suppliers. The two are
    the same component with different texts and field names: a client has
    `email` and `telefono`, a supplier `contacto` and `direccion`. */
module PartyForms {
  import opened Wrappers
  import opened JsText
  import opened Json
  import opened Http
  import opened ErrorDetail
  import opened Forms

  datatype Party = ClientForm | SupplierForm

  /** The three form fields, sent as the request body: `nombre` and the
      party's second and third field. */
  datatype Fields = Fields(nombre: string, second: string, third: string)

  const NoFields: Fields := Fields("", "", "")

  /** "Cliente" or "Proveedor", as the messages start. */
  function Noun(p: Party): string {
    match p
    case ClientForm => "Cliente"
    case SupplierForm => "Proveedor"
  }

  /** "cliente" or "proveedor", as the messages use it mid-sentence. */
  function Word(p: Party): string {
    match p
    case ClientForm => "cliente"
    case SupplierForm => "proveedor"
  }

  const IncompleteError: string := "Por favor, completa todos los campos requeridos correctamente."

  datatype CreateState = CreateState(fields: Fields, isLoading: bool,
                                     errorMessage: Option<string>, successMessage: Option<string>)

  function CreatedText(p: Party, name: string, idText: string): string {
    Noun(p) + " \"" + name + "\" (ID: " + idText + ") creado con éxito."
  }

  function CreateFailedPrefix(p: Party): string {
    "Fallo al crear el " + Word(p) + ". Detalle: "
  }

  /** `submitForm` of the create screen. An invalid form is refused and the
      success message is left as it was. Otherwise the fields are posted;
      the success handler prints the name sent and the `id` of the response
      and empties the fields; a failure reports the extracted detail. */
  function SubmitCreate(p: Party, s: CreateState, formInvalid: bool, outcome: Reply<Json>, serialise: Json -> string)
    : (r: Submitted<CreateState, Fields>)
    ensures formInvalid ==> r == Submitted(s.(errorMessage := Some(IncompleteError)), None)
    ensures !formInvalid ==> r.request == Some(s.fields) && !r.state.isLoading
    ensures !formInvalid && outcome.Ok? && outcome.value != JNull ==>
      r.state == CreateState(NoFields, false, None,
                             Some(CreatedText(p, s.fields.nombre, PropText(Get(outcome.value, "id")))))
    ensures !formInvalid && Responded(outcome, "id").Failed? ==>
      r.state == CreateState(s.fields, false,
        FailureText(CreateFailedPrefix(p), PartyFormDetail(Responded(outcome, "id").failure, serialise)), None)
  {
    if formInvalid then Submitted(s.(errorMessage := Some(IncompleteError)), None)
    else
      var state := match Responded(outcome, "id")
        case Ok(resp) => CreateState(NoFields, false, None, Some(CreatedText(p, s.fields.nombre, PropText(Get(resp, "id")))))
        case Failed(f) => CreateState(s.fields, false, FailureText(CreateFailedPrefix(p), PartyFormDetail(f, serialise)), None);
      Submitted(state, Some(s.fields))
  }

  /** After a submission that sent a request, exactly one of the two
      messages is shown, except when extracting the detail threw, which
      happens exactly for a `null` entry in a `detail` array that no
      earlier rule pre-empts. */
  lemma CreateReportsOnce(p: Party, s: CreateState, outcome: Reply<Json>, serialise: Json -> string)
    ensures var r := SubmitCreate(p, s, false, outcome, serialise).state;
      && (r.successMessage.Some? <==> outcome.Ok? && outcome.value != JNull)
      && (r.successMessage.Some? ==> r.errorMessage.None? && r.fields == NoFields)
      && (outcome.Failed? ==> var f := outcome.failure;
            (r.errorMessage.None? <==>
               Truthy(Body(f)) && !Body(f).JStr? && !TruthyProp(Get(Body(f), "message")) && NullInDetailArray(f)))
  {
    if outcome.Failed? {
      PartyFormThrowsIff(outcome.failure, serialise);
    }
  }

  /** A `null` response to the create request is reported with the
      engine's `TypeError` text, and the fields are kept. */
  lemma NullCreateResponse(s: CreateState, serialise: Json -> string)
    ensures var r := SubmitCreate(ClientForm, s, false, Ok(JNull), serialise).state;
      && r.errorMessage == Some("Fallo al crear el cliente. Detalle: " + "Cannot read properties of null (reading 'id')")
      && r.successMessage.None? && r.fields == s.fields
  {
    var f := NullRead("id");
    NoBodyGivesTransportMessage(f, serialise);
    assert Message(f) == "Cannot read properties of null (reading 'id')";
    assert CreateFailedPrefix(ClientForm) == "Fallo al crear el cliente. Detalle: ";
    assert Responded(Ok(JNull), "id") == Failed(f);
    var r := SubmitCreate(ClientForm, s, false, Ok(JNull), serialise).state;
    assert r.errorMessage == FailureText(CreateFailedPrefix(ClientForm), Found(Message(f)));
  }

  // ---------------------------------------------------------------------
  // The edit screen.

  datatype EditState = EditState(partyId: Option<JsNumber>, fields: Fields, isLoading: bool, isFetching: bool,
                                 errorMessage: Option<string>, successMessage: Option<string>,
                                 notFoundError: bool)

  function InvalidIdText(p: Party): string {
    "ID de " + Word(p) + " inválido o no encontrado en la URL."
  }

  function NotFoundText(p: Party, id: JsNumber): string {
    Noun(p) + " con ID " + NumberText(id) + " no encontrado."
  }

  function LoadErrorText(p: Party): string {
    "Fallo al cargar los detalles del " + Word(p) + "."
  }

  function NoIdText(p: Party): string {
    "Error: ID de " + Word(p) + " no disponible para la actualización."
  }

  function UpdatedText(p: Party, nameText: string, id: JsNumber): string {
    Noun(p) + " \"" + nameText + "\" (ID: " + NumberText(id) + ") actualizado con éxito."
  }

  function UpdateFailedPrefix(p: Party): string {
    "Fallo al actualizar el " + Word(p) + ". Detalle: "
  }

  /** `ngOnInit` before the route answers. */
  function Init(s: EditState): EditState
  {
    s.(errorMessage := None, successMessage := None, notFoundError := false)
  }

  /** The route's answer. A missing, empty or non-numeric id stops the
      screen with the not-found flag (the client screen also clears its
      loading flag, the supplier screen does not); otherwise the id is kept
      and its details are requested. The second component is the id fetched. */
  function OnIdParam(p: Party, s: EditState, idParam: Option<string>): (r: (EditState, Option<JsNumber>))
    ensures r.1 == StrictId(idParam)
    ensures r.1.None? ==>
      r.0 == s.(errorMessage := Some(InvalidIdText(p)), notFoundError := true,
                isFetching := if p == ClientForm then false else s.isFetching)
    ensures r.1.Some? ==>
      r.0 == s.(partyId := r.1, isFetching := true, notFoundError := false,
                errorMessage := None, successMessage := None)
  {
    match StrictId(idParam)
    case None =>
      (s.(errorMessage := Some(InvalidIdText(p)), notFoundError := true,
          isFetching := if p == ClientForm then false else s.isFetching), None)
    case Some(id) =>
      (s.(partyId := Some(id), isFetching := true, notFoundError := false,
          errorMessage := None, successMessage := None), Some(id))
  }

  /** The details' outcome: a record fills the fields; an empty body or a
      404 sets the not-found flag; any other failure gets the generic text. */
  function EndFetch(p: Party, s: EditState, id: JsNumber, reply: Reply<Option<Fields>>): (r: EditState)
    ensures !r.isFetching
    ensures reply.Ok? && reply.value.Some? ==> r == s.(fields := reply.value.value, isFetching := false)
    ensures reply == Ok(None) || (reply.Failed? && Status(reply.failure) == Some(404)) ==>
      r == s.(errorMessage := Some(NotFoundText(p, id)), notFoundError := true, isFetching := false)
    ensures reply.Failed? && Status(reply.failure) != Some(404) ==>
      r == s.(errorMessage := Some(LoadErrorText(p)), isFetching := false)
  {
    match reply
    case Ok(Some(fields)) => s.(fields := fields, isFetching := false)
    case Ok(None) => s.(errorMessage := Some(NotFoundText(p, id)), notFoundError := true, isFetching := false)
    case Failed(f) =>
      if Status(f) == Some(404) then
        s.(errorMessage := Some(NotFoundText(p, id)), notFoundError := true, isFetching := false)
      else s.(errorMessage := Some(LoadErrorText(p)), isFetching := false)
  }

  /** A load ends with the not-found flag exactly when the record is absent
      or answered 404, and with an error exactly when no record arrived. */
  lemma LoadClassification(p: Party, s: EditState, idParam: Option<string>, reply: Reply<Option<Fields>>)
    requires StrictId(idParam).Some?
    ensures var (started, id) := OnIdParam(p, s, idParam);
      var r := EndFetch(p, started, id.value, reply);
      && (r.notFoundError <==> reply == Ok(None) || (reply.Failed? && Status(reply.failure) == Some(404)))
      && (r.errorMessage.None? <==> reply.Ok? && reply.value.Some?)
      && !r.isFetching && r.partyId == id
  {
  }

  /** A link built from a record's id opens that record. */
  lemma LinkOpensRecord(p: Party, s: EditState, n: int)
    ensures OnIdParam(p, s, Some(IntToString(n))).1 == Some(Integer(n))
    ensures OnIdParam(p, s, Some(IntToString(n))).0.partyId == Some(Integer(n))
  {
    IdRoundTrip(n);
  }

  /** On a freshly created screen the supplier's missing reset of the
      loading flag makes no difference: neither screen shows a spinner. */
  lemma RefusedIdShowsNoSpinner(p: Party, s: EditState, idParam: Option<string>)
    requires !s.isFetching && StrictId(idParam).None?
    ensures var r := OnIdParam(p, Init(s), idParam).0;
      !r.isFetching && r.notFoundError && r.errorMessage == Some(InvalidIdText(p))
  {
  }

  /** `submitForm` of the edit screen: both messages are cleared first; an
      invalid form and then a missing id are refused; otherwise the fields
      are sent for the id. The success text prints the `nombre` of the
      response, so a `null` response fails as a `TypeError`. */
  function SubmitEdit(p: Party, s: EditState, formInvalid: bool, outcome: Reply<Json>, serialise: Json -> string)
    : (r: Submitted<EditState, (JsNumber, Fields)>)
    ensures formInvalid ==>
      r == Submitted(s.(errorMessage := Some(IncompleteError), successMessage := None), None)
    ensures !formInvalid && s.partyId.None? ==>
      r == Submitted(s.(errorMessage := Some(NoIdText(p)), successMessage := None), None)
    ensures r.request.Some? <==> !formInvalid && s.partyId.Some?
    ensures r.request.Some? ==> r.request.value == (s.partyId.value, s.fields)
    ensures r.request.Some? && Responded(outcome, "nombre").Ok? ==>
      r.state == s.(isLoading := false, errorMessage := None,
                    successMessage := Some(UpdatedText(p, PropText(Get(outcome.value, "nombre")), s.partyId.value)))
    ensures r.request.Some? && Responded(outcome, "nombre").Failed? ==>
      r.state == s.(isLoading := false, successMessage := None,
                    errorMessage := FailureText(UpdateFailedPrefix(p),
                                                PartyFormDetail(Responded(outcome, "nombre").failure, serialise)))
  {
    var cleared := s.(errorMessage := None, successMessage := None);
    if formInvalid then Submitted(cleared.(errorMessage := Some(IncompleteError)), None)
    else if s.partyId.None? then Submitted(cleared.(errorMessage := Some(NoIdText(p))), None)
    else
      var id := s.partyId.value;
      var state := match Responded(outcome, "nombre")
        case Ok(resp) => cleared.(isLoading := false, successMessage := Some(UpdatedText(p, PropText(Get(resp, "nombre")), id)))
        case Failed(f) => cleared.(isLoading := false, errorMessage := FailureText(UpdateFailedPrefix(p), PartyFormDetail(f, serialise)));
      Submitted(state, Some((id, s.fields)))
  }

  /** A record loaded into the edit screen and saved unchanged is sent back
      with the same fields, for the id in the link. */
  lemma LoadThenSaveSendsRecord(p: Party, s: EditState, n: int, record: Fields, outcome: Reply<Json>, serialise: Json -> string)
    ensures var (started, id) := OnIdParam(p, Init(s), Some(IntToString(n)));
      var loaded := EndFetch(p, started, Integer(n), Ok(Some(record)));
      SubmitEdit(p, loaded, false, outcome, serialise).request == Some((Integer(n), record))
  {
    IdRoundTrip(n);
  }

  /** The create and edit screens send the same body for the same fields. */
  lemma CreateAndEditSendSameFields(p: Party, c: CreateState, e: EditState, o1: Reply<Json>, o2: Reply<Json>, serialise: Json -> string)
    requires c.fields == e.fields && e.partyId.Some?
    ensures SubmitCreate(p, c, false, o1, serialise).request.value == SubmitEdit(p, e, false, o2, serialise).request.value.1
  {
  }
}

=== FILE: process_data.dfy ===
/** `processProduct`: the mapping from a product as the backend sends it
    to the shape the inventory screen displays, with a default for every
    falsy field. */
module ProcessData {
  import opened Json

  /** A product as received; any field may be missing (`JNull`) or falsy. */
  datatype ProductRaw = ProductRaw(id: Json, categoria_id: Json, descripcion: Json, nombre: Json, precio: Json, stock: Json)

  /** The displayed product. */
  datatype Processed = Processed(id: Json, category_id: Json, description: Json, name: Json, price: Json, stock: Json)

  /** `a || b`. */
  function Or(a: Json, b: Json): (r: Json)
    ensures Truthy(a) ==> r == a
    ensures !Truthy(a) ==> r == b
  {
    if Truthy(a) then a else b
  }

  const NoDescription: Json := JStr("Sin descripción")
  const NoName: Json := JStr("Sin nombre")

  /** The mapping as written: `stock` is read from `precio`. */
  function ProcessProductAsWritten(p: ProductRaw): (r: Processed)
    ensures r.id == p.id && r.category_id == p.categoria_id
    ensures r.description == Or(p.descripcion, NoDescription)
    ensures r.name == Or(p.nombre, NoName)
    ensures r.price == Or(p.precio, JNum(0))
    ensures r.stock == r.price
  {
    Processed(p.id, p.categoria_id, Or(p.descripcion, NoDescription), Or(p.nombre, NoName),
              Or(p.precio, JNum(0)), Or(p.precio, JNum(0)))
  }

  /** A product priced 10 with 3 units in stock is displayed with 10 units. */
  lemma StockFromPriceExample()
    ensures var p := ProductRaw(JNum(7), JNum(1), JStr("Leche"), JStr("Leche entera"), JNum(10), JNum(3));
      ProcessProductAsWritten(p).stock == JNum(10) && p.stock == JNum(3)
  {
  }

  /** The mapping with `stock` read from `stock`. */
  function ProcessProduct(p: ProductRaw): (r: Processed)
    ensures r.id == p.id && r.category_id == p.categoria_id
    ensures r.description == Or(p.descripcion, NoDescription)
    ensures r.name == Or(p.nombre, NoName)
    ensures r.price == Or(p.precio, JNum(0))
    ensures r.stock == Or(p.stock, JNum(0))
  {
    Processed(p.id, p.categoria_id, Or(p.descripcion, NoDescription), Or(p.nombre, NoName),
              Or(p.precio, JNum(0)), Or(p.stock, JNum(0)))
  }

  /** Every displayed field is truthy apart from the two identifiers and the
      numeric fields, which fall back to 0. */
  lemma ProcessedFieldsPresent(p: ProductRaw)
    ensures Truthy(ProcessProduct(p).description) && Truthy(ProcessProduct(p).name)
    ensures ProcessProduct(p).price.JNum? || Truthy(ProcessProduct(p).price)
    ensures ProcessProduct(p).stock.JNum? || Truthy(ProcessProduct(p).stock)
  {
  }

  /** A product whose fields are all truthy is shown as sent, field for field. */
  lemma ProcessPreservesTruthyFields(p: ProductRaw)
    requires Truthy(p.descripcion) && Truthy(p.nombre) && Truthy(p.precio) && Truthy(p.stock)
    ensures ProcessProduct(p) == Processed(p.id, p.categoria_id, p.descripcion, p.nombre, p.precio, p.stock)
  {
  }

  /** Processing the processed product again, read back as a raw product,
      changes nothing: the defaults are themselves truthy or already 0. */
  lemma ProcessIdempotent(p: ProductRaw)
    ensures var q := ProcessProduct(p);
      ProcessProduct(ProductRaw(q.id, q.category_id, q.description, q.name, q.price, q.stock)) == q
  {
  }

  /** The two mappings differ only in `stock`, and there only when `precio`
      and `stock` differ in the value they fall back to. */
  lemma AsWrittenDiffersOnlyInStock(p: ProductRaw)
    ensures ProcessProductAsWritten(p) == ProcessProduct(p).(stock := Or(p.precio, JNum(0)))
    ensures ProcessProductAsWritten(p) == ProcessProduct(p) <==> Or(p.precio, JNum(0)) == Or(p.stock, JNum(0))
  {
  }
}

=== FILE: product_forms.dfy ===
/** The create and edit product screens: the category list offered in the
    form, the two submission gates (a valid form, then a chosen category),
    and the edit screen's joint load of the product and the categories. */
module ProductForms {
  import opened Wrappers
  import opened JsText
  import opened Json
  import opened Http
  import opened Entities
  import opened ErrorDetail
  import opened Forms

  /** The form fields. Price, stock and category start empty (`null`). */
  datatype ProductForm = ProductForm(name: string, description: string, price: Option<int>,
                                     stock: Option<int>, categoryId: Option<int>)

  const EmptyForm: ProductForm := ProductForm("", "", None, None, None)

  /** The body of a create or update request. Price and stock are sent as
      the form holds them, `null` included. */
  datatype ProductPayload = ProductPayload(nombre: string, descripcion: string, precio: Option<int>,
                                           stock: Option<int>, categoria_id: int)

  const IncompleteError: string := "Por favor, completa todos los campos requeridos correctamente."
  const NoCategoryError: string := "Por favor, selecciona una categoría para el producto."
  const NoCategoriesError: string := "No hay categorías disponibles. Por favor, crea una categoría primero."

  /** The payload of a form whose category is chosen. */
  function Payload(form: ProductForm): ProductPayload
    requires form.categoryId.Some?
  {
    ProductPayload(form.name, form.description, form.price, form.stock, form.categoryId.value)
  }

  /** `data || []`: the list a successful category request offers. */
  function Offered(data: Option<seq<Category>>): (r: seq<Category>)
    ensures data.Some? ==> r == data.value
    ensures data.None? ==> r == []
  {
    data.GetOr([])
  }

  /** `!data || data.length === 0`. */
  predicate NoneOffered(data: Option<seq<Category>>) {
    |Offered(data)| == 0
  }

  // ---------------------------------------------------------------------
  // The create screen.

  datatype CreateState = CreateState(form: ProductForm, isLoading: bool, isFetchingCategories: bool,
                                     errorMessage: Option<string>, successMessage: Option<string>,
                                     categories: seq<Category>, categoriesError: Option<string>)

  /** `fetchCategories`: the list is what arrived, or empty; an empty list
      and a failure each leave their own message. */
  function FetchCategories(s: CreateState, reply: Reply<Option<seq<Category>>>): (r: CreateState)
    ensures !r.isFetchingCategories
    ensures r.categories == (if reply.Ok? then Offered(reply.value) else [])
    ensures reply.Ok? ==> r.categoriesError == (if NoneOffered(reply.value) then Some(NoCategoriesError) else None)
    ensures reply.Failed? ==> r.categoriesError == Some("Fallo al cargar las categorías. Inténtalo de nuevo.")
    ensures r.form == s.form && r.errorMessage == s.errorMessage && r.successMessage == s.successMessage
    ensures r.isLoading == s.isLoading
  {
    match reply
    case Ok(data) =>
      s.(categories := Offered(data), isFetchingCategories := false,
         categoriesError := if NoneOffered(data) then Some(NoCategoriesError) else None)
    case Failed(_) =>
      s.(categories := [], isFetchingCategories := false,
         categoriesError := Some("Fallo al cargar las categorías. Inténtalo de nuevo."))
  }

  /** The category message is absent exactly when some category arrived. */
  lemma CategoriesErrorIff(s: CreateState, reply: Reply<Option<seq<Category>>>)
    ensures var r := FetchCategories(s, reply);
      r.categoriesError.None? <==> |r.categories| > 0
  {
  }

  function CreatedText(name: string): string {
    "Producto \"" + name + "\" creado con éxito."
  }

  /** `submitForm` of the create screen: an invalid form and then a missing
      category are refused; otherwise the form is posted. Success empties
      the form; a failure reports the extracted detail and keeps it. */
  function SubmitCreate(s: CreateState, formInvalid: bool, outcome: Reply<Json>, serialise: Json -> string)
    : (r: Submitted<CreateState, ProductPayload>)
    ensures formInvalid ==> r == Submitted(s.(errorMessage := Some(IncompleteError)), None)
    ensures !formInvalid && s.form.categoryId.None? ==> r == Submitted(s.(errorMessage := Some(NoCategoryError)), None)
    ensures r.request.Some? <==> !formInvalid && s.form.categoryId.Some?
    ensures r.request.Some? ==> r.request.value == Payload(s.form) && !r.state.isLoading
    ensures r.request.Some? && outcome.Ok? ==>
      r.state == s.(form := EmptyForm, isLoading := false, errorMessage := None,
                    successMessage := Some(CreatedText(s.form.name)))
    ensures r.request.Some? && outcome.Failed? ==>
      r.state == s.(isLoading := false, successMessage := None,
                    errorMessage := Some("Fallo al crear el producto. Detalle: " + ProductFormDetail(outcome.failure, serialise)))
  {
    if formInvalid then Submitted(s.(errorMessage := Some(IncompleteError)), None)
    else if s.form.categoryId.None? then Submitted(s.(errorMessage := Some(NoCategoryError)), None)
    else
      var state := match outcome
        case Ok(_) => s.(form := EmptyForm, isLoading := false, errorMessage := None,
                         successMessage := Some(CreatedText(s.form.name)))
        case Failed(f) => s.(isLoading := false, successMessage := None,
                             errorMessage := Some("Fallo al crear el producto. Detalle: " + ProductFormDetail(f, serialise)));
      Submitted(state, Some(Payload(s.form)))
  }

  /** After a successful create the form is empty again. Even taking the
      emptied form as valid (`formInvalid` false; the form's own required-field
      validators would refuse it first), submitting it once more is refused
      for want of a category, so no second product can be sent. */
  lemma CreateThenResubmit(s: CreateState, o1: Reply<Json>, o2: Reply<Json>, serialise: Json -> string)
    requires s.form.categoryId.Some? && o1.Ok?
    ensures var after := SubmitCreate(s, false, o1, serialise).state;
      SubmitCreate(after, false, o2, serialise) == Submitted(after.(errorMessage := Some(NoCategoryError)), None)
  {
  }

  // ---------------------------------------------------------------------
  // The edit screen.

  datatype EditState = EditState(productId: Option<JsNumber>, form: ProductForm, isLoading: bool,
                                 isFetchingData: bool, errorMessage: Option<string>,
                                 successMessage: Option<string>, categories: seq<Category>,
                                 categoriesError: Option<string>, productNotFoundError: bool)

  /** What the joint request of the product and the category list yields:
      both bodies, or the failure of whichever request failed. */
  type LoadReply = Reply<(Option<Product>, Option<seq<Category>>)>

  const MissingIdError: string := "ID de producto no encontrado en la URL."
  const LoadError: string := "Fallo al cargar los datos del producto. Por favor, inténtelo de nuevo."
  const CategoriesLoadError: string := "Fallo al cargar las categorías."

  /** The message the route's missing id is thrown with. */
  const MissingIdThrown: Failure := ThrownError("ID de producto no encontrado")

  /** `${this.productId}`, which prints `null` before an id is read. */
  function IdText(id: Option<JsNumber>): string {
    match id
    case None => "null"
    case Some(n) => NumberText(n)
  }

  function NotFoundText(id: Option<JsNumber>): string {
    "Producto con ID " + IdText(id) + " no encontrado."
  }

  /** The failure answers 404 for this product's own request. */
  predicate ProductMissing(f: Failure, id: Option<JsNumber>) {
    Status(f) == Some(404) && Url(f).Some? && Contains(Url(f).value, "/producto/" + IdText(id))
  }

  /** The failure came from the category request. */
  predicate CategoriesFailed(f: Failure) {
    Url(f).Some? && Contains(Url(f).value, "/categoria")
  }

  /** `populateForm`. The filled form has its category chosen, and its
      payload is the product's own fields, whatever the form held before. */
  function Populate(form: ProductForm, p: Product): (r: ProductForm)
    ensures r.categoryId.Some?
    ensures Payload(r) == ProductPayload(p.nombre, p.descripcion, Some(p.precio), Some(p.stock), p.categoriaId)
  {
    ProductForm(p.nombre, p.descripcion, Some(p.precio), Some(p.stock), Some(p.categoriaId))
  }

  /** The load's `catchError` followed by its `finalize`. */
  function LoadFailed(s: EditState, f: Failure): (r: EditState)
    ensures !r.isFetchingData
    ensures ProductMissing(f, s.productId) ==>
      r == s.(errorMessage := Some(NotFoundText(s.productId)), productNotFoundError := true, isFetchingData := false)
    ensures !ProductMissing(f, s.productId) && CategoriesFailed(f) ==>
      r == s.(categoriesError := Some(CategoriesLoadError), categories := [], isFetchingData := false)
    ensures !ProductMissing(f, s.productId) && !CategoriesFailed(f) ==>
      r == s.(errorMessage := Some(LoadError), isFetchingData := false)
  {
    if ProductMissing(f, s.productId) then
      s.(errorMessage := Some(NotFoundText(s.productId)), productNotFoundError := true, isFetchingData := false)
    else if CategoriesFailed(f) then
      s.(categoriesError := Some(CategoriesLoadError), categories := [], isFetchingData := false)
    else s.(errorMessage := Some(LoadError), isFetchingData := false)
  }

  /** `ngOnInit` through the end of the load. A missing or empty id sets
      its message and the not-found flag; when `rethrow` holds, the error
      then thrown reaches the same `catchError` as a failed request, as the
      screen is written. With an id, a `null` product fails on reading its
      `nombre`; otherwise the form is filled and the categories offered. */
  function LoadWith(s: EditState, idParam: Option<string>, reply: LoadReply, rethrow: bool): (r: EditState)
    ensures !r.isFetchingData
    ensures LooseId(idParam).None? ==> r.productNotFoundError && r.form == s.form
    ensures LooseId(idParam).Some? ==> r.productId == LooseId(idParam)
    ensures LooseId(idParam).Some? && reply.Ok? && reply.value.0.Some? ==>
      && r.form == Populate(s.form, reply.value.0.value)
      && r.categories == Offered(reply.value.1)
      && r.categoriesError == (if NoneOffered(reply.value.1) then Some(NoCategoriesError) else s.categoriesError)
      && r.errorMessage == s.errorMessage && r.productNotFoundError == s.productNotFoundError
  {
    var started := s.(isFetchingData := true);
    match LooseId(idParam)
    case None =>
      var refused := started.(errorMessage := Some(MissingIdError), productNotFoundError := true, isFetchingData := false);
      if rethrow then LoadFailed(refused, MissingIdThrown) else refused
    case Some(id) => Loaded(started.(productId := Some(id)), reply)
  }

  /** The load's outcome once the id is known. */
  function Loaded(s: EditState, reply: LoadReply): (r: EditState)
    ensures !r.isFetchingData && r.productId == s.productId
    ensures reply.Ok? && reply.value.0.Some? ==>
      && r.form == Populate(s.form, reply.value.0.value)
      && r.categories == Offered(reply.value.1)
      && r.categoriesError == (if NoneOffered(reply.value.1) then Some(NoCategoriesError) else s.categoriesError)
      && r.errorMessage == s.errorMessage && r.productNotFoundError == s.productNotFoundError
  {
    match reply
    case Ok((Some(p), data)) =>
      s.(form := Populate(s.form, p), categories := Offered(data), isFetchingData := false,
         categoriesError := if NoneOffered(data) then Some(NoCategoriesError) else s.categoriesError)
    case Ok((None, _)) => LoadFailed(s, NullRead("nombre"))
    case Failed(f) => LoadFailed(s, f)
  }

  /** The screen as written. */
  function Load(s: EditState, idParam: Option<string>, reply: LoadReply): (r: EditState)
    ensures r == LoadWith(s, idParam, reply, true)
    ensures LooseId(idParam).None? ==> r.errorMessage == Some(LoadError)
  {
    var r := LoadWith(s, idParam, reply, true);
    assert LooseId(idParam).None? ==> !ProductMissing(MissingIdThrown, s.productId) && !CategoriesFailed(MissingIdThrown);
    r
  }

  /** The screen with the missing id's message kept: the thrown error is
      not routed through the request's failure handler. */
  function LoadFixed(s: EditState, idParam: Option<string>, reply: LoadReply): (r: EditState)
    ensures r == LoadWith(s, idParam, reply, false)
    ensures LooseId(idParam).None? ==> r.errorMessage == Some(MissingIdError)
  {
    LoadWith(s, idParam, reply, false)
  }

  /** The message for a missing id is overwritten by the generic load error
      in the screen as written; the two versions differ in nothing else. */
  lemma MissingIdMessageLost(s: EditState, reply: LoadReply)
    ensures Load(s, None, reply).errorMessage == Some(LoadError)
    ensures LoadFixed(s, None, reply).errorMessage == Some(MissingIdError)
    ensures Load(s, None, reply) == LoadFixed(s, None, reply).(errorMessage := Some(LoadError))
  {
    assert !ProductMissing(MissingIdThrown, s.productId) && !CategoriesFailed(MissingIdThrown);
  }

  /** Both versions agree whenever the route carries an id. */
  lemma LoadVersionsAgreeWithId(s: EditState, idParam: Option<string>, reply: LoadReply)
    requires LooseId(idParam).Some?
    ensures Load(s, idParam, reply) == LoadFixed(s, idParam, reply)
  {
  }

  /** A load from a freshly created screen raises the not-found flag
      exactly for a missing id or this product's 404. */
  lemma LoadNotFoundIff(s: EditState, idParam: Option<string>, reply: LoadReply)
    requires !s.productNotFoundError
    ensures LoadFixed(s, idParam, reply).productNotFoundError <==>
      LooseId(idParam).None? || (reply.Failed? && ProductMissing(reply.failure, LooseId(idParam)))
  {
    var id := LooseId(idParam);
    if id.Some? {
      var withId := s.(isFetchingData := true, productId := id);
      if reply.Ok? && reply.value.0.None? {
        NullReadIsGeneric(withId);
      }
    }
  }

  /** With an id, a load from a freshly created screen shows the general
      error without the not-found flag exactly when no product arrived and
      the failure is neither this product's 404 nor the category request's. */
  lemma LoadErrorIff(s: EditState, idParam: Option<string>, reply: LoadReply)
    requires s.errorMessage.None? && !s.productNotFoundError && LooseId(idParam).Some?
    ensures var id := LooseId(idParam);
      var r := LoadFixed(s, idParam, reply);
      r.errorMessage == Some(LoadError) && !r.productNotFoundError <==>
        (reply.Ok? && reply.value.0.None?)
        || (reply.Failed? && !ProductMissing(reply.failure, id) && !CategoriesFailed(reply.failure))
  {
    var id := LooseId(idParam);
    var withId := s.(isFetchingData := true, productId := id);
    if reply.Ok? && reply.value.0.None? {
      NullReadIsGeneric(withId);
    }
  }

  /** A `null` product lands in the general branch. */
  lemma NullReadIsGeneric(s: EditState)
    ensures LoadFailed(s, NullRead("nombre")) == s.(errorMessage := Some(LoadError), isFetchingData := false)
  {
  }

  function UpdatedText(name: string, id: JsNumber): string {
    "Producto \"" + name + "\" (ID: " + NumberText(id) + ") actualizado con éxito."
  }

  /** `submitForm` of the edit screen: an invalid form or a screen without
      an id is refused, then a missing category; otherwise the form is sent
      for the id. The form is kept after success. */
  function SubmitEdit(s: EditState, formInvalid: bool, outcome: Reply<Json>, serialise: Json -> string)
    : (r: Submitted<EditState, (JsNumber, ProductPayload)>)
    ensures formInvalid || s.productId.None? ==> r == Submitted(s.(errorMessage := Some(IncompleteError)), None)
    ensures !formInvalid && s.productId.Some? && s.form.categoryId.None? ==>
      r == Submitted(s.(errorMessage := Some(NoCategoryError)), None)
    ensures r.request.Some? <==> !formInvalid && s.productId.Some? && s.form.categoryId.Some?
    ensures r.request.Some? ==> r.request.value == (s.productId.value, Payload(s.form))
    ensures r.request.Some? && outcome.Ok? ==>
      r.state == s.(isLoading := false, errorMessage := None,
                    successMessage := Some(UpdatedText(s.form.name, s.productId.value)))
    ensures r.request.Some? && outcome.Failed? ==>
      r.state == s.(isLoading := false, successMessage := None,
                    errorMessage := Some("Fallo al actualizar el producto. Detalle: " + ProductFormDetail(outcome.failure, serialise)))
  {
    if formInvalid || s.productId.None? then Submitted(s.(errorMessage := Some(IncompleteError)), None)
    else if s.form.categoryId.None? then Submitted(s.(errorMessage := Some(NoCategoryError)), None)
    else
      var id := s.productId.value;
      var state := match outcome
        case Ok(_) => s.(isLoading := false, errorMessage := None, successMessage := Some(UpdatedText(s.form.name, id)))
        case Failed(f) => s.(isLoading := false, successMessage := None,
                             errorMessage := Some("Fallo al actualizar el producto. Detalle: " + ProductFormDetail(f, serialise)));
      Submitted(state, Some((id, Payload(s.form))))
  }

  /** A product opened from its link and saved unchanged is sent back as it
      was loaded, for its own id. */
  lemma LoadThenSaveSendsProduct(s: EditState, p: Product, data: Option<seq<Category>>,
                                 outcome: Reply<Json>, serialise: Json -> string)
    ensures var loaded := LoadFixed(s, Some(IntToString(p.id)), Ok((Some(p), data)));
      SubmitEdit(loaded, false, outcome, serialise).request
        == Some((Integer(p.id), ProductPayload(p.nombre, p.descripcion, Some(p.precio), Some(p.stock), p.categoriaId)))
  {
    IdRoundTrip(p.id);
  }

  /** The create and edit screens send the same body for the same form. */
  lemma CreateAndEditSendSamePayload(c: CreateState, e: EditState, o1: Reply<Json>, o2: Reply<Json>, serialise: Json -> string)
    requires c.form == e.form && e.productId.Some?
    ensures SubmitCreate(c, false, o1, serialise).request.Some? <==> SubmitEdit(e, false, o2, serialise).request.Some?
    ensures SubmitCreate(c, false, o1, serialise).request.Some? ==>
      SubmitCreate(c, false, o1, serialise).request.value == SubmitEdit(e, false, o2, serialise).request.value.1
  {
  }
}

=== FILE: sale_cart.dfy ===
/** The sell screen's cart: one line per product, each with its quantity,
    unit price, subtotal and the stock known when it was added. */
module SaleCart {
  import opened Json
  import opened Entities
  import opened Search

  datatype CartItem = CartItem(productId: int, productName: string, quantity: int, unitPrice: int,
                               subtotal: int, availableStock: int)

  /** The three invariants every line and the cart as a whole keep. */
  predicate LineValid(item: CartItem) {
    && item.subtotal == item.quantity * item.unitPrice
    && 1 <= item.quantity <= item.availableStock
  }

  predicate UniqueIds(cart: seq<CartItem>) {
    forall i, j :: 0 <= i < j < |cart| ==> cart[i].productId != cart[j].productId
  }

  predicate CartValid(cart: seq<CartItem>) {
    UniqueIds(cart) && forall i :: 0 <= i < |cart| ==> LineValid(cart[i])
  }

  /** `cart.findIndex(item => item.productId === id)`. */
  function FindIndex(cart: seq<CartItem>, id: int): (r: int)
    ensures -1 <= r < |cart|
    ensures r >= 0 ==> cart[r].productId == id && forall j :: 0 <= j < r ==> cart[j].productId != id
    ensures r == -1 <==> forall j :: 0 <= j < |cart| ==> cart[j].productId != id
    decreases |cart|
  {
    if |cart| == 0 then -1
    else if cart[0].productId == id then 0
    else
      var k := FindIndex(cart[1..], id);
      assert forall j :: 1 <= j < |cart| ==> cart[j] == cart[1..][j - 1];
      if k == -1 then -1 else k + 1
  }

  /** A new line for `p`: one unit at its price, remembering its stock. It
      keeps the line invariant exactly when the product has stock, it is
      found under the product's id, and it adds the price to a total. */
  function NewLine(p: Product): (item: CartItem)
    ensures LineValid(item) <==> p.stock >= 1
    ensures FindIndex([item], p.id) == 0
    ensures Total([item]) == p.precio
  {
    CartItem(p.id, p.nombre, 1, p.precio, p.precio, p.stock)
  }

  /** The cart update of `addProductToCart` (the stock check before it
      belongs to the screen). A product already in the cart gains one unit
      while its quantity is below the product's stock; any other product is
      appended as a new line. */
  function AddToCart(cart: seq<CartItem>, p: Product): (r: seq<CartItem>)
    ensures FindIndex(cart, p.id) == -1 ==> r == cart + [NewLine(p)]
    ensures FindIndex(cart, p.id) >= 0 ==> |r| == |cart|
    ensures FindIndex(cart, p.id) >= 0 ==>
      forall j :: 0 <= j < |cart| && j != FindIndex(cart, p.id) ==> r[j] == cart[j]
    ensures FindIndex(cart, p.id) >= 0 ==>
      var old_ := cart[FindIndex(cart, p.id)];
      var new_ := r[FindIndex(cart, p.id)];
      && new_.productId == old_.productId && new_.unitPrice == old_.unitPrice
      && new_.availableStock == old_.availableStock && new_.productName == old_.productName
      && new_.quantity == (if old_.quantity < p.stock then old_.quantity + 1 else old_.quantity)
      && (old_.quantity < p.stock ==> new_.subtotal == new_.quantity * new_.unitPrice)
      && (old_.quantity >= p.stock ==> new_ == old_)
  {
    var i := FindIndex(cart, p.id);
    if i == -1 then cart + [NewLine(p)]
    else
      var item := cart[i];
      if item.quantity < p.stock
      then cart[i := item.(quantity := item.quantity + 1, subtotal := (item.quantity + 1) * item.unitPrice)]
      else cart
  }

  /** `Math.max(1, Math.min(q, stock))`. */
  function Clamp(q: int, stock: int): (r: int)
    ensures r >= 1
    ensures stock >= 1 ==> r <= stock
    ensures 1 <= q <= stock ==> r == q
    ensures stock >= 1 && q >= stock ==> r == stock
    ensures q <= 1 || stock <= 1 ==> r == 1
  {
    var m := if q < stock then q else stock;
    if m > 1 then m else 1
  }

  /** Clamping an already clamped quantity changes nothing. */
  lemma ClampIdempotent(q: int, stock: int)
    requires stock >= 1
    ensures Clamp(Clamp(q, stock), stock) == Clamp(q, stock)
  {
  }

  /** `updateCartItemQuantity`: the lines with `id` take the clamped
      quantity and the matching subtotal; all other lines are untouched. */
  function UpdateQuantity(cart: seq<CartItem>, id: int, q: int): (r: seq<CartItem>)
    ensures |r| == |cart|
    ensures forall i :: 0 <= i < |cart| && cart[i].productId != id ==> r[i] == cart[i]
    ensures forall i :: 0 <= i < |cart| && cart[i].productId == id ==>
      var c := Clamp(q, cart[i].availableStock);
      r[i] == cart[i].(quantity := c, subtotal := c * cart[i].unitPrice)
  {
    seq(|cart|, i requires 0 <= i < |cart| =>
      if cart[i].productId == id
      then cart[i].(quantity := Clamp(q, cart[i].availableStock),
                    subtotal := Clamp(q, cart[i].availableStock) * cart[i].unitPrice)
      else cart[i])
  }

  /** Setting the same quantity twice is setting it once. */
  lemma UpdateQuantityIdempotent(cart: seq<CartItem>, id: int, q: int)
    requires CartValid(cart)
    ensures UpdateQuantity(UpdateQuantity(cart, id, q), id, q) == UpdateQuantity(cart, id, q)
  {
    var once := UpdateQuantity(cart, id, q);
    forall i | 0 <= i < |cart| && cart[i].productId == id
      ensures Clamp(q, once[i].availableStock) == Clamp(q, cart[i].availableStock)
    {
    }
  }

  /** `removeCartItem`: `items.filter(item => item.productId !== id)`. */
  function Remove(cart: seq<CartItem>, id: int): (r: seq<CartItem>)
    ensures forall x :: x in r <==> x in cart && x.productId != id
    ensures forall i :: 0 <= i < |r| ==> r[i].productId != id
    ensures forall x :: multiset(r)[x] == if x.productId != id then multiset(cart)[x] else 0
  {
    var r := Filter(cart, (item: CartItem) => item.productId != id);
    FilterCount(cart, (item: CartItem) => item.productId != id);
    assert forall x :: x in r <==> x in cart && x.productId != id by {
      forall x ensures x in r <==> x in cart && x.productId != id {
        FilterMembers(cart, (item: CartItem) => item.productId != id, x);
      }
    }
    r
  }

  /** Removal keeps the remaining lines in their order. */
  lemma RemoveKeepsOrder(cart: seq<CartItem>, id: int)
    ensures IsSubsequence(Remove(cart, id), cart)
  {
    FilterIsSubsequence(cart, (item: CartItem) => item.productId != id);
  }

  /** `saleTotal`: the sum of the subtotals, accumulated from the left as
      `reduce` does. */
  function Total(cart: seq<CartItem>): int
    decreases |cart|
  {
    if |cart| == 0 then 0 else Total(cart[..|cart| - 1]) + cart[|cart| - 1].subtotal
  }

  lemma {:induction false} TotalAppend(a: seq<CartItem>, b: seq<CartItem>)
    ensures Total(a + b) == Total(a) + Total(b)
    decreases |b|
  {
    if |b| == 0 {
      assert a + b == a;
    } else {
      assert (a + b)[..|a + b| - 1] == a + b[..|b| - 1];
      TotalAppend(a, b[..|b| - 1]);
    }
  }

  /** The total as a loop over the cart. */
  method SaleTotal(cart: seq<CartItem>) returns (sum: int)
    ensures sum == Total(cart)
  {
    sum := 0;
    var i := 0;
    while i < |cart|
      invariant 0 <= i <= |cart|
      invariant sum == Total(cart[..i])
    {
      assert cart[..i + 1][..i] == cart[..i];
      sum := sum + cart[i].subtotal;
      i := i + 1;
    }
    assert cart[..i] == cart;
  }

  /** Replacing one line changes the total by the change in its subtotal. */
  lemma {:induction false} TotalReplace(cart: seq<CartItem>, i: nat, item: CartItem)
    requires i < |cart|
    ensures Total(cart[i := item]) == Total(cart) - cart[i].subtotal + item.subtotal
  {
    assert cart == cart[..i] + [cart[i]] + cart[i + 1..];
    assert cart[i := item] == cart[..i] + [item] + cart[i + 1..];
    TotalAppend(cart[..i] + [cart[i]], cart[i + 1..]);
    TotalAppend(cart[..i], [cart[i]]);
    TotalAppend(cart[..i] + [item], cart[i + 1..]);
    TotalAppend(cart[..i], [item]);
    assert Total([cart[i]]) == cart[i].subtotal by { assert [cart[i]][..0] == []; }
    assert Total([item]) == item.subtotal by { assert [item][..0] == []; }
  }

  /** Adding a product raises the total by its price when it is new, by one
      unit price when an existing line grows, and not at all otherwise. */
  lemma AddToCartTotal(cart: seq<CartItem>, p: Product)
    requires CartValid(cart)
    ensures var i := FindIndex(cart, p.id);
      Total(AddToCart(cart, p)) == Total(cart) +
        (if i == -1 then p.precio
         else if cart[i].quantity < p.stock then cart[i].unitPrice
         else 0)
  {
    var i := FindIndex(cart, p.id);
    if i == -1 {
      TotalAppend(cart, [NewLine(p)]);
      assert Total([NewLine(p)]) == p.precio by { assert [NewLine(p)][..0] == []; }
    } else if cart[i].quantity < p.stock {
      var line := cart[i];
      var item := line.(quantity := line.quantity + 1, subtotal := (line.quantity + 1) * line.unitPrice);
      assert AddToCart(cart, p) == cart[i := item];
      TotalReplace(cart, i, item);
      assert LineValid(line);
      OneMoreUnit(line.quantity, line.unitPrice);
    }
  }

  lemma OneMoreUnit(q: int, u: int)
    ensures (q + 1) * u == q * u + u
  {
  }

  /** Adding keeps the invariants, given the guard the screen applies
      first (positive stock) and a stock no larger than the one the line
      remembers. */
  lemma AddPreservesValid(cart: seq<CartItem>, p: Product)
    requires CartValid(cart)
    requires p.stock > 0
    requires FindIndex(cart, p.id) >= 0 ==> p.stock <= cart[FindIndex(cart, p.id)].availableStock
    ensures CartValid(AddToCart(cart, p))
  {
    var r := AddToCart(cart, p);
    var i := FindIndex(cart, p.id);
    if i == -1 {
      assert forall j :: 0 <= j < |cart| ==> r[j] == cart[j];
    } else {
      assert forall j :: 0 <= j < |r| ==> r[j].productId == cart[j].productId;
      assert LineValid(cart[i]);
    }
  }

  /** Setting a quantity keeps the invariants. */
  lemma UpdatePreservesValid(cart: seq<CartItem>, id: int, q: int)
    requires CartValid(cart)
    ensures CartValid(UpdateQuantity(cart, id, q))
  {
    var r := UpdateQuantity(cart, id, q);
    assert forall j :: 0 <= j < |r| ==> r[j].productId == cart[j].productId;
    forall j | 0 <= j < |r| ensures LineValid(r[j]) {
      assert LineValid(cart[j]);
    }
  }

  /** Removing keeps the invariants. */
  lemma RemovePreservesValid(cart: seq<CartItem>, id: int)
    requires CartValid(cart)
    ensures CartValid(Remove(cart, id))
  {
    var r := Remove(cart, id);
    forall j | 0 <= j < |r| ensures LineValid(r[j]) {
      assert r[j] in cart;
    }
    FilterKeepsUnique(cart, (item: CartItem) => item.productId != id);
  }

  lemma {:induction false} FilterKeepsUnique(cart: seq<CartItem>, p: CartItem -> bool)
    requires UniqueIds(cart)
    ensures UniqueIds(Filter(cart, p))
    decreases |cart|
  {
    if |cart| > 0 {
      FilterKeepsUnique(cart[1..], p);
      if p(cart[0]) {
        var r := Filter(cart, p);
        assert r[1..] == Filter(cart[1..], p);
        forall j | 1 <= j < |r| ensures r[0].productId != r[j].productId {
          FilterMembers(cart[1..], p, r[j]);
        }
      }
    }
  }

  /** `CreateSaleDetailPayload`: one per line. */
  datatype DetailPayload = DetailPayload(venta_id: Json, producto_id: int, cantidad: int, subtotal: int)

  /** The detail payloads of a sale with id `ventaId`, one per cart line in
      cart order. */
  function DetailPayloads(ventaId: Json, cart: seq<CartItem>): (r: seq<DetailPayload>)
    ensures |r| == |cart|
    ensures forall i :: 0 <= i < |cart| ==>
      r[i] == DetailPayload(ventaId, cart[i].productId, cart[i].quantity, cart[i].subtotal)
  {
    seq(|cart|, i requires 0 <= i < |cart| =>
      DetailPayload(ventaId, cart[i].productId, cart[i].quantity, cart[i].subtotal))
  }

  function PayloadSum(ps: seq<DetailPayload>): int
    decreases |ps|
  {
    if |ps| == 0 then 0 else PayloadSum(ps[..|ps| - 1]) + ps[|ps| - 1].subtotal
  }

  /** The detail lines add up to the total sent with the sale. */
  lemma {:induction false} DetailPayloadsSumToTotal(ventaId: Json, cart: seq<CartItem>)
    ensures PayloadSum(DetailPayloads(ventaId, cart)) == Total(cart)
    decreases |cart|
  {
    if |cart| > 0 {
      var ps := DetailPayloads(ventaId, cart);
      assert ps[..|ps| - 1] == DetailPayloads(ventaId, cart[..|cart| - 1]);
      DetailPayloadsSumToTotal(ventaId, cart[..|cart| - 1]);
    }
  }
}

=== FILE: search.dfy ===
/** The search filters of the four list screens and of the sell screen.

    Every filter is `Array.prototype.filter` with a per-screen match
    predicate; `Filter` is that operation, and its lemmas say it keeps
    exactly the matching elements, every copy of each, in their original
    order. */
module Search {
  import opened JsText
  import opened Entities

  /** `xs.filter(p)`. */
  function Filter<T>(xs: seq<T>, p: T -> bool): (r: seq<T>)
    ensures |r| <= |xs|
    ensures forall i :: 0 <= i < |r| ==> p(r[i])
    decreases |xs|
  {
    if |xs| == 0 then []
    else if p(xs[0]) then [xs[0]] + Filter(xs[1..], p)
    else Filter(xs[1..], p)
  }

  /** `a` is `b` with some elements deleted, the rest in their order. */
  ghost predicate IsSubsequence<T>(a: seq<T>, b: seq<T>)
    decreases |b|
  {
    if |a| == 0 then true
    else if |b| == 0 then false
    else if a[0] == b[0] then IsSubsequence(a[1..], b[1..])
    else IsSubsequence(a, b[1..])
  }

  /** An element survives the filter exactly when it is in the input and
      matches. */
  lemma {:induction false} FilterMembers<T>(xs: seq<T>, p: T -> bool, x: T)
    ensures x in Filter(xs, p) <==> x in xs && p(x)
    decreases |xs|
  {
    if |xs| > 0 {
      FilterMembers(xs[1..], p, x);
      assert xs == [xs[0]] + xs[1..];
    }
  }

  /** The filter keeps the input's order: its result is a subsequence. */
  lemma {:induction false} FilterIsSubsequence<T>(xs: seq<T>, p: T -> bool)
    ensures IsSubsequence(Filter(xs, p), xs)
    decreases |xs|
  {
    if |xs| > 0 {
      FilterIsSubsequence(xs[1..], p);
      if p(xs[0]) {
        assert Filter(xs, p)[1..] == Filter(xs[1..], p);
      }
    }
  }

  /** The filter keeps every copy of a matching element and no copy of any
      other: as multisets, the result is exactly the matching part of the
      input. */
  lemma {:induction false} FilterCount<T>(xs: seq<T>, p: T -> bool)
    ensures forall x :: multiset(Filter(xs, p))[x] == if p(x) then multiset(xs)[x] else 0
    decreases |xs|
  {
    if |xs| > 0 {
      FilterCount(xs[1..], p);
      assert xs == [xs[0]] + xs[1..];
      assert multiset(xs) == multiset{xs[0]} + multiset(xs[1..]);
      if p(xs[0]) {
        assert multiset(Filter(xs, p)) == multiset{xs[0]} + multiset(Filter(xs[1..], p));
      }
    }
  }

  /** When every element matches the filter changes nothing. */
  lemma {:induction false} FilterAll<T>(xs: seq<T>, p: T -> bool)
    requires forall i :: 0 <= i < |xs| ==> p(xs[i])
    ensures Filter(xs, p) == xs
    decreases |xs|
  {
    if |xs| > 0 {
      FilterAll(xs[1..], p);
    }
  }

  /** Filtering twice with the same predicate is filtering once. */
  lemma FilterIdempotent<T>(xs: seq<T>, p: T -> bool)
    ensures Filter(Filter(xs, p), p) == Filter(xs, p)
  {
    FilterAll(Filter(xs, p), p);
  }

  // ---------------------------------------------------------------------
  // The list screens: the query is lower-cased but not trimmed, and the
  // empty query shows the list as fetched.

  /** The client list matches name, e-mail or telephone. */
  predicate ClientMatches(c: Client, q: string) {
    Contains(ToLower(c.nombre), q) || Contains(ToLower(c.email), q) || Contains(ToLower(c.telefono), q)
  }

  /** The supplier list matches name, contact or address. */
  predicate SupplierMatches(s: Supplier, q: string) {
    Contains(ToLower(s.nombre), q) || Contains(ToLower(s.contacto), q) || Contains(ToLower(s.direccion), q)
  }

  /** The category list matches the name only. */
  predicate CategoryMatches(c: Category, q: string) {
    Contains(ToLower(c.nombre), q)
  }

  /** The inventory list matches the product name only. */
  predicate ProductMatches(p: Product, q: string) {
    Contains(ToLower(p.nombre), q)
  }

  /** The client list as shown for `search`. */
  function ClientView(clients: seq<Client>, search: string): (r: seq<Client>)
    ensures search == "" ==> r == clients
    ensures forall c :: c in r <==> c in clients && (search == "" || ClientMatches(c, ToLower(search)))
  {
    if search == "" then clients
    else
      var q := ToLower(search);
      var r := Filter(clients, c => ClientMatches(c, q));
      assert forall c :: c in r <==> c in clients && ClientMatches(c, q) by {
        forall c ensures c in r <==> c in clients && ClientMatches(c, q) {
          FilterMembers(clients, c => ClientMatches(c, q), c);
        }
      }
      r
  }

  /** The supplier list as shown for `search`. */
  function SupplierView(suppliers: seq<Supplier>, search: string): (r: seq<Supplier>)
    ensures search == "" ==> r == suppliers
    ensures forall s :: s in r <==> s in suppliers && (search == "" || SupplierMatches(s, ToLower(search)))
  {
    if search == "" then suppliers
    else
      var q := ToLower(search);
      var r := Filter(suppliers, s => SupplierMatches(s, q));
      assert forall s :: s in r <==> s in suppliers && SupplierMatches(s, q) by {
        forall s ensures s in r <==> s in suppliers && SupplierMatches(s, q) {
          FilterMembers(suppliers, s => SupplierMatches(s, q), s);
        }
      }
      r
  }

  /** The category list as shown for `search`. */
  function CategoryView(categories: seq<Category>, search: string): (r: seq<Category>)
    ensures search == "" ==> r == categories
    ensures forall c :: c in r <==> c in categories && (search == "" || CategoryMatches(c, ToLower(search)))
  {
    if search == "" then categories
    else
      var q := ToLower(search);
      var r := Filter(categories, c => CategoryMatches(c, q));
      assert forall c :: c in r <==> c in categories && CategoryMatches(c, q) by {
        forall c ensures c in r <==> c in categories && CategoryMatches(c, q) {
          FilterMembers(categories, c => CategoryMatches(c, q), c);
        }
      }
      r
  }

  /** The inventory list as shown for `search`. */
  function ProductView(products: seq<Product>, search: string): (r: seq<Product>)
    ensures search == "" ==> r == products
    ensures forall p :: p in r <==> p in products && (search == "" || ProductMatches(p, ToLower(search)))
  {
    if search == "" then products
    else
      var q := ToLower(search);
      var r := Filter(products, p => ProductMatches(p, q));
      assert forall p :: p in r <==> p in products && ProductMatches(p, q) by {
        forall p ensures p in r <==> p in products && ProductMatches(p, q) {
          FilterMembers(products, p => ProductMatches(p, q), p);
        }
      }
      r
  }

  /** Each list view keeps every copy of a shown record: as multisets, a
      view is exactly the matching part of the fetched list. */
  lemma ViewsKeepCounts(clients: seq<Client>, suppliers: seq<Supplier>, categories: seq<Category>,
                        products: seq<Product>, search: string)
    ensures forall c :: multiset(ClientView(clients, search))[c] == if search == "" || ClientMatches(c, ToLower(search)) then multiset(clients)[c] else 0
    ensures forall s :: multiset(SupplierView(suppliers, search))[s] == if search == "" || SupplierMatches(s, ToLower(search)) then multiset(suppliers)[s] else 0
    ensures forall c :: multiset(CategoryView(categories, search))[c] == if search == "" || CategoryMatches(c, ToLower(search)) then multiset(categories)[c] else 0
    ensures forall p :: multiset(ProductView(products, search))[p] == if search == "" || ProductMatches(p, ToLower(search)) then multiset(products)[p] else 0
  {
    var q := ToLower(search);
    FilterCount(clients, c => ClientMatches(c, q));
    FilterCount(suppliers, s => SupplierMatches(s, q));
    FilterCount(categories, c => CategoryMatches(c, q));
    FilterCount(products, p => ProductMatches(p, q));
  }

  /** Each list view is an order-preserving sublist of the fetched list. */
  lemma ViewsAreSubsequences(clients: seq<Client>, suppliers: seq<Supplier>, categories: seq<Category>,
                             products: seq<Product>, search: string)
    ensures IsSubsequence(ClientView(clients, search), clients)
    ensures IsSubsequence(SupplierView(suppliers, search), suppliers)
    ensures IsSubsequence(CategoryView(categories, search), categories)
    ensures IsSubsequence(ProductView(products, search), products)
  {
    var q := ToLower(search);
    FilterIsSubsequence(clients, c => ClientMatches(c, q));
    FilterIsSubsequence(suppliers, s => SupplierMatches(s, q));
    FilterIsSubsequence(categories, c => CategoryMatches(c, q));
    FilterIsSubsequence(products, p => ProductMatches(p, q));
    SubsequenceRefl(clients);
    SubsequenceRefl(suppliers);
    SubsequenceRefl(categories);
    SubsequenceRefl(products);
  }

  lemma {:induction false} SubsequenceRefl<T>(xs: seq<T>)
    ensures IsSubsequence(xs, xs)
    decreases |xs|
  {
    if |xs| > 0 {
      SubsequenceRefl(xs[1..]);
    }
  }

  /** Searching the shown list again with the same text shows the same list. */
  lemma ViewsIdempotent(clients: seq<Client>, suppliers: seq<Supplier>, categories: seq<Category>,
                        products: seq<Product>, search: string)
    ensures ClientView(ClientView(clients, search), search) == ClientView(clients, search)
    ensures SupplierView(SupplierView(suppliers, search), search) == SupplierView(suppliers, search)
    ensures CategoryView(CategoryView(categories, search), search) == CategoryView(categories, search)
    ensures ProductView(ProductView(products, search), search) == ProductView(products, search)
  {
    var q := ToLower(search);
    FilterIdempotent(clients, c => ClientMatches(c, q));
    FilterIdempotent(suppliers, s => SupplierMatches(s, q));
    FilterIdempotent(categories, c => CategoryMatches(c, q));
    FilterIdempotent(products, p => ProductMatches(p, q));
  }

  /** The matching is case-insensitive in the query: an upper-case query
      finds what its lower-case spelling finds. */
  lemma CategoryViewIgnoresQueryCase(categories: seq<Category>, search: string)
    ensures CategoryView(categories, search) == CategoryView(categories, ToLower(search))
  {
    ToLowerIdempotent(search);
    if search != "" {
      assert ToLower(search) != "";
    } else {
      assert ToLower(search) == "";
    }
  }

  /** Over "Lacteos", "Bebidas" and "Limpieza", the query "le" finds
      nothing: no name holds the two letters next to each other. */
  lemma CategorySearchExample()
    ensures CategoryView([Category(1, "Lacteos"), Category(2, "Bebidas"), Category(3, "Limpieza")], "le") == []
  {
    assert ToLower("le") == "le";
    LacteosMisses("le");
    BebidasMisses("le");
    LimpiezaMisses("le");
  }

  lemma CategorySearchHit()
    ensures CategoryView([Category(1, "Lacteos"), Category(2, "Bebidas"), Category(3, "Limpieza")], "bEb") == [Category(2, "Bebidas")]
  {
    assert ToLower("bEb") == "beb";
    assert CategoryMatches(Category(2, "Bebidas"), "beb") by {
      assert ToLower("Bebidas")[..3] == "beb";
    }
    LacteosMisses("beb");
    LimpiezaMisses("beb");
  }

  lemma LacteosMisses(q: string)
    requires q == "le" || q == "beb"
    ensures !CategoryMatches(Category(1, "Lacteos"), q)
  {
    assert ToLower("Lacteos") == "lacteos";
    if q == "le" { NoPairIn("lacteos", 'l', 'e'); } else { NoStartIn("lacteos", "beb"); }
  }

  lemma BebidasMisses(q: string)
    requires q == "le"
    ensures !CategoryMatches(Category(2, "Bebidas"), q)
  {
    assert ToLower("Bebidas") == "bebidas";
    NoStartIn("bebidas", "le");
  }

  lemma LimpiezaMisses(q: string)
    requires q == "le" || q == "beb"
    ensures !CategoryMatches(Category(3, "Limpieza"), q)
  {
    assert ToLower("Limpieza") == "limpieza";
    if q == "le" { NoPairIn("limpieza", 'l', 'e'); } else { NoStartIn("limpieza", "beb"); }
  }

  /** A string in which `a` is never followed by `b` does not include `[a, b]`. */
  lemma {:induction false} NoPairIn(s: string, a: char, b: char)
    requires forall i :: 0 <= i < |s| - 1 ==> s[i] != a || s[i + 1] != b
    ensures !Contains(s, [a, b])
    decreases |s|
  {
    if |s| > 0 {
      if |s| >= 2 {
        assert s[..2][0] == s[0] && s[..2][1] == s[1];
      }
      forall i | 0 <= i < |s[1..]| - 1
        ensures s[1..][i] != a || s[1..][i + 1] != b
      {
        assert s[1..][i] == s[i + 1] && s[1..][i + 1] == s[i + 2];
      }
      NoPairIn(s[1..], a, b);
    }
  }

  /** A string without the first letter of `sub` does not include `sub`. */
  lemma {:induction false} NoStartIn(s: string, sub: string)
    requires |sub| > 0
    requires forall i :: 0 <= i < |s| ==> s[i] != sub[0]
    ensures !Contains(s, sub)
    decreases |s|
  {
    if |s| > 0 {
      if |sub| <= |s| {
        assert s[..|sub|][0] == s[0] != sub[0];
      }
      assert forall i :: 0 <= i < |s[1..]| ==> s[1..][i] == s[i + 1];
      NoStartIn(s[1..], sub);
    }
  }

  // ---------------------------------------------------------------------
  // The sell screen: the query is lower-cased and trimmed, and the
  // telephone is compared as it is.

  /** The sell screen's client match for an already normalised query. */
  predicate SellClientMatches(c: Client, q: string) {
    Contains(ToLower(c.nombre), q) || Contains(ToLower(c.email), q) || Contains(c.telefono, q)
  }

  /** The sell screen's product match: the name only. */
  predicate SellProductMatches(p: Product, q: string) {
    Contains(ToLower(p.nombre), q)
  }

  /** The query the sell screen searches for: `text.toLowerCase().trim()`. */
  function SellQuery(text: string): (q: string)
    ensures q == Trim(ToLower(text))
    ensures q == ToLower(Trim(text))
  {
    LowerThenTrim(text);
    Trim(ToLower(text))
  }
}

=== FILE: sell.dfy ===
/** The sell screen: the client and product searches, the cart actions, and
    the registration of a sale (the sale itself, then one detail per cart
    line, posted one after the other). */
module Sell {
  import opened Wrappers
  import opened JsText
  import opened Json
  import opened Http
  import opened Entities
  import opened Search
  import opened SaleCart
  import opened ErrorDetail

  datatype SellState = SellState(
    allClients: seq<Client>, searchedClients: seq<Client>, clientsErrorMessage: Option<string>,
    showClientSuggestions: bool, selectedClient: Option<Client>, clientSearchText: string, isFetchingAllClients: bool,
    allProducts: seq<Product>, searchedProducts: seq<Product>, productSearchErrorMessage: Option<string>,
    showProductSuggestions: bool, productSearchText: string, isFetchingAllProducts: bool,
    cart: seq<CartItem>, isRegisteringSale: bool,
    saleSuccessMessage: Option<string>, saleErrorMessage: Option<string>)

  /** `"text"` in double quotes, as the messages quote user input. */
  function Quoted(text: string): string {
    "\"" + text + "\""
  }

  /** The clients matching a query, in their order. */
  function MatchingClients(clients: seq<Client>, q: string): (r: seq<Client>)
    ensures forall c :: c in r <==> c in clients && SellClientMatches(c, q)
  {
    var found := Filter(clients, c => SellClientMatches(c, q));
    assert forall c :: c in found <==> c in clients && SellClientMatches(c, q) by {
      forall c ensures c in found <==> c in clients && SellClientMatches(c, q) {
        FilterMembers(clients, c => SellClientMatches(c, q), c);
      }
    }
    found
  }

  /** The products matching a query, in their order. */
  function MatchingProducts(products: seq<Product>, q: string): (r: seq<Product>)
    ensures forall p :: p in r <==> p in products && SellProductMatches(p, q)
  {
    var found := Filter(products, p => SellProductMatches(p, q));
    assert forall p :: p in found <==> p in products && SellProductMatches(p, q) by {
      forall p ensures p in found <==> p in products && SellProductMatches(p, q) {
        FilterMembers(products, p => SellProductMatches(p, q), p);
      }
    }
    found
  }

  /** The client search subscription for one (debounced) search text. */
  function OnClientSearch(s: SellState, searchText: string): (r: SellState)
    ensures var q := SellQuery(searchText);
      && (q == "" ==> r.searchedClients == s.allClients && r.clientsErrorMessage == None)
      && (forall c :: c in r.searchedClients <==> c in s.allClients && (q == "" || SellClientMatches(c, q)))
      && (r.clientsErrorMessage.Some? <==> q != "" && r.searchedClients == [] && s.selectedClient.None?)
      && (r.clientsErrorMessage.Some? ==>
            r.clientsErrorMessage.value == "No se encontraron clientes para " + Quoted(searchText) + ".")
    ensures r.showClientSuggestions <==> s.selectedClient.None?
    ensures r.(searchedClients := s.searchedClients, clientsErrorMessage := s.clientsErrorMessage,
               showClientSuggestions := s.showClientSuggestions) == s
  {
    var q := SellQuery(searchText);
    var show := s.selectedClient.None?;
    if q != "" then
      var found := MatchingClients(s.allClients, q);
      var err := if |found| == 0 && s.selectedClient.None?
        then Some("No se encontraron clientes para " + Quoted(searchText) + ".") else None;
      s.(searchedClients := found, clientsErrorMessage := err, showClientSuggestions := show)
    else
      s.(searchedClients := s.allClients, clientsErrorMessage := None, showClientSuggestions := show)
  }

  /** The product search subscription. */
  function OnProductSearch(s: SellState, searchText: string): (r: SellState)
    ensures var q := SellQuery(searchText);
      && (q == "" ==> r.searchedProducts == s.allProducts && r.productSearchErrorMessage == None)
      && (forall p :: p in r.searchedProducts <==> p in s.allProducts && (q == "" || SellProductMatches(p, q)))
      && (r.productSearchErrorMessage.Some? <==> q != "" && r.searchedProducts == [])
      && (r.productSearchErrorMessage.Some? ==>
            r.productSearchErrorMessage.value == "No se encontraron productos para " + Quoted(searchText) + ".")
    ensures r.showProductSuggestions
    ensures r.(searchedProducts := s.searchedProducts, productSearchErrorMessage := s.productSearchErrorMessage,
               showProductSuggestions := s.showProductSuggestions) == s
  {
    var q := SellQuery(searchText);
    if q != "" then
      var found := MatchingProducts(s.allProducts, q);
      var err := if |found| == 0 then Some("No se encontraron productos para " + Quoted(searchText) + ".") else None;
      s.(searchedProducts := found, productSearchErrorMessage := err, showProductSuggestions := true)
    else
      s.(searchedProducts := s.allProducts, productSearchErrorMessage := None, showProductSuggestions := true)
  }

  /** Both searches keep the order of the full lists. */
  lemma SearchesKeepOrder(s: SellState, clientText: string, productText: string)
    ensures IsSubsequence(OnClientSearch(s, clientText).searchedClients, s.allClients)
    ensures IsSubsequence(OnProductSearch(s, productText).searchedProducts, s.allProducts)
  {
    ClientSearchKeepsOrder(s, clientText);
    ProductSearchKeepsOrder(s, productText);
  }

  /** The client half of `SearchesKeepOrder`. */
  lemma ClientSearchKeepsOrder(s: SellState, text: string)
    ensures IsSubsequence(OnClientSearch(s, text).searchedClients, s.allClients)
  {
    var q := SellQuery(text);
    if q != "" {
      FilterIsSubsequence(s.allClients, c => SellClientMatches(c, q));
    } else {
      SubsequenceRefl(s.allClients);
    }
  }

  /** The product half of `SearchesKeepOrder`. */
  lemma ProductSearchKeepsOrder(s: SellState, text: string)
    ensures IsSubsequence(OnProductSearch(s, text).searchedProducts, s.allProducts)
  {
    var q := SellQuery(text);
    if q != "" {
      FilterIsSubsequence(s.allProducts, p => SellProductMatches(p, q));
    } else {
      SubsequenceRefl(s.allProducts);
    }
  }

  /** Surrounding blanks and capitals in the search text make no difference
      to the clients found. */
  lemma ClientSearchNormalises(s: SellState, searchText: string)
    ensures OnClientSearch(s, searchText).searchedClients == OnClientSearch(s, ToLower(Trim(searchText))).searchedClients
  {
    var t := ToLower(Trim(searchText));
    LowerThenTrim(searchText);
    TrimIdempotent(ToLower(searchText));
    LowerThenTrim(t);
    ToLowerIdempotent(Trim(searchText));
    assert SellQuery(t) == SellQuery(searchText);
  }

  /** `selectClient`. */
  function SelectClient(s: SellState, c: Client): (r: SellState)
    ensures r.selectedClient == Some(c) && r.clientSearchText == c.nombre
    ensures !r.showClientSuggestions && r.clientsErrorMessage == None
    ensures r.cart == s.cart && r.searchedClients == s.searchedClients
  {
    s.(selectedClient := Some(c), clientSearchText := c.nombre, showClientSuggestions := false, clientsErrorMessage := None)
  }

  /** `clearSelectedClient`. */
  function ClearSelectedClient(s: SellState): (r: SellState)
    ensures r.selectedClient == None && r.clientSearchText == ""
    ensures r.searchedClients == s.allClients && r.showClientSuggestions && r.clientsErrorMessage == None
    ensures r.cart == s.cart
  {
    s.(selectedClient := None, clientSearchText := "", searchedClients := s.allClients,
       showClientSuggestions := true, clientsErrorMessage := None)
  }

  /** Once a client is selected, a search never reports that no client was
      found. */
  lemma SelectedClientSilencesSearch(s: SellState, c: Client, searchText: string)
    ensures OnClientSearch(SelectClient(s, c), searchText).clientsErrorMessage == None
    ensures !OnClientSearch(SelectClient(s, c), searchText).showClientSuggestions
  {
  }

  // ---------------------------------------------------------------------
  // Loading the client and product lists.

  /** The state a handler leaves, and whether it sent a list request. */
  datatype Started = Started(state: SellState, requested: bool)

  const NoClientsText: string := "No hay clientes registrados."
  const ClientsFailedText: string := "Error al cargar la lista de clientes."
  const NoProductsText: string := "No hay productos registrados en el sistema."
  const ProductsFailedText: string := "Error al cargar la lista de productos."

  /** `fetchAllClientsOnce()` up to its request. With clients loaded or a
      load under way nothing is sent, and an empty search text shows the
      loaded clients again; otherwise the load starts and the client
      message is cleared. */
  function StartClientFetch(s: SellState): (r: Started)
    ensures r.requested <==> s.allClients == [] && !s.isFetchingAllClients
    ensures r.requested ==> r.state == s.(isFetchingAllClients := true, clientsErrorMessage := None)
    ensures !r.requested ==> r.state.(searchedClients := s.searchedClients) == s
    ensures !r.requested ==>
      r.state.searchedClients == (if s.allClients != [] && s.clientSearchText == "" then s.allClients else s.searchedClients)
  {
    if s.allClients != [] || s.isFetchingAllClients then
      Started(if s.allClients != [] && s.clientSearchText == "" then s.(searchedClients := s.allClients) else s, false)
    else
      Started(s.(isFetchingAllClients := true, clientsErrorMessage := None), true)
  }

  /** The clients a load shows: all of them for an empty search text,
      otherwise those matching it. */
  function ShownClients(clients: seq<Client>, text: string): (r: seq<Client>)
    ensures text == "" ==> r == clients
    ensures forall c :: c in r <==> c in clients && (text == "" || SellClientMatches(c, SellQuery(text)))
  {
    if text == "" then clients else MatchingClients(clients, SellQuery(text))
  }

  /** The products a load shows, as for the clients. */
  function ShownProducts(products: seq<Product>, text: string): (r: seq<Product>)
    ensures text == "" ==> r == products
    ensures forall p :: p in r <==> p in products && (text == "" || SellProductMatches(p, SellQuery(text)))
  {
    if text == "" then products else MatchingProducts(products, SellQuery(text))
  }

  /** The client load's reply. `data || []` becomes the client list, shown
      whole for an empty search text and otherwise filtered by it, and an
      empty list says that no client is registered. A failed load empties
      both lists and reports the failure. Either way the load ends. */
  function EndClientFetch(s: SellState, reply: Reply<Option<seq<Client>>>): (r: SellState)
    ensures !r.isFetchingAllClients
    ensures reply.Failed? ==> r.allClients == [] && r.searchedClients == [] && r.clientsErrorMessage == Some(ClientsFailedText)
    ensures reply.Ok? ==> var data := reply.value.GetOr([]);
      && r.allClients == data
      && (s.clientSearchText == "" ==> r.searchedClients == data)
      && (forall c :: c in r.searchedClients <==>
            c in data && (s.clientSearchText == "" || SellClientMatches(c, SellQuery(s.clientSearchText))))
      && r.clientsErrorMessage == (if data == [] then Some(NoClientsText) else s.clientsErrorMessage)
    ensures r.(allClients := s.allClients, searchedClients := s.searchedClients,
               clientsErrorMessage := s.clientsErrorMessage, isFetchingAllClients := s.isFetchingAllClients) == s
  {
    match reply
    case Ok(data) =>
      var clients := data.GetOr([]);
      s.(allClients := clients, searchedClients := ShownClients(clients, s.clientSearchText), isFetchingAllClients := false,
         clientsErrorMessage := if clients == [] then Some(NoClientsText) else s.clientsErrorMessage)
    case Failed(_) =>
      s.(allClients := [], searchedClients := [], clientsErrorMessage := Some(ClientsFailedText), isFetchingAllClients := false)
  }

  /** `fetchAllProductsOnce()` up to its request, as for the clients. */
  function StartProductFetch(s: SellState): (r: Started)
    ensures r.requested <==> s.allProducts == [] && !s.isFetchingAllProducts
    ensures r.requested ==> r.state == s.(isFetchingAllProducts := true, productSearchErrorMessage := None)
    ensures !r.requested ==> r.state.(searchedProducts := s.searchedProducts) == s
    ensures !r.requested ==>
      r.state.searchedProducts == (if s.allProducts != [] && s.productSearchText == "" then s.allProducts else s.searchedProducts)
  {
    if s.allProducts != [] || s.isFetchingAllProducts then
      Started(if s.allProducts != [] && s.productSearchText == "" then s.(searchedProducts := s.allProducts) else s, false)
    else
      Started(s.(isFetchingAllProducts := true, productSearchErrorMessage := None), true)
  }

  /** The product load's reply, as for the clients. */
  function EndProductFetch(s: SellState, reply: Reply<Option<seq<Product>>>): (r: SellState)
    ensures !r.isFetchingAllProducts
    ensures reply.Failed? ==>
      r.allProducts == [] && r.searchedProducts == [] && r.productSearchErrorMessage == Some(ProductsFailedText)
    ensures reply.Ok? ==> var data := reply.value.GetOr([]);
      && r.allProducts == data
      && (s.productSearchText == "" ==> r.searchedProducts == data)
      && (forall p :: p in r.searchedProducts <==>
            p in data && (s.productSearchText == "" || SellProductMatches(p, SellQuery(s.productSearchText))))
      && r.productSearchErrorMessage == (if data == [] then Some(NoProductsText) else s.productSearchErrorMessage)
    ensures r.(allProducts := s.allProducts, searchedProducts := s.searchedProducts,
               productSearchErrorMessage := s.productSearchErrorMessage, isFetchingAllProducts := s.isFetchingAllProducts) == s
  {
    match reply
    case Ok(data) =>
      var products := data.GetOr([]);
      s.(allProducts := products, searchedProducts := ShownProducts(products, s.productSearchText), isFetchingAllProducts := false,
         productSearchErrorMessage := if products == [] then Some(NoProductsText) else s.productSearchErrorMessage)
    case Failed(_) =>
      s.(allProducts := [], searchedProducts := [], productSearchErrorMessage := Some(ProductsFailedText),
         isFetchingAllProducts := false)
  }

  /** The lists are loaded once: a second call while the first load is
      under way sends nothing, and after the reply a new load is requested
      exactly when the reply left the list empty. */
  lemma ListsLoadOnce(s: SellState, clients: Reply<Option<seq<Client>>>, products: Reply<Option<seq<Product>>>)
    ensures !StartClientFetch(StartClientFetch(s).state).requested
    ensures StartClientFetch(EndClientFetch(StartClientFetch(s).state, clients)).requested <==>
      clients.Failed? || clients.value.GetOr([]) == []
    ensures !StartProductFetch(StartProductFetch(s).state).requested
    ensures StartProductFetch(EndProductFetch(StartProductFetch(s).state, products)).requested <==>
      products.Failed? || products.value.GetOr([]) == []
  {
  }

  /** A load that was sent leaves a client message exactly when it failed
      or found no client, and the failure text exactly when it failed; the
      same holds for the products. */
  lemma LoadMessages(s: SellState, clients: Reply<Option<seq<Client>>>, products: Reply<Option<seq<Product>>>)
    ensures StartClientFetch(s).requested ==> var r := EndClientFetch(StartClientFetch(s).state, clients);
      && (r.clientsErrorMessage.Some? <==> clients.Failed? || clients.value.GetOr([]) == [])
      && (r.clientsErrorMessage == Some(ClientsFailedText) <==> clients.Failed?)
    ensures StartProductFetch(s).requested ==> var r := EndProductFetch(StartProductFetch(s).state, products);
      && (r.productSearchErrorMessage.Some? <==> products.Failed? || products.value.GetOr([]) == [])
      && (r.productSearchErrorMessage == Some(ProductsFailedText) <==> products.Failed?)
  {
  }

  /** Every string contains the empty string, so a blank search matches
      every client and every product. */
  lemma BlankQueryMatchesAll(clients: seq<Client>, products: seq<Product>)
    ensures Filter(clients, c => SellClientMatches(c, "")) == clients
    ensures Filter(products, p => SellProductMatches(p, "")) == products
  {
    forall c: Client ensures SellClientMatches(c, "") {
      assert StartsWith(ToLower(c.nombre), "");
    }
    forall p: Product ensures SellProductMatches(p, "") {
      assert StartsWith(ToLower(p.nombre), "");
    }
    FilterAll(clients, c => SellClientMatches(c, ""));
    FilterAll(products, p => SellProductMatches(p, ""));
  }

  /** A successful load shows what the search subscription would show for
      the current search text over the loaded list. */
  lemma LoadAgreesWithSearch(s: SellState, clients: seq<Client>, products: seq<Product>)
    ensures EndClientFetch(s, Ok(Some(clients))).searchedClients ==
      OnClientSearch(s.(allClients := clients), s.clientSearchText).searchedClients
    ensures EndProductFetch(s, Ok(Some(products))).searchedProducts ==
      OnProductSearch(s.(allProducts := products), s.productSearchText).searchedProducts
  {
    ClientLoadAgrees(s, clients);
    ProductLoadAgrees(s, products);
  }

  /** The client half of `LoadAgreesWithSearch`. */
  lemma ClientLoadAgrees(s: SellState, clients: seq<Client>)
    ensures ShownClients(clients, s.clientSearchText) ==
      OnClientSearch(s.(allClients := clients), s.clientSearchText).searchedClients
  {
    if s.clientSearchText != "" && SellQuery(s.clientSearchText) == "" {
      BlankQueryMatchesAll(clients, []);
    }
  }

  /** The product half of `LoadAgreesWithSearch`. */
  lemma ProductLoadAgrees(s: SellState, products: seq<Product>)
    ensures ShownProducts(products, s.productSearchText) ==
      OnProductSearch(s.(allProducts := products), s.productSearchText).searchedProducts
  {
    if s.productSearchText != "" && SellQuery(s.productSearchText) == "" {
      BlankQueryMatchesAll([], products);
    }
  }

  /** `onClientSearchFocus`: starts the load when no clients are loaded and
      none is loading, and opens the suggestions unless a client is
      selected. Unlike a direct call of `fetchAllClientsOnce`, it never
      changes the clients shown. */
  function OnClientSearchFocus(s: SellState): (r: Started)
    ensures r.requested <==> s.allClients == [] && !s.isFetchingAllClients
    ensures r.requested ==> r.state.isFetchingAllClients && r.state.clientsErrorMessage == None
    ensures !r.requested ==> r.state.isFetchingAllClients == s.isFetchingAllClients && r.state.clientsErrorMessage == s.clientsErrorMessage
    ensures r.state.showClientSuggestions <==> s.selectedClient.None? || s.showClientSuggestions
    ensures r.state.searchedClients == s.searchedClients && r.state.allClients == s.allClients && r.state.cart == s.cart
  {
    var st := if s.allClients == [] && !s.isFetchingAllClients then StartClientFetch(s) else Started(s, false);
    Started(if s.selectedClient.None? then st.state.(showClientSuggestions := true) else st.state, st.requested)
  }

  /** `onProductSearchFocus`: starts the load when no products are loaded
      and none is loading, and always opens the suggestions. */
  function OnProductSearchFocus(s: SellState): (r: Started)
    ensures r.requested <==> s.allProducts == [] && !s.isFetchingAllProducts
    ensures r.requested ==> r.state.isFetchingAllProducts && r.state.productSearchErrorMessage == None
    ensures !r.requested ==>
      r.state.isFetchingAllProducts == s.isFetchingAllProducts && r.state.productSearchErrorMessage == s.productSearchErrorMessage
    ensures r.state.showProductSuggestions
    ensures r.state.searchedProducts == s.searchedProducts && r.state.allProducts == s.allProducts && r.state.cart == s.cart
  {
    var st := if s.allProducts == [] && !s.isFetchingAllProducts then StartProductFetch(s) else Started(s, false);
    Started(st.state.(showProductSuggestions := true), st.requested)
  }

  /** `ngOnInit` starts both loads on a screen that has none. */
  lemma OpeningLoadsBothLists(s: SellState)
    requires s.allClients == [] && !s.isFetchingAllClients && s.allProducts == [] && !s.isFetchingAllProducts
    ensures var c := StartClientFetch(s);
      c.requested && StartProductFetch(c.state).requested
  {
  }

  /** `getNumericValueFromEvent`: `Number` of the input's value, where a
      missing target or value, and NaN, read as 0. */
  function NumericValue(value: Option<string>): (r: JsNumber)
    ensures !r.NaN? && Canonical(r)
    ensures value.None? ==> r == Integer(0)
    ensures value.Some? && Trim(value.value) != [] && !IsNumericLiteral(Trim(value.value)) ==> r == Integer(0)
    ensures value.Some? && IsNumericLiteral(Trim(value.value)) ==> r == ToNumber(value.value)
  {
    match value
    case None => Integer(0)
    case Some(v) =>
      ToNumberNaNIff(v);
      var n := ToNumber(v);
      if n.NaN? then Integer(0) else n
  }

  /** A number typed as its own text is read back unchanged. */
  lemma NumericValueRoundTrip(n: JsNumber)
    requires Canonical(n) && !n.NaN?
    ensures NumericValue(Some(NumberText(n))) == n
  {
    NumberTextRoundTrip(n);
  }

  /** `addProductToCart`. A product without stock is refused with a message
      naming it; otherwise the cart is updated and the product search reset. */
  function AddProductToCart(s: SellState, p: Product): (r: SellState)
    ensures p.stock <= 0 ==>
      && r.cart == s.cart
      && r.productSearchErrorMessage == Some("Producto " + Quoted(p.nombre) + " sin stock.")
      && r.productSearchText == "" && r.searchedProducts == [] && !r.showProductSuggestions
    ensures p.stock > 0 ==>
      && r.cart == AddToCart(s.cart, p)
      && r.productSearchErrorMessage == s.productSearchErrorMessage
      && r.productSearchText == "" && r.searchedProducts == s.allProducts && !r.showProductSuggestions
    ensures r.selectedClient == s.selectedClient && r.saleErrorMessage == s.saleErrorMessage
  {
    if p.stock <= 0 then
      s.(productSearchErrorMessage := Some("Producto " + Quoted(p.nombre) + " sin stock."),
         productSearchText := "", searchedProducts := [], showProductSuggestions := false)
    else
      s.(cart := AddToCart(s.cart, p), productSearchText := "", searchedProducts := s.allProducts,
         showProductSuggestions := false)
  }

  /** The screen's cart actions keep the cart invariants, provided a product
      offered again has no more stock than its line remembers. */
  lemma AddProductKeepsCartValid(s: SellState, p: Product)
    requires CartValid(s.cart)
    requires FindIndex(s.cart, p.id) >= 0 ==> p.stock <= s.cart[FindIndex(s.cart, p.id)].availableStock
    ensures CartValid(AddProductToCart(s, p).cart)
  {
    if p.stock > 0 {
      AddPreservesValid(s.cart, p);
    }
  }

  /** `clearSale`. */
  function ClearSale(s: SellState): (r: SellState)
    ensures r.cart == [] && r.selectedClient == None && r.clientSearchText == "" && r.productSearchText == ""
    ensures r.searchedClients == s.allClients && r.searchedProducts == s.allProducts
    ensures r.saleSuccessMessage == None && r.saleErrorMessage == None
    ensures r.productSearchErrorMessage == None && r.clientsErrorMessage == None
    ensures !r.showProductSuggestions && !r.showClientSuggestions
    ensures r.allClients == s.allClients && r.allProducts == s.allProducts && r.isRegisteringSale == s.isRegisteringSale
  {
    ClearSelectedClient(s).(cart := [], productSearchText := "", searchedProducts := s.allProducts,
      saleSuccessMessage := None, saleErrorMessage := None, productSearchErrorMessage := None,
      clientsErrorMessage := None, showProductSuggestions := false, showClientSuggestions := false)
  }

  /** `CreateSalePayload`. */
  datatype SalePayload = SalePayload(cliente_id: int, total: int)

  /** The synchronous part of `registerSale`: refused with a message, or
      sent with its payload. */
  datatype SaleStart = Refused(state: SellState) | Sent(state: SellState, payload: SalePayload)

  const NoClientError: string := "Por favor, selecciona un cliente."
  const EmptyCartError: string := "Por favor, añade productos al carrito."

  /** A sale needs a selected client and a non-empty cart; its payload
      carries the client's id and the cart total. */
  function StartRegisterSale(s: SellState): (r: SaleStart)
    ensures s.selectedClient.None? ==> r == Refused(s.(saleErrorMessage := Some(NoClientError)))
    ensures s.selectedClient.Some? && s.cart == [] ==> r == Refused(s.(saleErrorMessage := Some(EmptyCartError)))
    ensures r.Sent? <==> s.selectedClient.Some? && s.cart != []
    ensures r.Sent? ==>
      && r.payload == SalePayload(s.selectedClient.value.id, Total(s.cart))
      && r.state == s.(isRegisteringSale := true, saleSuccessMessage := None, saleErrorMessage := None)
  {
    if s.selectedClient.None? then Refused(s.(saleErrorMessage := Some(NoClientError)))
    else if |s.cart| == 0 then Refused(s.(saleErrorMessage := Some(EmptyCartError)))
    else Sent(s.(isRegisteringSale := true, saleSuccessMessage := None, saleErrorMessage := None),
              SalePayload(s.selectedClient.value.id, Total(s.cart)))
  }

  /** The total a sale is sent with is the loop-computed sum the screen
      shows, and the detail lines add up to it. */
  method SentTotal(s: SellState) returns (total: int)
    requires StartRegisterSale(s).Sent?
    ensures total == StartRegisterSale(s).payload.total
    ensures forall id: Json :: PayloadSum(DetailPayloads(id, s.cart)) == total
  {
    total := SaleTotal(s.cart);
    forall id: Json ensures PayloadSum(DetailPayloads(id, s.cart)) == total {
      DetailPayloadsSumToTotal(id, s.cart);
    }
  }

  /** `new Error('Respuesta inválida al crear la venta.')`. */
  const InvalidResponse: Failure := ThrownError("Respuesta inválida al crear la venta.")

  lemma InvalidResponseText()
    ensures SaleFailedText(InvalidResponse) == "Error al registrar la venta: " + "Respuesta inválida al crear la venta."
  {
    assert Get(Body(InvalidResponse), "message") == None && Get(Body(InvalidResponse), "detail") == None;
    assert SaleDetail(InvalidResponse) == "Respuesta inválida al crear la venta.";
  }

  /** A response is usable when it and its `id` are truthy. */
  predicate ValidSaleResponse(resp: Json) {
    Truthy(resp) && TruthyProp(Get(resp, "id"))
  }

  /** `Total: ${typeof total === 'number' ? total.toFixed(2) : total}` for
      an integral total. */
  function TotalText(total: Option<Json>): string {
    if total.Some? && total.value.JNum? then IntToString(total.value.n) + ".00" else PropText(total)
  }

  function SaleRegisteredText(resp: Json): string {
    "Venta #" + PropText(Get(resp, "id")) + " registrada. Total: " + TotalText(Get(resp, "total"))
  }

  function SaleFailedText(f: Failure): string {
    "Error al registrar la venta: " + SaleDetail(f)
  }

  /** The index of the first detail post that fails, or `n` when none of
      the `n` posts does. */
  function FirstFailure(n: nat, detailReply: nat -> Reply<Json>): (k: nat)
    ensures k <= n
    ensures forall i :: 0 <= i < k ==> detailReply(i).Ok?
    ensures k < n ==> detailReply(k).Failed?
    decreases n
  {
    if n == 0 then 0
    else
      var k := FirstFailure(n - 1, detailReply);
      if k < n - 1 then k else if detailReply(n - 1).Failed? then n - 1 else n
  }

  /** How a sale registration ended: the state, and the detail payloads
      actually posted, in order. */
  datatype SaleEnd = SaleEnd(state: SellState, posted: seq<DetailPayload>)

  /** The asynchronous part of `registerSale`, given the reply to the sale
      post and the reply to each detail post. `keepMessage` chooses where
      the success message is set: before `clearSale` as written (which
      erases it), or after it. */
  function FinishSaleWith(s: SellState, saleReply: Reply<Json>, detailReply: nat -> Reply<Json>, keepMessage: bool): (r: SaleEnd)
    ensures !r.state.isRegisteringSale
    ensures saleReply.Failed? ==> r.posted == [] && r.state.saleErrorMessage == Some(SaleFailedText(saleReply.failure))
    ensures saleReply.Ok? && !ValidSaleResponse(saleReply.value) ==>
      r.posted == [] && r.state.saleErrorMessage == Some("Error al registrar la venta: " + "Respuesta inválida al crear la venta.")
    ensures saleReply.Failed? ==>
      r.state == s.(saleErrorMessage := Some(SaleFailedText(saleReply.failure)), isRegisteringSale := false)
    ensures saleReply.Ok? && !ValidSaleResponse(saleReply.value) ==>
      r.state == s.(saleErrorMessage := Some(SaleFailedText(InvalidResponse)), isRegisteringSale := false)
    ensures saleReply.Ok? && ValidSaleResponse(saleReply.value) ==>
      var payloads := DetailPayloads(Get(saleReply.value, "id").value, s.cart);
      var k := FirstFailure(|payloads|, detailReply);
      && r.posted == payloads[..if k < |payloads| then k + 1 else k]
      && (k < |payloads| ==> r.state == s.(saleErrorMessage := Some(SaleFailedText(detailReply(k).failure)), isRegisteringSale := false))
      && (k == |payloads| ==> r.state.cart == [] && r.state.saleErrorMessage == None)
      && (k == |payloads| ==> r.state.saleSuccessMessage == (if keepMessage then Some(SaleRegisteredText(saleReply.value)) else None))
      && (k == |payloads| ==> r.state == (if keepMessage
            then ClearSale(s).(isRegisteringSale := false, saleSuccessMessage := Some(SaleRegisteredText(saleReply.value)))
            else ClearSale(s).(isRegisteringSale := false)))
  {
    InvalidResponseText();
    match saleReply
    case Failed(f) => SaleEnd(SaleFailed(s, f), [])
    case Ok(resp) =>
      if !ValidSaleResponse(resp) then SaleEnd(SaleFailed(s, InvalidResponse), [])
      else
        var payloads := DetailPayloads(Get(resp, "id").value, s.cart);
        var k := FirstFailure(|payloads|, detailReply);
        assert payloads[..|payloads|] == payloads;
        if k < |payloads| then SaleEnd(SaleFailed(s, detailReply(k).failure), payloads[..k + 1])
        else
          var cleared := ClearSale(s).(isRegisteringSale := false);
          SaleEnd(if keepMessage then cleared.(saleSuccessMessage := Some(SaleRegisteredText(resp))) else cleared, payloads)
  }

  /** The screen after a failed post: only the error message is set, and
      the registration ends. */
  function SaleFailed(s: SellState, f: Failure): SellState {
    s.(saleErrorMessage := Some(SaleFailedText(f)), isRegisteringSale := false)
  }

  /** `registerSale`'s outcome as written. */
  function FinishRegisterSale(s: SellState, saleReply: Reply<Json>, detailReply: nat -> Reply<Json>): (r: SaleEnd)
    ensures !r.state.isRegisteringSale
    ensures saleReply.Failed? ==> r.posted == [] && r.state.saleErrorMessage == Some(SaleFailedText(saleReply.failure))
    ensures saleReply.Ok? && !ValidSaleResponse(saleReply.value) ==>
      r.posted == [] && r.state.saleErrorMessage == Some("Error al registrar la venta: " + "Respuesta inválida al crear la venta.")
    ensures saleReply.Failed? ==>
      r.state == s.(saleErrorMessage := Some(SaleFailedText(saleReply.failure)), isRegisteringSale := false)
    ensures saleReply.Ok? && !ValidSaleResponse(saleReply.value) ==>
      r.state == s.(saleErrorMessage := Some(SaleFailedText(InvalidResponse)), isRegisteringSale := false)
    ensures saleReply.Ok? && ValidSaleResponse(saleReply.value) ==>
      var payloads := DetailPayloads(Get(saleReply.value, "id").value, s.cart);
      var k := FirstFailure(|payloads|, detailReply);
      && r.posted == payloads[..if k < |payloads| then k + 1 else k]
      && (k < |payloads| ==> r.state == s.(saleErrorMessage := Some(SaleFailedText(detailReply(k).failure)), isRegisteringSale := false))
      && (k == |payloads| ==> r.state.cart == [] && r.state.saleSuccessMessage == None && r.state.saleErrorMessage == None)
      && (k == |payloads| ==> r.state == ClearSale(s).(isRegisteringSale := false))
  {
    FinishSaleWith(s, saleReply, detailReply, false)
  }

  /** The outcome with the success message set after the sale is cleared,
      so that it stays on screen. */
  function FinishRegisterSaleFixed(s: SellState, saleReply: Reply<Json>, detailReply: nat -> Reply<Json>): (r: SaleEnd)
    ensures !r.state.isRegisteringSale
    ensures saleReply.Failed? ==> r.posted == [] && r.state.saleErrorMessage == Some(SaleFailedText(saleReply.failure))
    ensures saleReply.Ok? && !ValidSaleResponse(saleReply.value) ==>
      r.posted == [] && r.state.saleErrorMessage == Some("Error al registrar la venta: " + "Respuesta inválida al crear la venta.")
    ensures saleReply.Failed? ==>
      r.state == s.(saleErrorMessage := Some(SaleFailedText(saleReply.failure)), isRegisteringSale := false)
    ensures saleReply.Ok? && !ValidSaleResponse(saleReply.value) ==>
      r.state == s.(saleErrorMessage := Some(SaleFailedText(InvalidResponse)), isRegisteringSale := false)
    ensures saleReply.Ok? && ValidSaleResponse(saleReply.value) ==>
      var payloads := DetailPayloads(Get(saleReply.value, "id").value, s.cart);
      var k := FirstFailure(|payloads|, detailReply);
      && r.posted == payloads[..if k < |payloads| then k + 1 else k]
      && (k < |payloads| ==> r.state == s.(saleErrorMessage := Some(SaleFailedText(detailReply(k).failure)), isRegisteringSale := false))
      && (k == |payloads| ==> r.state.cart == [] && r.state.saleSuccessMessage == Some(SaleRegisteredText(saleReply.value))
                              && r.state.saleErrorMessage == None)
      && (k == |payloads| ==>
            r.state == ClearSale(s).(isRegisteringSale := false, saleSuccessMessage := Some(SaleRegisteredText(saleReply.value))))
  {
    FinishSaleWith(s, saleReply, detailReply, true)
  }

  /** The posted details are always the cart's lines in cart order, cut
      after the first failing post. */
  lemma PostedArePrefixOfCart(s: SellState, saleReply: Reply<Json>, detailReply: nat -> Reply<Json>)
    ensures var r := FinishRegisterSale(s, saleReply, detailReply);
      |r.posted| <= |s.cart| &&
      forall i :: 0 <= i < |r.posted| ==>
        r.posted[i].producto_id == s.cart[i].productId && r.posted[i].cantidad == s.cart[i].quantity
        && r.posted[i].subtotal == s.cart[i].subtotal
  {
  }

  /** The two outcomes differ only in the success message, and only when
      every post succeeded. */
  lemma FixedSaleDiffersOnlyInMessage(s: SellState, saleReply: Reply<Json>, detailReply: nat -> Reply<Json>)
    ensures var a := FinishRegisterSale(s, saleReply, detailReply);
      var b := FinishRegisterSaleFixed(s, saleReply, detailReply);
      a.posted == b.posted && a.state == b.state.(saleSuccessMessage := a.state.saleSuccessMessage)
  {
  }

  /** Every detail post accepted. */
  function AllAccepted(i: nat): Reply<Json> {
    Ok(JNull)
  }

  /** The reply `{"id": 9, "total": 30}` to the sale post. */
  const Sale9: Json := JObj([("id", JNum(9)), ("total", JNum(30))])

  lemma Sale9Text()
    ensures ValidSaleResponse(Sale9)
    ensures SaleRegisteredText(Sale9) == "Venta #" + "9" + " registrada. Total: " + "30" + ".00"
  {
    assert Get(Sale9, "id") == Some(JNum(9));
    assert Get(Sale9, "total") == Some(JNum(30));
    Numerals();
    assert PropText(Get(Sale9, "id")) == "9";
    assert TotalText(Get(Sale9, "total")) == "30" + ".00";
  }

  lemma Numerals()
    ensures IntToString(9) == "9" && IntToString(30) == "30"
  {
    assert DigitChar(9) == '9' && DigitChar(3) == '3' && DigitChar(0) == '0';
    assert NatToString(9) == "9";
    assert NatToString(3) == "3";
    assert NatToString(30) == NatToString(3) + [DigitChar(0)];
  }

  /** Sale 9 for a total of 30 with every post accepted: the message
      "Venta #9 registrada. Total: 30.00" is set and at once cleared. */
  lemma SaleMessageLost(s: SellState)
    ensures FinishRegisterSale(s, Ok(Sale9), AllAccepted).state.saleSuccessMessage == None
    ensures FinishRegisterSaleFixed(s, Ok(Sale9), AllAccepted).state.saleSuccessMessage == Some("Venta #" + "9" + " registrada. Total: " + "30" + ".00")
  {
    Sale9Text();
    var payloads := DetailPayloads(Get(Sale9, "id").value, s.cart);
    assert FirstFailure(|payloads|, AllAccepted) == |payloads|;
  }
}

=== FILE: wrappers.dfy ===
/** The optional-value type used wherever the application stores `null`. */
module Wrappers {

  /** `None` stands for a JavaScript `null` (or an absent value). */
  datatype Option<+T> = None | Some(value: T) {

    /** Returns the value held in `Some`, or `default` for `None`. */
    function GetOr(default: T): T {
      match this
      case Some(v) => v
      case None => default
    }
  }
}
